=== FILE: README.md ===
# ClickerBase game logic in Dafny

This project models the deterministic core of the ClickerBase incremental
("clicker") game, beneath its Phaser presentation layer, and proves
properties of it. Each part below has its own module.

- **LargeNumber** (`large_number.dfy`): the BigInt counter wrapper. It
  covers increment, decrement, multiply, a divide that truncates toward zero
  (section 6.1.6.2.5 of ECMA-262), get and set, decimal text with its
  parser, and the truncated scientific notation used for display.
- **Economy** (`economy.dfy`): the record of counters and prices. It covers
  the affordability test, the five guarded purchases, `incrementCounter`,
  the two display strings, and the `getState`/`restoreState` round trip
  through decimal strings.
- **Particle** (`particle.dfy`): the particle life cycle. A particle is
  spawned, ages, and then either expires silently or is consumed by a black
  hole, which fires its one-shot reward callback. The legacy particle is the
  same machine with the callback always absent.
- **Pool** (`pool.dfy`): the particle pool. It reuses the first inactive
  slot, grows up to a cap, and otherwise evicts the front of the active list,
  which in a clean pool (no repeated entries) is the oldest spawn. Its update sweeps out particles that died. The legacy
  pool shares this model with a different default cap.
- **BlackHole** (`black_hole.dfy`): one gravity well acting on one particle.
  Inactive or out-of-range particles are ignored. Inside the kill radius the
  particle is consumed. Otherwise the well adds an inverse-square pull with
  a swirl, then damps only the radial velocity.
- **ParticleSystem** (`particle_system.dfy`): the orchestration. It covers
  the capped explosion, the holes × active-particles gravity pass, and the
  active count.
- **TechTree** (`tech_tree.dfy`): the upgrade tree as constant data, with
  lemmas that it is well formed.
- **UiLayout** (`ui_layout.dfy`): the pure parts of the UI manager. It
  covers the branch map that positions the nodes, the modal size and tree
  offset, and the `_modalOpen` flag that gates clicks and button refreshes.
- **Helpers** (`helpers.dfy`): the pure helpers. They are sequence
  utilities, clamping, and integer time formatting.
- **Wrappers** (`wrappers.dfy`): `Option` and `Result`.

Modelling choices:

- BigInt fields are `int`, and `autoInterval` and all geometry are `real`.
- Particles are records in a `seq`, and the active list is a `seq` of slot
  indices.
- A reward callback is an `Option<Token>`. Every operation that can fire one
  returns the fired tokens as part of its result.
- Dafny has no square root, so the distance to a hole and the unit vector
  toward it are inputs. `BlackHole.Measures` ties them to the offset: the
  distance squared equals dx² + dy², and the unit vector is the offset
  divided by the distance. The gravity pass takes a `measure` function that
  satisfies this for every offset.
- `Math.random` in an explosion becomes a `jitter` parameter. It gives the
  position offset and velocity of each spawn.
- Screen size is a parameter, as are the tree offset and the elapsed time.
- `arraysEqual(null, null)` is true, because the identity test comes first
  (src/manager/helpers.js:223).
- `formatTime` applies JavaScript's `~~` to its fields, which wraps to 32
  bits. `Helpers.ToInt32` models that wrap-around, and `/` and `%` follow
  JavaScript's truncating semantics.

Where the code disagrees with its own comments or with the defaults in src/gameData.js, the model follows the code:

- The economy's initial values are those of the `EconomyManager`
  constructor (src/manager/EconomyManager.js:18-32). For example, the
  multiplier starts at 10 and multiPrice at 100. The defaults in
  src/gameData.js differ (multiplier 1, multiPrice 10) and are not used.
- The swirl is `swirlFactor · min(1, 80 / d)`, which is at full strength up
  close and weaker far away (src/manager/blackHole.js:82). The comment beside
  it says the swirl tapers off near the hole.
  `BlackHole.SwirlBounds` states what the code does.

## Model

| member | source | states |
|---|---|---|
| LargeNumber.Increment | src/LargeNumber.js:21-24 | increment raises the value exactly when the step is positive |
| LargeNumber.Decrement | src/LargeNumber.js:26-29 | decrement lowers the value exactly when the step is positive |
| LargeNumber.IncrementThenDecrement | src/LargeNumber.js:21-29 | decrementing by the step just added restores the original; both steps default to 1 |
| LargeNumber.Multiply | src/LargeNumber.js:31-34 | multiplying by zero gives zero |
| LargeNumber.TruncDiv | src/LargeNumber.js:36-39 | BigInt quotient: the remainder has the dividend's sign and is smaller in magnitude than the divisor, i.e. the quotient is truncated toward zero |
| LargeNumber.TruncDivUnique | src/LargeNumber.js:36-39 | that remainder condition determines the quotient uniquely |
| LargeNumber.TruncDivTowardZero | src/LargeNumber.js:36-39 | -7 / 2 is -3 for BigInt where Euclidean division gives -4; the other sign cases behave the same way |
| LargeNumber.Divide | src/LargeNumber.js:36-39 | a zero divisor is the one failure, DivisionByZero; otherwise a non-negative value over a positive divisor is the ordinary quotient |
| LargeNumber.MultiplyThenDivide | src/LargeNumber.js:31-39 | multiplying by any nonzero b and then dividing by b restores the value |
| LargeNumber.SetThenGet | src/LargeNumber.js:41-55 | after setValue(v), getValue returns v and nothing of the old value is kept |
| LargeNumber.GetValue | src/LargeNumber.js:41-43 | reads the wrapped value; SetThenGet states that it returns exactly what setValue stored |
| LargeNumber.SetValue | src/LargeNumber.js:53-55 | replaces the wrapped value outright; SetThenGet states that nothing of the old value survives |
| LargeNumber.NatDigits | src/LargeNumber.js:46 | the decimal text of a natural number is non-empty, all digits, and has no leading zero unless it is "0" |
| LargeNumber.NatDigitsValue | src/LargeNumber.js:46 | the digits read back as the number |
| LargeNumber.DecimalRoundTrip | src/manager/EconomyManager.js:169-200 | parsing the decimal text of any integer, including negatives, gives back that integer |
| LargeNumber.ParseDecimal | src/LargeNumber.js:53-55 | `BigInt(text)` on decimal text: an optional sign and digits, the empty text as 0, anything else unreadable; DecimalRoundTrip states that it inverts the decimal printer on every integer |
| LargeNumber.DecimalStringInjective | src/LargeNumber.js:46 | distinct integers have distinct decimal texts |
| LargeNumber.NatDigitsLength | src/LargeNumber.js:46-47 | a positive n with k digits lies in [10^(k-1), 10^k) |
| LargeNumber.ENotationMeaning | src/LargeNumber.js:45-50 | e-notation is first digit, ".", up to 4 more digits, "e+", exponent; the exponent is the digit count less one (10^e ≤ v < 10^(e+1)); the mantissa digits are v truncated, not rounded |
| LargeNumber.ENotation | src/LargeNumber.js:45-50 | getValueInENotation; ENotationMeaning states its shape (first digit, point, up to four truncated digits, exponent = digit count − 1) |
| LargeNumber.ENotationSingleDigit | src/LargeNumber.js:48-49 | 5 is written "5.e+0" (an empty fraction) |
| LargeNumber.ENotationTruncates | src/LargeNumber.js:48-49 | 123456 is written "1.2345e+5": the sixth digit is dropped, not rounded |
| Economy.BuyMultiplier | src/manager/EconomyManager.js:79-89 | succeeds iff counter ≥ multiPrice; on failure nothing changes; on success counter −= multiPrice, multiPrice ×2, multiplier +1, incrementValue ×2, nothing else |
| Economy.BuyAutoClick | src/manager/EconomyManager.js:95-105 | succeeds iff counter ≥ autoPrice; on success counter −= autoPrice, autoPrice ×2, autoInterval loses 1% with a floor of 1, nothing else |
| Economy.BuyGravity | src/manager/EconomyManager.js:111-119 | succeeds iff counter ≥ gravityPrice; on success only the counter and gravityPrice change (debit, double) |
| Economy.BuyAutoMulti | src/manager/EconomyManager.js:125-133 | succeeds iff counter ≥ autoMultiPrice; on success only the counter and autoMultiPrice change (debit, double) |
| Economy.BuyObject | src/manager/EconomyManager.js:139-146 | succeeds iff counter ≥ playerPrice; on success only the counter is debited and playerPrice stays |
| Economy.PurchaseIsGuarded | src/manager/EconomyManager.js:42-44 | every purchase succeeds exactly when canAfford holds for its price, fails with no state change, debits exactly the price, never takes a non-negative counter below zero, and never lowers a price |
| Economy.CanAfford | src/manager/EconomyManager.js:42-44 | the counter reaches the price; PurchaseIsGuarded states that each purchase succeeds exactly when it holds |
| Economy.PurchaseDoublesOwnPrice | src/manager/EconomyManager.js:79-146 | a successful purchase doubles its own price (buyObject keeps it) and leaves every other price alone |
| Economy.AutoIntervalShrinksToFloor | src/manager/EconomyManager.js:99-100 | from an interval ≥ 1, buying auto-click keeps the interval in [1, old]; it is exactly 99% of the old one while that stays above the floor |
| Economy.IncrementCounter | src/manager/EconomyManager.js:154-159 | with no argument the counter grows by incrementValue, with one by exactly that amount; no other field changes |
| Economy.OperationsPreserveHealth | src/manager/EconomyManager.js:79-159 | purchases and non-negative increments keep the counter non-negative and the prices positive |
| Economy.InitialIsHealthy | src/manager/EconomyManager.js:16-33 | the constructor's state has a non-negative counter and positive prices |
| Economy.ClickTimesEarns | src/manager/EconomyManager.js:154-159 | n plain clicks add n × incrementValue and change nothing else |
| Economy.FirstMultiplierScenario | src/manager/EconomyManager.js:16-33 | from a new game, 100 clicks afford the first multiplier exactly: counter 0, multiPrice 200, multiplier 11, incrementValue 2 |
| Economy.FormattedCounterMeaning | src/manager/EconomyManager.js:50-56 | up to 1,000,000,000 the counter text parses back to the counter; above it is e-notation with exponent ≥ 9 |
| Economy.FormattedCounter | src/manager/EconomyManager.js:50-56 | the counter label; FormattedCounterMeaning states that it is exact up to 1,000,000,000 and e-notation above |
| Economy.FormattedMultiplierMeaning | src/manager/EconomyManager.js:62-71 | up to 1,000,000 the multiplier text parses back to the multiplier, above it is e-notation with exponent ≥ 6; the bracket holds incrementValue's e-notation |
| Economy.FormattedMultiplier | src/manager/EconomyManager.js:62-71 | the multiplier label; FormattedMultiplierMeaning states its exact and e-notation forms and the bracketed incrementValue |
| Economy.PriceKeysResolve | src/manager/EconomyManager.js:23-27 | each upgrade's price key resolves to that upgrade and no other key does |
| Economy.RestoreStateAsWritten | src/manager/EconomyManager.js:187-201 | a missing state changes nothing; otherwise the fields are assigned in source order up to the first text that does not parse, which raises an error naming that field with every earlier field already overwritten; a fully readable record raises nothing |
| Economy.RestoreState | src/manager/EconomyManager.js:187-201 | (corrected restore) a missing state changes nothing; a state with an unparsable field leaves the economy unchanged and reports the same field the source throws on; a readable state replaces every field |
| Economy.RestoresAgreeOnReadable | src/manager/EconomyManager.js:187-201 | on a fully readable record the source's restore and the corrected one give the same economy and no error |
| Economy.ApplyReadableRecord | src/manager/EconomyManager.js:190-200 | applying the field assignments of a fully readable record, in source order, yields the decoded record with no error |
| Economy.GetState | src/manager/EconomyManager.js:167-181 | every big number saved as its decimal text, intervals as they are; SaveRestoreRoundTrip states that restoring it reproduces the economy |
| Economy.SaveRestoreRoundTrip | src/manager/EconomyManager.js:167-201 | restoring what getState saved reproduces every field from any current state, both as written and corrected |
| Economy.PartialRestoreWitness | src/manager/EconomyManager.js:190-191 | as written, a record with a good counter and a bad multiplier leaves the counter overwritten and reports the multiplier; the corrected restore leaves the state untouched |
| Particle.New | src/manager/PhysicsParticle.js:2-30 | a new particle is inactive with lifetime 0, maxLifetime 30000 and no callback; at the sentinel it is dormant |
| Particle.Spawn | src/manager/PhysicsParticle.js:40-52 | spawn activates, places, sets velocity, resets lifetime to 0 and replaces the callback with the argument |
| Particle.Deactivate | src/manager/PhysicsParticle.js:82-91 | deactivation leaves the particle inactive, callback cleared, at (-10000, -10000), at rest, with its age kept |
| Particle.Kill | src/manager/PhysicsParticle.js:66-68 | kill leaves the particle dormant and fires nothing |
| Particle.KillByBlackHole | src/manager/PhysicsParticle.js:74-79 | consumption fires exactly the bound callback, if any, and leaves the particle dormant |
| Particle.Update | src/manager/PhysicsParticle.js:54-63 | an inactive particle is unchanged; an active one ages by delta and dies silently iff lifetime > maxLifetime (strict) or it is off-screen |
| Particle.ConsumptionFiresOnce | src/manager/PhysicsParticle.js:74-91 | a second consumption, a consumption after kill, and a consumption after expiry all fire nothing |
| Particle.OnlySpawnBindsCallback | src/manager/PhysicsParticle.js:54-91 | without a bound callback, updates and both deaths never produce one |
| Particle.SentinelIsOffScreen | src/manager/PhysicsParticle.js:93-101 | the parking position (-10000, -10000) is off-screen for every screen |
| Particle.OffScreenIsOutsideMarginBox | src/PhysicsParticle.js:69-77 | a particle is on-screen iff it lies in the screen box widened by 100 on each side |
| Particle.IsOffScreen | src/manager/PhysicsParticle.js:93-101 | the off-screen test with its 100-pixel margin; OffScreenIsOutsideMarginBox states that it fails exactly inside the widened screen box |
| Pool.New | src/manager/ParticlePoolManager.js:4-14 | the constructor makes 50 dormant particles of age 0 and an empty active list; the default cap is 500 |
| Pool.NewLegacy | src/ParticlePoolManager.js:4-17 | the legacy constructor is the same with a default cap of 5000 |
| Pool.FirstInactive | src/manager/ParticlePoolManager.js:29-33 | the scan returns the lowest inactive slot at or after its start, or none when all are active |
| Pool.GetFromPool | src/manager/ParticlePoolManager.js:28-43 | taking a slot fails only when no slot is inactive, the arena is at the cap and the active list is empty |
| Pool.Spawn | src/manager/ParticlePoolManager.js:16-26 | a spawn respawns the taken slot with the given callback and appends it to the active list; when nothing can be taken the pool is unchanged |
| Pool.SpawnLegacy | src/ParticlePoolManager.js:19-29 | the legacy spawn is the spawn with no callback |
| Pool.SpawnCases | src/manager/ParticlePoolManager.js:16-43 | under the pool invariant a spawn always succeeds: lowest inactive slot, else one new slot below the cap, else the front of the active list moved to the back; active count +1, or unchanged when evicting; other slots untouched |
| Pool.SpawnKeepsInv | src/manager/ParticlePoolManager.js:16-43 | spawning preserves the pool invariant |
| Pool.ArenaBounded | src/manager/ParticlePoolManager.js:10-39 | under the invariant the arena never exceeds max(50, cap) |
| Pool.EvictsOldest | src/manager/ParticlePoolManager.js:41-42 | in a clean, oldest-first pool (no repeated entries), when exhausted the reused slot is the front of the active list, which holds the oldest particle |
| Pool.RepeatEvictsYoungest | src/manager/ParticlePoolManager.js:16-42 | a pool that satisfies the invariant can list a slot twice; when that slot is at the front and holds the youngest particle, an exhausted spawn still recycles it |
| Pool.SurvivorsMembers | src/manager/ParticlePoolManager.js:45-58 | an entry survives the update iff it was listed and its particle is still active after its own update |
| Pool.SurvivorsKeepOrder | src/manager/ParticlePoolManager.js:45-58 | survivors keep the oldest-first order of the list |
| Pool.SweepIsFilter | src/manager/ParticlePoolManager.js:45-58 | the sweep keeps exactly the survivors, in list order |
| Pool.Update | src/manager/ParticlePoolManager.js:45-58 | keeps the arena and cap; over a list without repeats the new list is exactly the entries whose particle is still active after its update, in the old order |
| Pool.SweepSettlesEach | src/manager/ParticlePoolManager.js:47-56 | every listed particle is updated once and, if it died, parked at the sentinel at rest |
| Pool.UpdateKeepsInv | src/manager/ParticlePoolManager.js:45-58 | the update preserves the pool invariant |
| Pool.UpdateCleans | src/manager/ParticlePoolManager.js:45-58 | over a list without repeats, after an update the list names exactly the still-active particles, in order, and the pool is clean (no repeats, listed iff active) |
| Pool.SpawnKeepsClean | src/manager/ParticlePoolManager.js:16-43 | a spawn into a clean pool leaves it clean |
| Pool.CleanBound | src/manager/ParticlePoolManager.js:60-62 | in a clean pool the active count is at most the arena size, which is at most max(50, cap) |
| Pool.ActiveCount | src/manager/ParticlePoolManager.js:60-62 | the length of the active list; CleanBound states that in a clean pool it is at most the arena size |
| Pool.NewIsOldestFirst | src/manager/ParticlePoolManager.js:4-14 | a new pool is oldest-first with non-negative ages |
| Pool.UpdateKeepsOldestFirst | src/manager/ParticlePoolManager.js:45-58 | with a non-negative delta an update keeps the list ordered oldest first |
| Pool.SpawnKeepsOldestFirst | src/manager/ParticlePoolManager.js:16-26 | a spawn appends the youngest particle, so the list stays in spawn order |
| BlackHole.New | src/manager/blackHole.js:2-43 | the default well is G 20000, softening 5, swirl 0.1, damping 0.96, kill radius 20, influence 10000, gravity 1; so 0 < kill radius < influence radius and softening > 0 |
| BlackHole.UpdateAnchor | src/manager/blackHole.js:45-49 | the update copies the sprite position into the well and changes nothing else |
| BlackHole.DirectionIsUnit | src/manager/blackHole.js:54-69 | away from the centre the offset over its distance is a unit vector |
| BlackHole.ApplyGravityToParticle | src/manager/blackHole.js:51-104 | inactive: untouched; d > influence radius: untouched; d < kill radius: consumed, firing its callback, no force; otherwise the pull is added to the force and the velocity damped, with position, callback and age kept |
| BlackHole.ForceFallsOff | src/manager/blackHole.js:74-75 | the pull G·gravity/(d² + softening²) is positive and strictly decreasing in d |
| BlackHole.SwirlBounds | src/manager/blackHole.js:81-82 | the swirl never exceeds swirlFactor, equals it for d ≤ 80 and is strictly below it beyond |
| BlackHole.PullDecomposes | src/manager/blackHole.js:77-85 | along the direction to the hole the force is the scaled magnitude; across it, the magnitude times the swirl |
| BlackHole.DampingIsRadialOnly | src/manager/blackHole.js:93-103 | the new velocity's radial part is radialDamping × the old one; its tangential part is unchanged |
| BlackHole.SwallowedOnce | src/manager/blackHole.js:52-65 | a particle a hole consumed is left alone, firing nothing, by any later hole |
| ParticleSystem.New | src/manager/ParticleSystemManager.js:16-20 | a new system has no pool yet and the given cap, 5000 by default |
| ParticleSystem.Initialize | src/manager/ParticleSystemManager.js:25-28 | initializing creates a clean, empty pool with the system's cap |
| ParticleSystem.GetActiveCount | src/manager/ParticleSystemManager.js:128-130 | the count is 0 before initialization and the active list length after |
| ParticleSystem.Update | src/manager/ParticleSystemManager.js:99-103 | before initialization the update does nothing; after it, it is the pool update |
| ParticleSystem.SpawnCount | src/manager/ParticleSystemManager.js:68-70 | an explosion asks for min(amount, 100) spawns, none when the amount is not positive |
| ParticleSystem.ExplodeParticles | src/manager/ParticleSystemManager.js:60-92 | before initialization nothing happens; otherwise min(amount, 100) spawns at the jittered point, even ones flipDa and odd ones flipDb, in order |
| ParticleSystem.ExplosionBindsNothing | src/manager/ParticleSystemManager.js:90 | an explosion binds no callback, keeps the pool invariant, and adds at most one active particle per spawn |
| ParticleSystem.SwallowedTwice | src/manager/ParticleSystemManager.js:114-120 | two stretches of the gravity pass compose, and no particle is consumed twice |
| ParticleSystem.Visit | src/manager/ParticleSystemManager.js:119 | one hole on one slot touches only that slot, leaving in it what the hole does to that particle at its measured distance; it consumes that slot exactly when the hole kills it (in flight, within the influence radius and inside the kill radius), and nothing otherwise |
| ParticleSystem.HolePass | src/manager/ParticleSystemManager.js:118-120 | one hole's sweep over the list consumes each particle at most once, fires exactly the consumed particles' callbacks in order, and touches no unlisted slot; HolePassActs gives its exact result |
| ParticleSystem.HolesPass | src/manager/ParticleSystemManager.js:114-121 | the sweep of every present hole consumes each particle at most once, fires exactly the consumed particles' callbacks in order, and touches no unlisted slot; HolesPassActs gives its exact result |
| ParticleSystem.ApplyGravityFromBlackHoles | src/manager/ParticleSystemManager.js:109-122 | before initialization nothing happens; otherwise the active list is untouched, every consumed particle was active and ends dormant, and the fired tokens are the consumed particles' callbacks in order, each at most once; over a list without repeats each listed particle ends as the present holes, in array order, leave it, and the consumed list is each present hole's kills in turn, in list order |
| ParticleSystem.EffectKillsExactly | src/manager/blackHole.js:51-64 | a hole parks a particle exactly when it is in flight, its distance is at most the influence radius and below the kill radius; then the particle's own callback fires, and otherwise none does |
| ParticleSystem.HolePassActs | src/manager/ParticleSystemManager.js:118-120 | over a list without repeats, one hole's sweep leaves every listed slot as the hole leaves that particle, and consumes exactly the listed slots it kills, in list order |
| ParticleSystem.HolesPassActs | src/manager/ParticleSystemManager.js:114-121 | over a list without repeats, the sweep of the present holes (empty entries skipped) leaves each listed particle as the holes, one after another, leave it, keeps unlisted slots, and consumes each present hole's kills in turn, judged on the arena the earlier holes left |
| ParticleSystem.GravityConsumesExactly | src/manager/ParticleSystemManager.js:109-122 | over a list without repeats, a slot is consumed exactly when it is listed, was in flight and comes out of the holes' sweep parked |
| ParticleSystem.GravityKeepsInv | src/manager/ParticleSystemManager.js:109-122 | the pass keeps the pool invariant, consumes only listed particles and fires at most one token per consumed particle |
| ParticleSystem.NoHolesNoChange | src/manager/ParticleSystemManager.js:114-116 | with no hole present the pass changes nothing and fires nothing |
| ParticleSystem.ConsumedLeaveAtUpdate | src/manager/ParticleSystemManager.js:99-122 | consumed particles stay listed until the next update, which removes all of them and leaves a clean pool |
| TechTree.ConfigIsWellFormed | src/manager/TechTreeConfig.js:40-181 | the shipped tree is well formed: unique node ids, declared branches, earlier same-branch parents, one root per branch, known price keys, distinct system actions |
| TechTree.NodeIdsAreUnique | src/manager/TechTreeConfig.js:75-173 | node ids are pairwise distinct |
| TechTree.BranchesAreDeclared | src/manager/TechTreeConfig.js:52-173 | branch ids are distinct and every node's branch is declared |
| TechTree.ParentsComeEarlier | src/manager/TechTreeConfig.js:75-173 | each non-null parent names an earlier node of the same branch |
| TechTree.OneRootEach | src/manager/TechTreeConfig.js:75-173 | each branch has exactly one node with a null parent |
| TechTree.PriceKeysAreKnown | src/manager/TechTreeConfig.js:75-173 | every price key names a price field of the economy |
| TechTree.ActionsAreUnique | src/manager/TechTreeConfig.js:176-180 | system action ids and callback keys are pairwise distinct |
| TechTree.FindsEveryNode | src/manager/TechTreeConfig.js:75-173 | looking up any node's id finds that node |
| TechTree.OneTreePerBranch | src/manager/TechTreeConfig.js:9-13 | in a well-formed tree, following parents from two nodes of a branch reaches the same root |
| TechTree.PriceKeysResolve | src/manager/TechTreeConfig.js:14 | in a well-formed tree every node's price key resolves to an economy upgrade with that key |
| UiLayout.BranchOf | src/manager/UIManager.js:311 | a node's branch is found iff one with its id is declared |
| UiLayout.BuildBranchMap | src/manager/UIManager.js:303-322 | an id gets a position iff some node with it has a declared branch; the last such node's position is (branch.x + offX, offY + nodeStartY + row · spacing), with row the number of earlier nodes in its branch |
| UiLayout.RowsIncrease | src/manager/UIManager.js:314-315 | a later node of a branch has a strictly greater row |
| UiLayout.DistinctYInBranch | src/manager/UIManager.js:317-320 | two nodes of one branch share x and, with positive spacing, the later one is strictly lower |
| UiLayout.ConfigPlacesEveryNode | src/manager/UIManager.js:310-321 | every node of the shipped tree is placed and keeps its own position |
| UiLayout.MaxRows | src/manager/UIManager.js:208-212 | maxRows is the largest per-branch node count |
| UiLayout.ModalSize | src/manager/UIManager.js:205-218 | with branches and nodes the width is (last.x − first.x) + nodeWidth + 120 and the height is nodeStartY + maxRows · spacing + 60; with no branches (where the source throws) or no nodes (where its height is negative infinity for a positive spacing, NaN for a zero one and positive infinity for a negative one) there is no size |
| UiLayout.NodesFitModalHeight | src/manager/UIManager.js:217-218 | each node's row fits inside the modal height |
| UiLayout.ConfigModalSize | src/manager/UIManager.js:205-218 | the shipped tree gives a 570 × 680 modal |
| UiLayout.TreeOffset | src/manager/UIManager.js:220-226 | the first column lands one padding plus half a node inside the panel's left edge, and the panel leaves as much screen below it as above it |
| UiLayout.NodesInsidePanel | src/manager/UIManager.js:226-234 | shifted by the tree offset, every placed node's y lies between the top of the panel drawn at cy − modalH/2 and its bottom less the padding and one spacing |
| UiLayout.ColumnsCentred | src/manager/UIManager.js:220-226 | the first and last columns sit one padding plus half a node in from the modal's edges |
| UiLayout.ToggleModal | src/manager/UIManager.js:131-133 | toggling flips the open flag |
| UiLayout.OpenModal | src/manager/UIManager.js:135-136 | opening sets the flag |
| UiLayout.CloseModal | src/manager/UIManager.js:160-161 | closing clears the flag |
| UiLayout.DimOverlayClick | src/manager/UIManager.js:202 | a click on the dim overlay closes the modal |
| UiLayout.ToggleTwiceRestores | src/manager/UIManager.js:131-161 | toggling twice restores the flag; opening and closing are idempotent |
| UiLayout.BackgroundClick | src/manager/UIManager.js:538-542 | a background click fires onIncrement iff the modal is closed and the callback exists |
| UiLayout.NodeClick | src/manager/UIManager.js:417-421 | a node click fires its callback iff the modal is open and the callback exists |
| UiLayout.ClicksAreExclusive | src/manager/UIManager.js:538-542 | no state lets both a background click and a node click fire |
| UiLayout.UpdateButtonTexts | src/manager/UIManager.js:55-63 | while closed the texts are unchanged; the set of buttons never changes |
| UiLayout.UpdateButtonStates | src/manager/UIManager.js:65-74 | while closed the alphas are unchanged; the set of buttons never changes |
| UiLayout.OpenModalShowsPrices | src/manager/UIManager.js:57-61 | while open, a built button shows its price when the price key is present and keeps its text otherwise |
| UiLayout.OpenModalDimsUnaffordable | src/manager/UIManager.js:67-72 | while open, a button is dimmed to 0.35 iff its affordability entry is exactly false, and fully opaque otherwise |
| Helpers.ClampNumber | src/manager/helpers.js:63-65 | with min ≤ max the result lies in [min, max] and equals a value already inside; with max < min it is max |
| Helpers.ClampIsNearest | src/manager/helpers.js:63-65 | with min ≤ max the result is the point of the range nearest the value, and clamping is idempotent |
| Helpers.AllEqual | src/manager/helpers.js:209-217 | true iff all elements are pairwise equal, so true for the empty array |
| Helpers.ArraysEqual | src/manager/helpers.js:222-230 | true iff both are the same array value or both are absent |
| Helpers.KeyInjective | src/manager/helpers.js:241-242 | the key `value + typeof value` determines the value and its type |
| Helpers.AreArraysEqualSets | src/manager/helpers.js:238-260 | true iff both arrays hold the same set of (value, type) pairs, ignoring order and multiplicity |
| Helpers.KeysMatchElements | src/manager/helpers.js:238-260 | equal key sets and equal value sets coincide |
| Helpers.MarkFirst | src/manager/helpers.js:239-243 | the first loop marks exactly the keys of the first array with 1 |
| Helpers.MarkSecond | src/manager/helpers.js:245-251 | the second loop fails iff some key of the second array is unmarked; otherwise a key stays 1 iff the second array lacks it |
| Helpers.NoneUnmatched | src/manager/helpers.js:253-257 | the last loop succeeds iff no entry is still 1 |
| Helpers.HowManyInArray | src/manager/helpers.js:272-278 | the count is the value's multiplicity, at most the length |
| Helpers.GetItem | src/manager/helpers.js:614-616 | getItem finds an item with the index, or none iff no item has it |
| Helpers.RemoveItemFromArray | src/manager/helpers.js:619-626 | removal succeeds iff some item has the index; it removes only the first such item, and on failure the array is unchanged |
| Helpers.RemoveTakesFoundItem | src/manager/helpers.js:614-626 | the removed item is the one getItem finds, and the array shrinks by one |
| Helpers.ToInt32 | src/manager/helpers.js:516-518 | `~~` maps to a 32-bit signed value congruent modulo 2^32, and is the identity in range |
| Helpers.ClockOf | src/manager/helpers.js:514-518 | minutes are in [0, 60) and seconds in (-60, 60); below 2^31 seconds, hours and seconds are the true quotient and remainder |
| Helpers.FormatTime | src/manager/helpers.js:507-529 | a negative time is "-" followed by the text of its magnitude (corrected formatter) |
| Helpers.FormatTimeRoundTrip | src/manager/helpers.js:507-529 | for 0 ≤ ms below 2^31 seconds, the corrected text reads back as the whole seconds ms / 1000 |
| Helpers.FormatTimeAsWritten | src/manager/helpers.js:507-529 | as written, a negative time is "-" followed by the text of its magnitude |
| Helpers.FormatTimeDoublePads | src/manager/helpers.js:520-523 | as written, 3,900,000 ms is "1:005:00", which does not read back; corrected it is "1:05:00" |
| Helpers.FormatTimeAgreesBelowAnHour | src/manager/helpers.js:520-524 | below one hour the code as written and the corrected formatter agree |
| Helpers.FormatTimeAsWrittenPadsTwice | src/manager/helpers.js:519-523 | for every input the source's text differs from the corrected one exactly when hours > 0 and minutes < 10, and then by one extra "0" after the hour separator |
| Helpers.FormatTimeShowsHoursFromAnHour | src/manager/helpers.js:519-521 | the corrected text is the five characters MM:SS exactly below one hour, so the hour field appears only when hours > 0 |
| Helpers.HmsOf | src/manager/helpers.js:538-541 | for d ≥ 0 the fields split d into hours, minutes < 60 and seconds < 60 |
| Helpers.SecondsToHms | src/manager/helpers.js:537-547 | the text is empty iff d ≤ 0 |
| Helpers.SecondsToHmsSpellsSplit | src/manager/helpers.js:543-546 | for any split of d into h, m < 60, s < 60 the text spells those fields, omitting zeros |
| Helpers.OneOfEach | src/manager/helpers.js:543-546 | 3661 seconds is "1 hour, 1 minute, 1 second": singular units for exactly 1 |
| Helpers.TwoOfEach | src/manager/helpers.js:543-546 | 7322 seconds is "2 hours, 2 minutes, 2 seconds": plural units otherwise |
| Helpers.OneMinute | src/manager/helpers.js:543-546 | 60 seconds is "1 minute, ", keeping the trailing separator |

## Left out

- Physics engine: Matter's integration of the applied force, collisions and
  velocity after integration are not modelled. The model computes the force
  and the damped velocity; the engine applies them.
- Square root and trigonometry: distances and unit vectors are inputs, as
  described above. The explosion's angles and speeds come from the `jitter`
  parameter.
- `Math.random`: every random value is a parameter. Also left out are
  `shuffle`, `random` and `randomInt` in the helpers.
- Presentation: drawing, tweens, tooltips, camera shake, animation playback,
  sprite rotation (the hole's `rotation += 1`) and text objects. Also the
  rest of src/manager/UIManager.js, all of src/UIManager.js, and
  src/textScene.js.
- `explodeParticles`'s `createAnimations` is presentation; only the
  animation names are kept.
- src/manager/SaveManager.js is not part of this model. It handles storage,
  clipboard, confirmation dialogs, timers and notifications.
- Auto-click timers (`setInterval`) are scheduling rather than logic.
- src/gameScene.js is not part of this model: its economy duplicates the
  economy manager and is entangled with rendering.
- src/blackHole.js is not part of this model: it is a thin wrapper around
  the engine's own gravity well.
- src/GameConfig.js, src/gameData.js and src/game.js are constants and
  bootstrap. The economy's initial values come from the `EconomyManager`
  constructor.
- src/manager/OrbitalSpawner.js is not part of this model; it is float
  geometry.
- The other helpers (DOM, storage, fonts, logging, colour and rounding,
  `isNumeric`, `getKeyReference`, `millisToMs`) are not modelled.
- BigInt parsing of non-decimal text (such as `'1e18'`, which throws) is not
  modelled; saved values are decimal strings.
- Every restored record is read through decimal text. A text that is not a
  decimal integer is treated as unreadable. This includes text with leading
  or trailing whitespace, and whitespace-only text, although `BigInt` trims
  whitespace (`BigInt(" 7 ")` is 7 and `BigInt("  ")` is 0). It also
  includes the `0x`, `0o` and `0b` prefixes.
- The `Economy` constructor's optional `initialState` argument is not
  modelled.
- Floating-point rounding is not modelled: `real` is exact.
- Helpers.FormatTime: the model uses integer milliseconds. The source divides
  by 1000 in floating point and truncates each field with `~~`, and for
  integer input the results coincide. Fractional milliseconds are not
  modelled.
- Helpers.SecondsToHms: the argument is an integer; the `Number(d)` coercion
  and non-integer seconds are not modelled.
- Helpers.ArraysEqual: `null` and `undefined` are both the absent value, and
  the identity test is not distinguished from value equality. Elements are
  compared with Dafny's `==`, which agrees with `===` on every value except
  NaN. Two distinct `[NaN]` arrays compare false in the source and true in
  the model; NaN is not modelled.
- Helpers.AllEqual: a non-array argument, which makes the source log and
  return undefined, is not modelled. NaN is not modelled either: the source's
  `!==` makes `allEqual([NaN])` false, while the model's reflexive `==`
  makes it true.
- Helpers.HowManyInArray: NaN is not modelled. The source's `===` never
  matches NaN, so `howManyInArray(NaN, [NaN])` is 0, while the model's
  reflexive `==` counts 1.
- Helpers.AreArraysEqualSets: elements are limited to numbers, strings,
  booleans, null and undefined. Objects, NaN and the key collisions that
  `toString` could make between them are not modelled.
- UiLayout.UpdateButtonStates: affordability entries are booleans. Other
  values, which the source would also treat as affordable, are not modelled.
- Particle.Spawn: the `if (this.body)` guards around setting the velocity
  are not modelled. Every pooled particle has a body, so spawning and
  deactivating always set the velocity.
- BlackHole.ApplyGravityToParticle: the bodiless case (`!particle.body`) is
  not modelled, since every pooled particle has a body. The kill radius is
  required to be positive, which keeps the distance away from zero on the
  force path.
- UiLayout.ModalSize: with branches but no nodes, the source's height is
  negative infinity for a positive spacing, NaN for a zero spacing and
  positive infinity for a negative one, and the modal is still built. The
  model reports no size instead.
- Economy.RestoreStateAsWritten: a saved record always holds every field.
  In the source, a missing big-number field makes `BigInt(undefined)` throw.
  A missing interval is stored as undefined without any check. A record with
  a missing field is not representable here.
- Pool.Spawn: the animation name passed to a spawn is presentation and is
  not kept.
- Pool.EvictsOldest: stated only for a clean pool. The active list can
  repeat a slot: a black hole parks a particle without unlisting it, and a
  spawn before the next update reuses that slot and lists it again. In such
  a pool the front entry can be the youngest particle, so an exhausted
  spawn can recycle it; RepeatEvictsYoungest exhibits such a pool.
- Pool.Update: the exact new list is stated only for a list without
  repeats. A repeated slot's particle is updated, and so aged, once per
  entry in the same frame, and the active count counts it once per entry.
  The model computes this case; it keeps only the invariant.
- ParticleSystem.ApplyGravityFromBlackHoles: the particle-by-particle result
  and the exact consumed list are stated only for an active list without
  repeats. With a repeated slot each hole visits that particle once per
  entry. For any list the model still proves what Swallowed states: each
  particle is consumed at most once, only consumed particles go dormant,
  and the fired callbacks match the consumed particles in order.

## Findings

| source | as written | input that shows it | evidently intended | confidence | as-written member | corrected member |
|---|---|---|---|---|---|---|
| src/manager/helpers.js:520-523 | with hours > 0 and minutes < 10, a "0" is added once for the hour separator and once more before the minutes | 3,900,000 ms gives "1:005:00" | "1:05:00": minutes padded to two digits once | high, not executed | Helpers.FormatTimeDoublePads | Helpers.FormatTimeRoundTrip |
| src/manager/EconomyManager.js:187-201 | fields are assigned one by one, and an unparsable field throws after the earlier fields were overwritten | a saved state with counter "7" and multiplier "ten" leaves the counter at 7 and the rest unchanged | a load either replaces the whole state or is rejected with the state untouched | medium, not executed | Economy.PartialRestoreWitness | Economy.RestoreState |

=== FILE: black_hole.dfy ===
/**
 * A black hole's pull on one particle. Each frame the hole either ignores a
 * particle (inactive or beyond its influence radius), swallows it (inside
 * the kill radius), or adds an inverse-square force with a tangential swirl
 * and damps only the radial part of the particle's velocity.
 *
 * There is no square root over the reals here, so the caller supplies the
 * distance and the unit direction towards the hole as a Geometry, and
 * Measures states what makes that geometry correct. The force is only
 * computed and accumulated on the particle; integrating it belongs to the
 * physics engine.
 */
module BlackHole {
  import opened Wrappers
  import P = Particle

  /** The gravity well's tuning parameters and its anchor point. */
  datatype Well = Well(
    x: real,
    y: real,
    g: real,
    softening: real,
    swirlFactor: real,
    radialDamping: real,
    killRadius: real,
    maxInfluenceRadius: real,
    gravity: real)

  /** The sprite position (which the pull is measured from) and the well. */
  datatype BlackHole = BlackHole(x: real, y: real, well: Well)

  /** Distance to the hole and the unit vector pointing at it. */
  datatype Geometry = Geometry(dist: real, nx: real, ny: real)

  /** Up to this distance the swirl is at full strength. */
  const SwirlRange: real := 80.0

  /** The force is scaled down by this factor before it is applied. */
  const ForceScale: real := 0.001

  /** A hole created at (x, y) with the default well. */
  function New(x: real, y: real): (bh: BlackHole)
    ensures bh.x == x && bh.y == y && bh.well.x == x && bh.well.y == y
    ensures bh.well.g == 20000.0 && bh.well.softening == 5.0 && bh.well.swirlFactor == 0.1
    ensures bh.well.radialDamping == 0.96 && bh.well.gravity == 1.0
    ensures bh.well.killRadius == 20.0 && bh.well.maxInfluenceRadius == 10000.0
    ensures 0.0 < bh.well.killRadius < bh.well.maxInfluenceRadius && bh.well.softening > 0.0
    ensures 0.0 < bh.well.radialDamping < 1.0
  {
    BlackHole(x, y, Well(x, y, 20000.0, 5.0, 0.1, 0.96, 20.0, 10000.0, 1.0))
  }

  /**
   * The per-frame update: the well's anchor follows the sprite. Nothing
   * else about the hole changes (its spin is presentation).
   */
  function UpdateAnchor(bh: BlackHole): (r: BlackHole)
    ensures r.x == bh.x && r.y == bh.y
    ensures r.well.x == bh.x && r.well.y == bh.y
    ensures r.well == bh.well.(x := bh.x, y := bh.y)
  {
    bh.(well := bh.well.(x := bh.x, y := bh.y))
  }

  /** The geometry is the true distance and direction for offset (dx, dy). */
  predicate Measures(geo: Geometry, dx: real, dy: real)
  {
    && geo.dist >= 0.0
    && geo.dist * geo.dist == dx * dx + dy * dy
    && geo.nx * geo.dist == dx
    && geo.ny * geo.dist == dy
  }

  /** Away from the hole's centre the measured direction is a unit vector. */
  lemma DirectionIsUnit(geo: Geometry, dx: real, dy: real)
    requires Measures(geo, dx, dy) && geo.dist > 0.0
    ensures geo.nx * geo.nx + geo.ny * geo.ny == 1.0
  {
    var d := geo.dist;
    calc {
      (geo.nx * geo.nx + geo.ny * geo.ny) * (d * d);
      (geo.nx * d) * (geo.nx * d) + (geo.ny * d) * (geo.ny * d);
      dx * dx + dy * dy;
      d * d;
    }
    assert d * d > 0.0;
  }

  function Square(x: real): real
  {
    x * x
  }

  /** The denominator of the pull: squared distance plus squared softening. */
  function Softened(well: Well, dist: real): real
  {
    Square(dist) + Square(well.softening)
  }

  /** The inverse-square pull, softened so that it stays finite at the centre. */
  function ForceMagnitude(well: Well, dist: real): real
    requires Softened(well, dist) > 0.0
  {
    (well.g * well.gravity) / Softened(well, dist)
  }

  function MinReal(a: real, b: real): real
  {
    if a <= b then a else b
  }

  /** The swirl strength: full up to 80 units from the hole, fading with 80 / dist beyond. */
  function SwirlMagnitude(well: Well, dist: real): real
    requires dist > 0.0
  {
    well.swirlFactor * MinReal(1.0, SwirlRange / dist)
  }

  /** Component of v along the unit vector n. */
  function Radial(v: P.Vec, nx: real, ny: real): real
  {
    v.x * nx + v.y * ny
  }

  /** Component of v along the tangent (-ny, nx). */
  function Tangential(v: P.Vec, nx: real, ny: real): real
  {
    v.y * nx - v.x * ny
  }

  /** The velocity with its component along n scaled by `damping` and the rest kept. */
  function Damp(v: P.Vec, nx: real, ny: real, damping: real): (r: P.Vec)
  {
    var vr := Radial(v, nx, ny);
    P.Vec(vr * damping * nx + (v.x - vr * nx), vr * damping * ny + (v.y - vr * ny))
  }

  /** The force added to the particle: inward pull plus counter-clockwise swirl. */
  function Pull(well: Well, geo: Geometry): (f: P.Vec)
    requires geo.dist > 0.0
  {
    SoftenedPositive(well, geo.dist);
    var mag := ForceMagnitude(well, geo.dist);
    var swirl := SwirlMagnitude(well, geo.dist);
    P.Vec((geo.nx + -geo.ny * swirl) * mag * ForceScale, (geo.ny + geo.nx * swirl) * mag * ForceScale)
  }

  /**
   * One hole acting on one particle. The distance is compared with the
   * influence radius first (strictly greater is ignored), then with the
   * kill radius (strictly smaller is swallowed and fires the callback).
   * The kill radius is positive in every hole the game builds, which keeps
   * the distance away from zero on the force path.
   */
  function ApplyGravityToParticle(bh: BlackHole, p: P.Particle, geo: Geometry): (r: P.Consumption)
    requires bh.well.killRadius > 0.0
    requires Measures(geo, bh.x - p.pos.x, bh.y - p.pos.y)
    ensures !p.active ==> r == P.Consumption(p, None)
    ensures p.active && geo.dist > bh.well.maxInfluenceRadius ==> r == P.Consumption(p, None)
    ensures p.active && geo.dist <= bh.well.maxInfluenceRadius && geo.dist < bh.well.killRadius ==>
              && r.fired == p.onConsumed
              && P.Dormant(r.particle)
              && r.particle.lifetime == p.lifetime
    ensures p.active && geo.dist <= bh.well.maxInfluenceRadius && geo.dist >= bh.well.killRadius ==>
              && r.fired.None?
              && r.particle.active
              && r.particle.pos == p.pos
              && r.particle.onConsumed == p.onConsumed
              && r.particle.lifetime == p.lifetime
              && r.particle.force == P.Vec(p.force.x + Pull(bh.well, geo).x, p.force.y + Pull(bh.well, geo).y)
              && r.particle.vel == Damp(p.vel, geo.nx, geo.ny, bh.well.radialDamping)
    ensures r.particle.active ==> p.active && r.fired.None?
    ensures r.fired.Some? ==> p.active && !r.particle.active
  {
    if !p.active then P.Consumption(p, None)
    else if geo.dist > bh.well.maxInfluenceRadius then P.Consumption(p, None)
    else if geo.dist < bh.well.killRadius then P.KillByBlackHole(p)
    else
      var f := Pull(bh.well, geo);
      var pushed := p.(force := P.Vec(p.force.x + f.x, p.force.y + f.y));
      P.Consumption(pushed.(vel := Damp(p.vel, geo.nx, geo.ny, bh.well.radialDamping)), None)
  }

  // ------------------------------------------------------------- force shape

  // The solver's nonlinear reasoning is brittle, so each product fact is
  // proved on bare variables and carried in a predicate.

  predicate Positive(v: real) { v > 0.0 }
  predicate NonNegative(v: real) { v >= 0.0 }
  predicate Below(a: real, b: real) { a < b }
  predicate AtMost(a: real, b: real) { a <= b }

  lemma ProductPositive(x: real)
    requires x != 0.0
    ensures x * x > 0.0
  {
    if x < 0.0 {
      assert x * x == (-x) * (-x);
    }
  }

  lemma SquarePositive(x: real)
    requires x != 0.0
    ensures Positive(Square(x))
  {
    ProductPositive(x);
    assert Positive(x * x);
    assert Square(x) == x * x;
  }

  lemma SquareNonNegative(x: real)
    ensures NonNegative(Square(x))
  {
    if x != 0.0 {
      SquarePositive(x);
    }
  }

  lemma ScaleAtMost(a: real, b: real, c: real)
    requires a <= b && c >= 0.0
    ensures AtMost(a * c, b * c)
  {
  }

  lemma ScaleBelow(a: real, b: real, c: real)
    requires a < b && c > 0.0
    ensures Below(c * a, c * b)
  {
  }

  lemma SquareBelow(x: real, y: real)
    requires 0.0 <= x < y
    ensures Below(Square(x), Square(y))
  {
    ScaleAtMost(x, y, x);
    ScaleBelow(x, y, y);
    assert Below(x * x, y * y);
  }

  /** The denominator is positive away from the centre or with any softening. */
  lemma SoftenedPositive(well: Well, dist: real)
    requires dist != 0.0 || well.softening != 0.0
    ensures Softened(well, dist) > 0.0
  {
    SquareNonNegative(dist);
    SquareNonNegative(well.softening);
    if dist != 0.0 {
      SquarePositive(dist);
    } else {
      SquarePositive(well.softening);
    }
  }

  lemma QuotientBelow(k: real, a: real, b: real)
    requires k > 0.0 && 0.0 < a < b
    ensures 0.0 < k / b < k / a
  {
    var qa, qb := k / a, k / b;
    assert qa * a == k && qb * b == k;
    assert qa > 0.0 && qb > 0.0;
    ScaleBelow(a, b, qa);
    assert Below(qb * b, qa * b);
  }

  /** With a positive strength the pull is positive and strictly weaker further out. */
  lemma ForceFallsOff(well: Well, d1: real, d2: real)
    requires well.g * well.gravity > 0.0 && well.softening != 0.0
    requires 0.0 <= d1 < d2
    ensures Softened(well, d1) > 0.0 && Softened(well, d2) > 0.0
    ensures 0.0 < ForceMagnitude(well, d2) < ForceMagnitude(well, d1)
  {
    SoftenedPositive(well, d1);
    SoftenedPositive(well, d2);
    SquareBelow(d1, d2);
    QuotientBelow(well.g * well.gravity, Softened(well, d1), Softened(well, d2));
  }

  /**
   * The swirl never exceeds its factor; within 80 units it is exactly the
   * factor, and beyond that strictly smaller. So the swirl is strongest up
   * close, although the comment beside it speaks of tapering there.
   */
  lemma SwirlBounds(well: Well, dist: real)
    requires dist > 0.0 && well.swirlFactor >= 0.0
    ensures SwirlMagnitude(well, dist) <= well.swirlFactor
    ensures dist <= SwirlRange ==> SwirlMagnitude(well, dist) == well.swirlFactor
    ensures dist > SwirlRange && well.swirlFactor > 0.0 ==> SwirlMagnitude(well, dist) < well.swirlFactor
  {
    if dist > SwirlRange {
      assert SwirlRange / dist < 1.0;
    } else {
      assert SwirlRange / dist >= 1.0;
    }
  }

  /**
   * Seen along the unit direction to the hole, the pull is the scaled
   * magnitude, and across it the scaled magnitude times the swirl.
   */
  lemma PullDecomposes(well: Well, geo: Geometry)
    requires geo.dist > 0.0 && geo.nx * geo.nx + geo.ny * geo.ny == 1.0
    requires Softened(well, geo.dist) > 0.0
    ensures Radial(Pull(well, geo), geo.nx, geo.ny) == ForceMagnitude(well, geo.dist) * ForceScale
    ensures Tangential(Pull(well, geo), geo.nx, geo.ny)
            == SwirlMagnitude(well, geo.dist) * ForceMagnitude(well, geo.dist) * ForceScale
  {
    var m := ForceMagnitude(well, geo.dist) * ForceScale;
    var w := SwirlMagnitude(well, geo.dist);
    var nx, ny := geo.nx, geo.ny;
    var f := Pull(well, geo);
    assert f.x == (nx - ny * w) * m && f.y == (ny + nx * w) * m;
    calc {
      Radial(f, nx, ny);
      (nx - ny * w) * m * nx + (ny + nx * w) * m * ny;
      (nx * nx + ny * ny) * m;
    }
    calc {
      Tangential(f, nx, ny);
      (ny + nx * w) * m * nx - (nx - ny * w) * m * ny;
      (nx * nx + ny * ny) * w * m;
    }
  }

  /**
   * Damping scales only the radial velocity: along n the new velocity is
   * `damping` times the old, across n it is unchanged.
   */
  lemma DampingIsRadialOnly(v: P.Vec, nx: real, ny: real, damping: real)
    requires nx * nx + ny * ny == 1.0
    ensures Radial(Damp(v, nx, ny, damping), nx, ny) == damping * Radial(v, nx, ny)
    ensures Tangential(Damp(v, nx, ny, damping), nx, ny) == Tangential(v, nx, ny)
  {
    var vr := Radial(v, nx, ny);
    var r := Damp(v, nx, ny, damping);
    assert r.x == vr * damping * nx + (v.x - vr * nx) && r.y == vr * damping * ny + (v.y - vr * ny);
    RadialIdentity(vr * damping, vr, v.x, v.y, nx, ny);
    TangentialIdentity(vr * damping, vr, v.x, v.y, nx, ny);
  }

  /** The radial part of `a n + (u - b n)` for a unit `n`. */
  lemma RadialIdentity(a: real, b: real, x: real, y: real, nx: real, ny: real)
    requires nx * nx + ny * ny == 1.0
    ensures (a * nx + (x - b * nx)) * nx + (a * ny + (y - b * ny)) * ny == a + (x * nx + y * ny) - b
  {
    assert (a * nx + (x - b * nx)) * nx == a * (nx * nx) + x * nx - b * (nx * nx);
    assert (a * ny + (y - b * ny)) * ny == a * (ny * ny) + y * ny - b * (ny * ny);
    assert a * (nx * nx) + a * (ny * ny) == a * (nx * nx + ny * ny);
    assert b * (nx * nx) + b * (ny * ny) == b * (nx * nx + ny * ny);
  }

  /** The tangential part of `a n + (u - b n)`: the `n` terms cancel. */
  lemma TangentialIdentity(a: real, b: real, x: real, y: real, nx: real, ny: real)
    ensures (a * ny + (y - b * ny)) * nx - (a * nx + (x - b * nx)) * ny == y * nx - x * ny
  {
    assert (a * ny + (y - b * ny)) * nx == a * ny * nx + y * nx - b * ny * nx;
    assert (a * nx + (x - b * nx)) * ny == a * nx * ny + x * ny - b * nx * ny;
  }

  /**
   * A particle the hole swallowed is inactive afterwards, so a second hole
   * in the same frame (or the same hole again) leaves it alone and fires
   * nothing.
   */
  lemma SwallowedOnce(bh: BlackHole, other: BlackHole, p: P.Particle, geo: Geometry, geo2: Geometry)
    requires bh.well.killRadius > 0.0 && other.well.killRadius > 0.0
    requires Measures(geo, bh.x - p.pos.x, bh.y - p.pos.y)
    requires ApplyGravityToParticle(bh, p, geo).fired.Some?
    requires Measures(geo2, other.x - ApplyGravityToParticle(bh, p, geo).particle.pos.x,
                      other.y - ApplyGravityToParticle(bh, p, geo).particle.pos.y)
    ensures var q := ApplyGravityToParticle(bh, p, geo).particle;
            ApplyGravityToParticle(other, q, geo2) == P.Consumption(q, None)
  {
  }
}

=== FILE: economy.dfy ===
/**
 * The game economy: one record of BigInt counters and prices plus three
 * millisecond intervals. It changes only through guarded purchases (each
 * either fails with no change or debits its price) and through
 * `IncrementCounter`, the sole way to earn.
 */
module Economy {
  import opened Wrappers
  import LN = LargeNumber

  /**
   * Every BigInt field holds the value of one LargeNumber. `autoInterval` is
   * the only field that can become fractional (it shrinks by 1% per purchase),
   * so it is a `real`.
   */
  datatype Economy = Economy(
    counter: int,
    multiplier: int,
    incrementValue: int,
    multiPrice: int,
    autoPrice: int,
    gravityPrice: int,
    autoMultiPrice: int,
    playerPrice: int,
    multiInterval: int,
    autoInterval: real,
    autoMultiInterval: int)

  /** The constructor called without a seed record. */
  function Initial(): Economy
  {
    Economy(
      counter := 0, multiplier := 10, incrementValue := 1,
      multiPrice := 100, autoPrice := 100, gravityPrice := 100,
      autoMultiPrice := 100000, playerPrice := 1000000,
      multiInterval := 1000, autoInterval := 500.0, autoMultiInterval := 1000)
  }

  /** The state every operation keeps when started from it (and `Initial` has). */
  predicate Healthy(e: Economy)
  {
    && e.counter >= 0
    && e.incrementValue > 0
    && e.multiPrice > 0 && e.autoPrice > 0 && e.gravityPrice > 0
    && e.autoMultiPrice > 0 && e.playerPrice > 0
    && e.autoInterval >= 1.0
  }

  predicate CanAfford(e: Economy, price: int)
  {
    LN.GetValue(LN.LargeNumber(e.counter)) >= price
  }

  // ------------------------------------------------------------- purchases

  /** A purchase attempt: whether it succeeded and the economy afterwards. */
  datatype Purchase = Purchase(ok: bool, state: Economy)

  /** The counter after paying `price` out of it. */
  function Debit(e: Economy, price: int): int
  {
    LN.Decrement(LN.LargeNumber(e.counter), price).value
  }

  function Doubled(price: int): int
  {
    LN.Multiply(LN.LargeNumber(price), 2).value
  }

  function BuyMultiplier(e: Economy): (r: Purchase)
    ensures r.ok <==> e.counter >= e.multiPrice
    ensures !r.ok ==> r.state == e
    ensures r.ok ==> r.state == e.(counter := e.counter - e.multiPrice, multiPrice := 2 * e.multiPrice,
                                    multiplier := e.multiplier + 1, incrementValue := 2 * e.incrementValue)
  {
    if CanAfford(e, e.multiPrice) then
      Purchase(true, e.(counter := Debit(e, e.multiPrice),
                        multiPrice := Doubled(e.multiPrice),
                        multiplier := LN.Increment(LN.LargeNumber(e.multiplier), 1).value,
                        incrementValue := Doubled(e.incrementValue)))
    else Purchase(false, e)
  }

  /** 1% off the auto-click interval, never below one millisecond. */
  function ShortenedInterval(interval: real): real
  {
    var next := interval - interval * 0.01;
    if next < 1.0 then 1.0 else next
  }

  function BuyAutoClick(e: Economy): (r: Purchase)
    ensures r.ok <==> e.counter >= e.autoPrice
    ensures !r.ok ==> r.state == e
    ensures r.ok ==> r.state == e.(counter := e.counter - e.autoPrice, autoPrice := 2 * e.autoPrice,
                                    autoInterval := if e.autoInterval * 0.99 < 1.0 then 1.0 else e.autoInterval * 0.99)
  {
    if CanAfford(e, e.autoPrice) then
      Purchase(true, e.(counter := Debit(e, e.autoPrice),
                        autoPrice := Doubled(e.autoPrice),
                        autoInterval := ShortenedInterval(e.autoInterval)))
    else Purchase(false, e)
  }

  function BuyGravity(e: Economy): (r: Purchase)
    ensures r.ok <==> e.counter >= e.gravityPrice
    ensures !r.ok ==> r.state == e
    ensures r.ok ==> r.state == e.(counter := e.counter - e.gravityPrice, gravityPrice := 2 * e.gravityPrice)
  {
    if CanAfford(e, e.gravityPrice) then
      Purchase(true, e.(counter := Debit(e, e.gravityPrice), gravityPrice := Doubled(e.gravityPrice)))
    else Purchase(false, e)
  }

  function BuyAutoMulti(e: Economy): (r: Purchase)
    ensures r.ok <==> e.counter >= e.autoMultiPrice
    ensures !r.ok ==> r.state == e
    ensures r.ok ==> r.state == e.(counter := e.counter - e.autoMultiPrice, autoMultiPrice := 2 * e.autoMultiPrice)
  {
    if CanAfford(e, e.autoMultiPrice) then
      Purchase(true, e.(counter := Debit(e, e.autoMultiPrice), autoMultiPrice := Doubled(e.autoMultiPrice)))
    else Purchase(false, e)
  }

  /** Buying a black hole costs the same every time: its price is not raised. */
  function BuyObject(e: Economy): (r: Purchase)
    ensures r.ok <==> e.counter >= e.playerPrice
    ensures !r.ok ==> r.state == e
    ensures r.ok ==> r.state == e.(counter := e.counter - e.playerPrice)
  {
    if CanAfford(e, e.playerPrice) then
      Purchase(true, e.(counter := Debit(e, e.playerPrice)))
    else Purchase(false, e)
  }

  datatype Upgrade = MultiplierUpgrade | AutoClickUpgrade | GravityUpgrade | AutoMultiUpgrade | ObjectUpgrade

  function Buy(e: Economy, u: Upgrade): Purchase
  {
    match u
    case MultiplierUpgrade => BuyMultiplier(e)
    case AutoClickUpgrade => BuyAutoClick(e)
    case GravityUpgrade => BuyGravity(e)
    case AutoMultiUpgrade => BuyAutoMulti(e)
    case ObjectUpgrade => BuyObject(e)
  }

  /** The price field an upgrade is paid from. */
  function PriceOfUpgrade(e: Economy, u: Upgrade): int
  {
    match u
    case MultiplierUpgrade => e.multiPrice
    case AutoClickUpgrade => e.autoPrice
    case GravityUpgrade => e.gravityPrice
    case AutoMultiUpgrade => e.autoMultiPrice
    case ObjectUpgrade => e.playerPrice
  }

  /** The name of the price field an upgrade is paid from. */
  function PriceKey(u: Upgrade): string
  {
    match u
    case MultiplierUpgrade => "multiPrice"
    case AutoClickUpgrade => "autoPrice"
    case GravityUpgrade => "gravityPrice"
    case AutoMultiUpgrade => "autoMultiPrice"
    case ObjectUpgrade => "playerPrice"
  }

  /** Looks a price field up by name; the other field names are not prices. */
  function UpgradeForKey(key: string): (r: Option<Upgrade>)
    ensures r.Some? ==> PriceKey(r.value) == key
  {
    if key == "multiPrice" then Some(MultiplierUpgrade)
    else if key == "autoPrice" then Some(AutoClickUpgrade)
    else if key == "gravityPrice" then Some(GravityUpgrade)
    else if key == "autoMultiPrice" then Some(AutoMultiUpgrade)
    else if key == "playerPrice" then Some(ObjectUpgrade)
    else None
  }

  /** Each upgrade's price field is found under its name, and only there. */
  lemma PriceKeysResolve(u: Upgrade, key: string)
    ensures UpgradeForKey(PriceKey(u)) == Some(u)
    ensures UpgradeForKey(key) == Some(u) <==> key == PriceKey(u)
  {
  }

  /**
   * Every purchase is all-or-nothing: below its price it fails and changes
   * nothing; otherwise it debits exactly that price, so a non-negative
   * counter stays non-negative, and no price ever goes down.
   */
  lemma PurchaseIsGuarded(e: Economy, u: Upgrade)
    ensures var r := Buy(e, u);
            && (r.ok <==> CanAfford(e, PriceOfUpgrade(e, u)))
            && (!r.ok ==> r.state == e)
            && (r.ok ==> r.state.counter == e.counter - PriceOfUpgrade(e, u))
            && (e.counter >= 0 ==> r.state.counter >= 0)
            && (Healthy(e) ==> PricesNotLower(e, r.state))
  {
  }

  predicate PricesNotLower(before: Economy, after: Economy)
  {
    && after.multiPrice >= before.multiPrice && after.autoPrice >= before.autoPrice
    && after.gravityPrice >= before.gravityPrice && after.autoMultiPrice >= before.autoMultiPrice
    && after.playerPrice >= before.playerPrice
  }

  /** A successful purchase doubles its own price and only that one (none for `BuyObject`). */
  lemma PurchaseDoublesOwnPrice(e: Economy, u: Upgrade)
    requires Buy(e, u).ok
    ensures var s := Buy(e, u).state;
            && PriceOfUpgrade(s, u) == (if u == ObjectUpgrade then 1 else 2) * PriceOfUpgrade(e, u)
            && forall v: Upgrade :: v != u ==> PriceOfUpgrade(s, v) == PriceOfUpgrade(e, v)
  {
  }

  /** The auto-click interval never drops below 1 ms and never grows. */
  lemma AutoIntervalShrinksToFloor(e: Economy)
    requires e.autoInterval >= 1.0
    ensures var s := BuyAutoClick(e).state;
            && 1.0 <= s.autoInterval <= e.autoInterval
            && (BuyAutoClick(e).ok && e.autoInterval >= 100.0 / 99.0 ==> s.autoInterval == e.autoInterval * 0.99)
  {
  }

  // ------------------------------------------------------------- earning

  /** Adds `amount`, or the current increment value when no amount is given. */
  function IncrementCounter(e: Economy, amount: Option<int> := None): (r: Economy)
    ensures r.counter - e.counter == (if amount.Some? then amount.value else e.incrementValue)
    ensures r == e.(counter := r.counter)
  {
    var a := if amount.None? then LN.GetValue(LN.LargeNumber(e.incrementValue)) else amount.value;
    e.(counter := LN.Increment(LN.LargeNumber(e.counter), a).value)
  }

  /** Every operation keeps a healthy economy healthy (earning a non-negative amount). */
  lemma OperationsPreserveHealth(e: Economy, u: Upgrade, amount: Option<int>)
    requires Healthy(e)
    requires amount.Some? ==> amount.value >= 0
    ensures Healthy(Buy(e, u).state)
    ensures Healthy(IncrementCounter(e, amount))
  {
  }

  lemma InitialIsHealthy()
    ensures Healthy(Initial())
  {
  }

  function ClickTimes(e: Economy, n: nat): Economy
    decreases n
  {
    if n == 0 then e else ClickTimes(IncrementCounter(e), n - 1)
  }

  /** n default clicks earn n times the increment value and touch nothing else. */
  lemma {:induction false} ClickTimesEarns(e: Economy, n: nat)
    ensures ClickTimes(e, n) == e.(counter := e.counter + n * e.incrementValue)
    decreases n
  {
    if n > 0 {
      ClickTimesEarns(IncrementCounter(e), n - 1);
    }
  }

  /**
   * From a fresh economy, 100 default clicks afford the first multiplier:
   * the counter returns to 0, the price doubles to 200, the multiplier goes
   * from 10 to 11 and the increment value doubles to 2.
   */
  lemma FirstMultiplierScenario()
    ensures var r := BuyMultiplier(ClickTimes(Initial(), 100));
            && r.ok
            && r.state.counter == 0 && r.state.multiPrice == 200
            && r.state.multiplier == 11 && r.state.incrementValue == 2
  {
    ClickTimesEarns(Initial(), 100);
  }

  // ------------------------------------------------------------- display

  const CounterThreshold: int := 1000000000
  const MultiplierThreshold: int := 1000000

  function FormattedCounter(e: Economy): string
  {
    if e.counter > CounterThreshold then LN.ENotation(LN.LargeNumber(e.counter))
    else LN.DecimalString(e.counter)
  }

  /** The multiplier part of its label: exact up to one million, e-notation above. */
  function MultiplierText(e: Economy): string
  {
    if e.multiplier > MultiplierThreshold then LN.ENotation(LN.LargeNumber(e.multiplier))
    else LN.DecimalString(e.multiplier)
  }

  function FormattedMultiplier(e: Economy): string
  {
    "n x " + MultiplierText(e) + " (" + LN.ENotation(LN.LargeNumber(e.incrementValue)) + ")"
  }

  lemma Pow10Monotone(i: nat, j: nat)
    requires i <= j
    ensures LN.Pow10(i) <= LN.Pow10(j)
  {
    if i < j { Pow10Monotone(i, j - 1); }
  }

  /**
   * Up to one billion the counter is shown exactly (the text parses back to
   * it); above, it is shown in e-notation with an exponent of at least 9.
   */
  lemma FormattedCounterMeaning(e: Economy)
    ensures e.counter <= CounterThreshold ==> LN.ParseDecimal(FormattedCounter(e)) == Some(e.counter)
    ensures e.counter > CounterThreshold ==>
              && FormattedCounter(e) == LN.ENotationOf(LN.NatDigits(e.counter))
              && |LN.NatDigits(e.counter)| - 1 >= 9
  {
    LN.DecimalRoundTrip(e.counter);
    if e.counter > CounterThreshold {
      var s := LN.NatDigits(e.counter);
      LN.ENotationShape(e.counter);
      LN.NatDigitsLength(e.counter);
      assert LN.Pow10(9) == CounterThreshold;
      if |s| < 10 {
        Pow10Monotone(|s|, 9);
        assert false;
      }
    }
  }

  /**
   * The multiplier label names the multiplier exactly up to one million (the
   * text parses back to it) and in e-notation with an exponent of at least 6
   * above; the bracket holds the click value's e-notation.
   */
  lemma FormattedMultiplierMeaning(e: Economy)
    ensures e.multiplier <= MultiplierThreshold ==> LN.ParseDecimal(MultiplierText(e)) == Some(e.multiplier)
    ensures e.multiplier > MultiplierThreshold ==>
              && MultiplierText(e) == LN.ENotationOf(LN.NatDigits(e.multiplier))
              && |LN.NatDigits(e.multiplier)| - 1 >= 6
    ensures e.incrementValue >= 0 ==>
              FormattedMultiplier(e)
              == "n x " + MultiplierText(e) + " (" + LN.ENotationOf(LN.NatDigits(e.incrementValue)) + ")"
  {
    LN.DecimalRoundTrip(e.multiplier);
    if e.incrementValue >= 0 {
      LN.ENotationShape(e.incrementValue);
    }
    if e.multiplier > MultiplierThreshold {
      var s := LN.NatDigits(e.multiplier);
      LN.ENotationShape(e.multiplier);
      LN.NatDigitsLength(e.multiplier);
      assert LN.Pow10(6) == MultiplierThreshold;
      if |s| < 7 {
        Pow10Monotone(|s|, 6);
        assert false;
      }
    }
  }

  // ------------------------------------------------------------- persistence

  /** The flat record written to a save: BigInts as decimal text, intervals as numbers. */
  datatype SavedState = SavedState(
    counter: string,
    multiplier: string,
    incrementValue: string,
    multiPrice: string,
    multiInterval: int,
    autoInterval: real,
    autoPrice: string,
    gravityPrice: string,
    autoMultiInterval: int,
    autoMultiPrice: string,
    playerPrice: string)

  function GetState(e: Economy): SavedState
  {
    SavedState(
      counter := LN.DecimalString(e.counter),
      multiplier := LN.DecimalString(e.multiplier),
      incrementValue := LN.DecimalString(e.incrementValue),
      multiPrice := LN.DecimalString(e.multiPrice),
      multiInterval := e.multiInterval,
      autoInterval := e.autoInterval,
      autoPrice := LN.DecimalString(e.autoPrice),
      gravityPrice := LN.DecimalString(e.gravityPrice),
      autoMultiInterval := e.autoMultiInterval,
      autoMultiPrice := LN.DecimalString(e.autoMultiPrice),
      playerPrice := LN.DecimalString(e.playerPrice))
  }

  datatype BigField = CounterField | MultiplierField | IncrementValueField | MultiPriceField
                    | AutoPriceField | GravityPriceField | AutoMultiPriceField | PlayerPriceField

  /** One assignment of `restoreState`, in the order the source performs them. */
  datatype RestoreStep =
    | SetBig(field: BigField, text: string)
    | SetMultiInterval(ms: int)
    | SetAutoInterval(interval: real)
    | SetAutoMultiInterval(ms: int)

  function RestoreSteps(s: SavedState): seq<RestoreStep>
  {
    [ SetBig(CounterField, s.counter), SetBig(MultiplierField, s.multiplier),
      SetBig(IncrementValueField, s.incrementValue), SetBig(MultiPriceField, s.multiPrice),
      SetMultiInterval(s.multiInterval), SetAutoInterval(s.autoInterval),
      SetBig(AutoPriceField, s.autoPrice), SetBig(GravityPriceField, s.gravityPrice),
      SetAutoMultiInterval(s.autoMultiInterval), SetBig(AutoMultiPriceField, s.autoMultiPrice),
      SetBig(PlayerPriceField, s.playerPrice) ]
  }

  function SetField(e: Economy, f: BigField, v: int): Economy
  {
    match f
    case CounterField => e.(counter := v)
    case MultiplierField => e.(multiplier := v)
    case IncrementValueField => e.(incrementValue := v)
    case MultiPriceField => e.(multiPrice := v)
    case AutoPriceField => e.(autoPrice := v)
    case GravityPriceField => e.(gravityPrice := v)
    case AutoMultiPriceField => e.(autoMultiPrice := v)
    case PlayerPriceField => e.(playerPrice := v)
  }

  /** `BigInt(text)` threw: the save record holds text that is not a decimal integer. */
  datatype LoadError = InvalidPersistedState(field: BigField)

  datatype Restored = Restored(state: Economy, error: Option<LoadError>)

  /** The value a successful step assigns. */
  function StepEffect(e: Economy, step: RestoreStep): Economy
    requires StepParses(step)
  {
    match step
    case SetBig(f, text) => SetField(e, f, LN.SetValue(LN.LargeNumber(0), LN.ParseDecimal(text).value).value)
    case SetMultiInterval(ms) => e.(multiInterval := ms)
    case SetAutoInterval(i) => e.(autoInterval := i)
    case SetAutoMultiInterval(ms) => e.(autoMultiInterval := ms)
  }

  predicate StepParses(step: RestoreStep)
  {
    step.SetBig? ==> LN.ParseDecimal(step.text).Some?
  }

  /**
   * The assignments from index `k` on, performed one after another as the
   * source does: the first text that does not parse throws, and every
   * assignment before it has already taken effect.
   */
  function ApplySteps(e: Economy, steps: seq<RestoreStep>, k: nat): Restored
    requires k <= |steps|
    decreases |steps| - k
  {
    if k == |steps| then Restored(e, None)
    else if !StepParses(steps[k]) then Restored(e, Some(InvalidPersistedState(steps[k].field)))
    else ApplySteps(StepEffect(e, steps[k]), steps, k + 1)
  }

  /** The first `n` assignments of `steps`, made one after another on `e`. */
  function AssignFirst(e: Economy, steps: seq<RestoreStep>, n: nat): Economy
    requires n <= |steps|
    requires forall i | 0 <= i < n :: StepParses(steps[i])
  {
    if n == 0 then e else StepEffect(AssignFirst(e, steps, n - 1), steps[n - 1])
  }

  /** The position of the first assignment from `k` on whose text does not parse; `|steps|` when there is none. */
  function FirstBad(steps: seq<RestoreStep>, k: nat): (i: nat)
    requires k <= |steps|
    ensures k <= i <= |steps|
    ensures forall j | k <= j < i :: StepParses(steps[j])
    ensures i < |steps| ==> !StepParses(steps[i])
    decreases |steps| - k
  {
    if k == |steps| || !StepParses(steps[k]) then k else FirstBad(steps, k + 1)
  }

  /** Once the first `k` assignments are made, running the rest stops at the first bad text with everything before it assigned. */
  lemma {:induction false} ApplyStepsStops(e: Economy, steps: seq<RestoreStep>, k: nat)
    requires k <= |steps|
    requires forall i | 0 <= i < k :: StepParses(steps[i])
    ensures var b := FirstBad(steps, k);
            ApplySteps(AssignFirst(e, steps, k), steps, k)
            == Restored(AssignFirst(e, steps, b), if b < |steps| then Some(InvalidPersistedState(steps[b].field)) else None)
    decreases |steps| - k
  {
    if k < |steps| && StepParses(steps[k]) {
      ApplyStepsStops(e, steps, k + 1);
    }
  }

  /**
   * `restoreState` as written: a missing record is a no-op; otherwise the
   * assignments run in source order up to the first text that does not
   * parse, which throws with every earlier assignment already made.
   */
  function RestoreStateAsWritten(e: Economy, saved: Option<SavedState>): (r: Restored)
    ensures saved.None? ==> r == Restored(e, None)
    ensures saved.Some? ==>
      var steps := RestoreSteps(saved.value);
      var b := FirstBad(steps, 0);
      && r.state == AssignFirst(e, steps, b)
      && (r.error.None? <==> b == |steps|)
      && (b < |steps| ==> r.error == Some(InvalidPersistedState(steps[b].field)))
  {
    if saved.None? then Restored(e, None)
    else
      ApplyStepsStops(e, RestoreSteps(saved.value), 0);
      ApplySteps(e, RestoreSteps(saved.value), 0)
  }

  predicate AllStepsParse(saved: SavedState)
  {
    forall i | 0 <= i < |RestoreSteps(saved)| :: StepParses(RestoreSteps(saved)[i])
  }

  /** The economy a fully readable record describes. */
  function Decoded(saved: SavedState): Economy
    requires AllStepsParse(saved)
  {
    assert StepParses(RestoreSteps(saved)[0]) && StepParses(RestoreSteps(saved)[1]);
    assert StepParses(RestoreSteps(saved)[2]) && StepParses(RestoreSteps(saved)[3]);
    assert StepParses(RestoreSteps(saved)[6]) && StepParses(RestoreSteps(saved)[7]);
    assert StepParses(RestoreSteps(saved)[9]) && StepParses(RestoreSteps(saved)[10]);
    Economy(
      counter := LN.ParseDecimal(saved.counter).value,
      multiplier := LN.ParseDecimal(saved.multiplier).value,
      incrementValue := LN.ParseDecimal(saved.incrementValue).value,
      multiPrice := LN.ParseDecimal(saved.multiPrice).value,
      autoPrice := LN.ParseDecimal(saved.autoPrice).value,
      gravityPrice := LN.ParseDecimal(saved.gravityPrice).value,
      autoMultiPrice := LN.ParseDecimal(saved.autoMultiPrice).value,
      playerPrice := LN.ParseDecimal(saved.playerPrice).value,
      multiInterval := saved.multiInterval,
      autoInterval := saved.autoInterval,
      autoMultiInterval := saved.autoMultiInterval)
  }

  /** Running every assignment of a readable record yields `Decoded`, whatever the start. */
  lemma ApplyReadableRecord(e: Economy, saved: SavedState)
    requires AllStepsParse(saved)
    ensures ApplySteps(e, RestoreSteps(saved), 0) == Restored(Decoded(saved), None)
  {
    var st := RestoreSteps(saved);
    var e0 := e;
    var e1 := StepEffect(e0, st[0]);
    var e2 := StepEffect(e1, st[1]);
    var e3 := StepEffect(e2, st[2]);
    var e4 := StepEffect(e3, st[3]);
    var e5 := StepEffect(e4, st[4]);
    var e6 := StepEffect(e5, st[5]);
    var e7 := StepEffect(e6, st[6]);
    var e8 := StepEffect(e7, st[7]);
    var e9 := StepEffect(e8, st[8]);
    var e10 := StepEffect(e9, st[9]);
    var e11 := StepEffect(e10, st[10]);
    assert ApplySteps(e0, st, 0) == ApplySteps(e1, st, 1);
    assert ApplySteps(e1, st, 1) == ApplySteps(e2, st, 2);
    assert ApplySteps(e2, st, 2) == ApplySteps(e3, st, 3);
    assert ApplySteps(e3, st, 3) == ApplySteps(e4, st, 4);
    assert ApplySteps(e4, st, 4) == ApplySteps(e5, st, 5);
    assert ApplySteps(e5, st, 5) == ApplySteps(e6, st, 6);
    assert ApplySteps(e6, st, 6) == ApplySteps(e7, st, 7);
    assert ApplySteps(e7, st, 7) == ApplySteps(e8, st, 8);
    assert ApplySteps(e8, st, 8) == ApplySteps(e9, st, 9);
    assert ApplySteps(e9, st, 9) == ApplySteps(e10, st, 10);
    assert ApplySteps(e10, st, 10) == ApplySteps(e11, st, 11);
    assert e11 == Decoded(saved);
  }

  /**
   * The all-or-nothing restore: every text is checked before anything is
   * assigned, so a failed load leaves the economy as it was and reports the
   * same field the source's restore throws on, and a successful one replaces
   * the economy with what the record describes.
   */
  function RestoreState(e: Economy, saved: Option<SavedState>): (r: Restored)
    ensures saved.None? ==> r == Restored(e, None)
    ensures saved.Some? && !AllStepsParse(saved.value) ==>
      r.state == e && r.error.Some? && r.error == RestoreStateAsWritten(e, saved).error
    ensures saved.Some? && AllStepsParse(saved.value) ==> r == Restored(Decoded(saved.value), None)
  {
    if saved.None? then Restored(e, None)
    else if AllStepsParse(saved.value) then
      ApplyReadableRecord(e, saved.value);
      ApplySteps(e, RestoreSteps(saved.value), 0)
    else
      var steps := RestoreSteps(saved.value);
      var b := FirstBad(steps, 0);
      Restored(e, Some(InvalidPersistedState(steps[b].field)))
  }

  /** On a fully readable record the source's restore and the all-or-nothing one agree. */
  lemma RestoresAgreeOnReadable(e: Economy, saved: SavedState)
    requires AllStepsParse(saved)
    ensures RestoreStateAsWritten(e, Some(saved)) == RestoreState(e, Some(saved))
  {
    ApplyReadableRecord(e, saved);
  }

  /** Saving then loading reproduces every field, whatever the economy loaded into. */
  lemma SaveRestoreRoundTrip(e: Economy, current: Economy)
    ensures RestoreState(current, Some(GetState(e))) == Restored(e, None)
    ensures RestoreStateAsWritten(current, Some(GetState(e))) == Restored(e, None)
  {
    SavedParses(e);
    SavedDecodes(e);
    ApplyReadableRecord(current, GetState(e));
  }

  /** Every number a saved record holds is readable. */
  lemma SavedParses(e: Economy)
    ensures AllStepsParse(GetState(e))
  {
    LN.DecimalRoundTrip(e.counter);
    LN.DecimalRoundTrip(e.multiplier);
    LN.DecimalRoundTrip(e.incrementValue);
    LN.DecimalRoundTrip(e.multiPrice);
    LN.DecimalRoundTrip(e.autoPrice);
    LN.DecimalRoundTrip(e.gravityPrice);
    LN.DecimalRoundTrip(e.autoMultiPrice);
    LN.DecimalRoundTrip(e.playerPrice);
    TextsParse(GetState(e));
  }

  lemma TextsParse(saved: SavedState)
    requires LN.ParseDecimal(saved.counter).Some? && LN.ParseDecimal(saved.multiplier).Some?
    requires LN.ParseDecimal(saved.incrementValue).Some? && LN.ParseDecimal(saved.multiPrice).Some?
    requires LN.ParseDecimal(saved.autoPrice).Some? && LN.ParseDecimal(saved.gravityPrice).Some?
    requires LN.ParseDecimal(saved.autoMultiPrice).Some? && LN.ParseDecimal(saved.playerPrice).Some?
    ensures AllStepsParse(saved)
  {
    var st := RestoreSteps(saved);
    forall i | 0 <= i < |st|
      ensures StepParses(st[i])
    {
    }
  }

  /** A saved record describes the economy it was taken from. */
  lemma SavedDecodes(e: Economy)
    requires AllStepsParse(GetState(e))
    ensures Decoded(GetState(e)) == e
  {
    LN.DecimalRoundTrip(e.counter);
    LN.DecimalRoundTrip(e.multiplier);
    LN.DecimalRoundTrip(e.incrementValue);
    LN.DecimalRoundTrip(e.multiPrice);
    LN.DecimalRoundTrip(e.autoPrice);
    LN.DecimalRoundTrip(e.gravityPrice);
    LN.DecimalRoundTrip(e.autoMultiPrice);
    LN.DecimalRoundTrip(e.playerPrice);
  }

  /**
   * The source's restore is not atomic: a record whose multiplier text is
   * not a number still overwrites the counter before the throw, while the
   * all-or-nothing restore leaves the economy untouched.
   */
  lemma PartialRestoreWitness()
    ensures var bad := GetState(Initial()).(counter := "7", multiplier := "ten");
            var r := RestoreStateAsWritten(Initial(), Some(bad));
            && r.error == Some(InvalidPersistedState(MultiplierField))
            && r.state.counter == 7
            && r.state != Initial()
            && RestoreState(Initial(), Some(bad)).state == Initial()
            && RestoreState(Initial(), Some(bad)).error.Some?
  {
    var bad := GetState(Initial()).(counter := "7", multiplier := "ten");
    assert LN.ParseDecimal("7") == Some(7);
    assert LN.ParseDecimal("ten") == None;
    var st := RestoreSteps(bad);
    assert !StepParses(st[1]);
    var e1 := StepEffect(Initial(), st[0]);
    assert ApplySteps(Initial(), st, 0) == ApplySteps(e1, st, 1);
  }
}

=== FILE: helpers.dfy ===
/**
 * The pure helpers the game shares: clamping, sequence comparisons and
 * counting, item lookup and removal by `itemIndex`, and the two time
 * formatters. JavaScript values that the helpers compare are modelled as
 * primitives (`Prim`) or as any type with equality.
 */
module Helpers {
  import opened Wrappers
  import LN = LargeNumber

  // ------------------------------------------------------------- clamping

  function Min(a: real, b: real): real { if a <= b then a else b }

  function Max(a: real, b: real): real { if a >= b then a else b }

  /** `Math.min(Math.max(value, min), max)`. */
  function ClampNumber(value: real, min: real, max: real): (r: real)
    ensures min <= max ==> min <= r <= max
    ensures min <= value <= max ==> r == value
    ensures max < min ==> r == max
  {
    Min(Max(value, min), max)
  }

  function Dist(a: real, b: real): real { if a >= b then a - b else b - a }

  /** With a proper range, clamping picks the point of the range nearest to the value, and is idempotent. */
  lemma ClampIsNearest(value: real, min: real, max: real, w: real)
    requires min <= max && min <= w <= max
    ensures Dist(ClampNumber(value, min, max), value) <= Dist(w, value)
    ensures ClampNumber(ClampNumber(value, min, max), min, max) == ClampNumber(value, min, max)
  {
  }

  // ------------------------------------------------------------- comparisons

  /**
   * No element differs from the first. The empty array passes. (A
   * non-array argument, which the source logs and answers undefined for,
   * cannot be expressed in the typed model.)
   */
  method AllEqual<T(==)>(a: seq<T>) returns (r: bool)
    ensures r <==> forall i, j :: 0 <= i < j < |a| ==> a[i] == a[j]
  {
    var i := 0;
    while i < |a|
      invariant i <= |a|
      invariant forall j :: 0 <= j < i ==> a[j] == a[0]
    {
      if a[i] != a[0] {
        return false;
      }
      i := i + 1;
    }
    return true;
  }

  /**
   * Array comparison: both absent counts as equal (the reference test
   * `a === b` succeeds on two nulls), one absent as unequal, otherwise equal
   * length and equal elements position by position.
   */
  method ArraysEqual<T(==)>(a: Option<seq<T>>, b: Option<seq<T>>) returns (r: bool)
    ensures r <==> a == b
  {
    if a.None? && b.None? {
      return true;
    }
    if a.None? || b.None? {
      return false;
    }
    var x, y := a.value, b.value;
    if |x| != |y| {
      return false;
    }
    var i := 0;
    while i < |x|
      invariant i <= |x|
      invariant x[..i] == y[..i]
    {
      if x[i] != y[i] {
        return false;
      }
      assert x[..i + 1] == x[..i] + [x[i]];
      assert y[..i + 1] == y[..i] + [y[i]];
      i := i + 1;
    }
    assert x == x[..i] && y == y[..i];
    return true;
  }

  /** A primitive JavaScript value, as far as the helpers distinguish them. */
  datatype Prim = Num(n: int) | Str(s: string) | Bool(b: bool) | Undefined | Null

  function TypeOf(v: Prim): string
  {
    match v
    case Num(_) => "number"
    case Str(_) => "string"
    case Bool(_) => "boolean"
    case Undefined => "undefined"
    case Null => "object"
  }

  function ToText(v: Prim): string
  {
    match v
    case Num(n) => LN.DecimalString(n)
    case Str(s) => s
    case Bool(b) => if b then "true" else "false"
    case Undefined => "undefined"
    case Null => "null"
  }

  /** The object key a value is filed under: its text followed by its type name. */
  function Key(v: Prim): string
  {
    ToText(v) + TypeOf(v)
  }

  lemma StripSuffix(a: string, b: string, t: string)
    requires a + t == b + t
    ensures a == b
  {
    assert a == (a + t)[..|a|];
    assert b == (b + t)[..|b|];
  }

  lemma LastCharOfKey(v: Prim)
    ensures Key(v)[|Key(v)| - 1] == TypeOf(v)[|TypeOf(v)| - 1]
  {
    var t, x := TypeOf(v), ToText(v);
    assert (x + t)[|x + t| - 1] == t[|t| - 1];
  }

  /** The five type names end in five different letters. */
  lemma TypeNamesEndApart(v: Prim, w: Prim)
    requires TypeOf(v)[|TypeOf(v)| - 1] == TypeOf(w)[|TypeOf(w)| - 1]
    ensures TypeOf(v) == TypeOf(w)
  {
    assert "number"[5] == 'r' && "string"[5] == 'g' && "boolean"[6] == 'n';
    assert "undefined"[8] == 'd' && "object"[5] == 't';
  }

  /** Distinct values get distinct keys: the type names end in distinct letters, and the texts of one type differ. */
  lemma KeyInjective(v: Prim, w: Prim)
    requires Key(v) == Key(w)
    ensures v == w
  {
    LastCharOfKey(v);
    LastCharOfKey(w);
    TypeNamesEndApart(v, w);
    StripSuffix(ToText(v), ToText(w), TypeOf(v));
    if v.Num? {
      LN.DecimalStringInjective(v.n, w.n);
    } else if v.Bool? {
      assert |ToText(v)| == |ToText(w)|;
    }
  }

  /** The keys of the elements of `a`, collected front to back. */
  function Keys(a: seq<Prim>): set<string>
  {
    if |a| == 0 then {} else Keys(a[..|a| - 1]) + {Key(a[|a| - 1])}
  }

  lemma KeysMembers(a: seq<Prim>, k: string)
    ensures k in Keys(a) <==> exists i :: 0 <= i < |a| && Key(a[i]) == k
  {
    if k in Keys(a) {
      var i := KeyIndex(a, k);
    }
    if exists i :: 0 <= i < |a| && Key(a[i]) == k {
      var i :| 0 <= i < |a| && Key(a[i]) == k;
      IndexKey(a, i);
    }
  }

  /** Every key in the set is the key of some element. */
  lemma {:induction false} KeyIndex(a: seq<Prim>, k: string) returns (i: nat)
    requires k in Keys(a)
    ensures i < |a| && Key(a[i]) == k
  {
    var p := a[..|a| - 1];
    if k == Key(a[|a| - 1]) {
      i := |a| - 1;
    } else {
      i := KeyIndex(p, k);
      assert a[i] == p[i];
    }
  }

  /** The key of every element is in the set. */
  lemma {:induction false} IndexKey(a: seq<Prim>, i: nat)
    requires i < |a|
    ensures Key(a[i]) in Keys(a)
  {
    if i < |a| - 1 {
      var p := a[..|a| - 1];
      IndexKey(p, i);
      assert p[i] == a[i];
    }
  }

  function Elements<T>(a: seq<T>): set<T>
  {
    set i | 0 <= i < |a| :: a[i]
  }

  /** Equal key sets are equal value sets. */
  lemma KeysMatchElements(a1: seq<Prim>, a2: seq<Prim>)
    ensures Keys(a1) == Keys(a2) <==> Elements(a1) == Elements(a2)
  {
    if Keys(a1) == Keys(a2) {
      ValuesFollowKeys(a1, a2);
      ValuesFollowKeys(a2, a1);
    }
    if Elements(a1) == Elements(a2) {
      KeysFollowValues(a1, a2);
      KeysFollowValues(a2, a1);
    }
  }

  lemma ValuesFollowKeys(a1: seq<Prim>, a2: seq<Prim>)
    requires Keys(a1) <= Keys(a2)
    ensures Elements(a1) <= Elements(a2)
  {
    forall x | x in Elements(a1) ensures x in Elements(a2)
    {
      var i :| 0 <= i < |a1| && a1[i] == x;
      KeysMembers(a1, Key(x));
      KeysMembers(a2, Key(x));
      var j :| 0 <= j < |a2| && Key(a2[j]) == Key(x);
      KeyInjective(a2[j], x);
    }
  }

  lemma KeysFollowValues(a1: seq<Prim>, a2: seq<Prim>)
    requires Elements(a1) <= Elements(a2)
    ensures Keys(a1) <= Keys(a2)
  {
    forall k | k in Keys(a1) ensures k in Keys(a2)
    {
      KeysMembers(a1, k);
      var i :| 0 <= i < |a1| && Key(a1[i]) == k;
      assert a1[i] in Elements(a2);
      var j :| 0 <= j < |a2| && a2[j] == a1[i];
      KeysMembers(a2, k);
    }
  }

  lemma KeysSnoc(a: seq<Prim>, i: nat)
    requires i < |a|
    ensures Keys(a[..i + 1]) == Keys(a[..i]) + {Key(a[i])}
  {
    assert a[..i + 1][..i] == a[..i];
  }

  /**
   * Marks every key of the first array with 1, then every key of the second
   * with 2 (failing on a key the first lacks), then fails if a key is still
   * marked 1: the arrays hold the same values, ignoring order and repeats.
   */
  method AreArraysEqualSets(a1: seq<Prim>, a2: seq<Prim>) returns (r: bool)
    ensures r <==> Elements(a1) == Elements(a2)
  {
    KeysMatchElements(a1, a2);
    var superSet := MarkFirst(a1);
    var ok;
    ok, superSet := MarkSecond(superSet, a2);
    if !ok {
      return false;
    }
    r := NoneUnmatched(superSet);
  }

  /** The first pass: every key of `a` marked 1. */
  method MarkFirst(a: seq<Prim>) returns (superSet: map<string, int>)
    ensures superSet.Keys == Keys(a)
    ensures forall k :: k in superSet ==> superSet[k] == 1
  {
    superSet := map[];
    var i := 0;
    while i < |a|
      invariant i <= |a|
      invariant superSet.Keys == Keys(a[..i])
      invariant forall k :: k in superSet ==> superSet[k] == 1
    {
      KeysSnoc(a, i);
      superSet := superSet[Key(a[i]) := 1];
      i := i + 1;
    }
    assert a[..i] == a;
  }

  /** The second pass: stops at the first key of `a` not yet marked, else marks every key of `a` with 2. */
  method MarkSecond(marked: map<string, int>, a: seq<Prim>) returns (ok: bool, superSet: map<string, int>)
    requires forall k :: k in marked ==> marked[k] == 1
    ensures ok <==> Keys(a) <= marked.Keys
    ensures ok ==> superSet.Keys == marked.Keys
    ensures ok ==> forall k :: k in superSet ==> (superSet[k] == 1 <==> k !in Keys(a))
  {
    superSet := marked;
    var i := 0;
    while i < |a|
      invariant i <= |a|
      invariant superSet.Keys == marked.Keys
      invariant Keys(a[..i]) <= marked.Keys
      invariant MarkedAfter(superSet, a, i)
    {
      var e := Key(a[i]);
      if e !in superSet {
        KeyOutside(a, i, marked.Keys);
        return false, superSet;
      }
      MarkStep(superSet, a, i);
      superSet := superSet[e := 2];
      i := i + 1;
    }
    assert a[..i] == a;
    return true, superSet;
  }

  /** After `i` elements of the second pass, exactly the keys not yet seen keep their 1. */
  ghost predicate MarkedAfter(superSet: map<string, int>, a: seq<Prim>, i: nat)
    requires i <= |a|
  {
    forall k :: k in superSet ==> (superSet[k] == 1 <==> k !in Keys(a[..i]))
  }

  lemma MarkStep(superSet: map<string, int>, a: seq<Prim>, i: nat)
    requires i < |a| && MarkedAfter(superSet, a, i)
    ensures MarkedAfter(superSet[Key(a[i]) := 2], a, i + 1)
    ensures Keys(a[..i + 1]) == Keys(a[..i]) + {Key(a[i])}
  {
    KeysSnoc(a, i);
  }

  lemma KeyOutside(a: seq<Prim>, i: nat, known: set<string>)
    requires i < |a| && Key(a[i]) !in known
    ensures !(Keys(a) <= known)
  {
    KeysMembers(a, Key(a[i]));
  }

  /** The last pass: no key is still marked 1. */
  method NoneUnmatched(superSet: map<string, int>) returns (r: bool)
    ensures r <==> forall k :: k in superSet ==> superSet[k] != 1
  {
    var remaining := superSet.Keys;
    while remaining != {}
      invariant remaining <= superSet.Keys
      invariant forall k :: k in superSet && k !in remaining ==> superSet[k] != 1
      decreases |remaining|
    {
      var e :| e in remaining;
      if superSet[e] == 1 {
        return false;
      }
      remaining := remaining - {e};
    }
    return true;
  }

  /** The number of elements equal to `value`. */
  method HowManyInArray<T(==)>(value: T, a: seq<T>) returns (count: nat)
    ensures count == multiset(a)[value]
    ensures count <= |a|
  {
    count := 0;
    var i := 0;
    while i < |a|
      invariant i <= |a|
      invariant count == multiset(a[..i])[value]
      invariant count <= i
    {
      assert a[..i + 1] == a[..i] + [a[i]];
      if a[i] == value {
        count := count + 1;
      }
      i := i + 1;
    }
    assert a[..i] == a;
  }

  // ------------------------------------------------------------- items by itemIndex

  datatype Item<T> = Item(itemIndex: int, data: T)

  /** Where the first item carrying `itemIndex` sits, if anywhere (`findIndex`). */
  function FindItem<T>(a: seq<Item<T>>, itemIndex: int): (r: Option<nat>)
    ensures r.None? <==> forall j :: 0 <= j < |a| ==> a[j].itemIndex != itemIndex
    ensures r.Some? ==> r.value < |a| && a[r.value].itemIndex == itemIndex
    ensures r.Some? ==> forall j :: 0 <= j < r.value ==> a[j].itemIndex != itemIndex
  {
    if a == [] then None
    else if a[0].itemIndex == itemIndex then Some(0)
    else match FindItem(a[1..], itemIndex)
      case None => None
      case Some(k) => Some(k + 1)
  }

  /** The first item carrying `itemIndex`, if any (`find`). */
  function GetItem<T>(a: seq<Item<T>>, itemIndex: int): (r: Option<Item<T>>)
    ensures r.None? <==> forall j :: 0 <= j < |a| ==> a[j].itemIndex != itemIndex
    ensures r.Some? ==> r.value.itemIndex == itemIndex
  {
    match FindItem(a, itemIndex)
    case None => None
    case Some(k) => Some(a[k])
  }

  /**
   * Splices out the first item carrying `itemIndex` and reports success;
   * without such an item the array is left as it was.
   */
  method RemoveItemFromArray<T>(a: seq<Item<T>>, itemIndex: int) returns (removed: bool, rest: seq<Item<T>>)
    ensures removed <==> exists j :: 0 <= j < |a| && a[j].itemIndex == itemIndex
    ensures !removed ==> rest == a
    ensures removed ==>
      exists k :: 0 <= k < |a| && a[k].itemIndex == itemIndex &&
        (forall j :: 0 <= j < k ==> a[j].itemIndex != itemIndex) && rest == a[..k] + a[k + 1..]
  {
    var i := 0;
    while i < |a|
      invariant i <= |a|
      invariant forall j :: 0 <= j < i ==> a[j].itemIndex != itemIndex
    {
      if a[i].itemIndex == itemIndex {
        return true, a[..i] + a[i + 1..];
      }
      i := i + 1;
    }
    return false, a;
  }

  /**
   * Removing takes out the item lookup finds, and a second lookup then
   * finds the next item with the same index.
   */
  lemma RemoveTakesFoundItem<T>(a: seq<Item<T>>, itemIndex: int, k: nat)
    requires k < |a| && a[k].itemIndex == itemIndex
    requires forall j :: 0 <= j < k ==> a[j].itemIndex != itemIndex
    ensures GetItem(a, itemIndex) == Some(a[k])
    ensures |a[..k] + a[k + 1..]| == |a| - 1
    ensures GetItem(a[..k] + a[k + 1..], itemIndex) == GetItem(a[k + 1..], itemIndex)
  {
    FindSkipsPrefix(a[..k], a[k + 1..], itemIndex);
  }

  lemma {:induction false} FindSkipsPrefix<T>(p: seq<Item<T>>, q: seq<Item<T>>, itemIndex: int)
    requires forall j :: 0 <= j < |p| ==> p[j].itemIndex != itemIndex
    ensures GetItem(p + q, itemIndex) == GetItem(q, itemIndex)
    ensures FindItem(p + q, itemIndex).Some? ==> FindItem(p + q, itemIndex).value == |p| + FindItem(q, itemIndex).value
    ensures FindItem(p + q, itemIndex).None? <==> FindItem(q, itemIndex).None?
  {
    if p != [] {
      assert (p + q)[0] == p[0];
      assert (p + q)[1..] == p[1..] + q;
      FindSkipsPrefix(p[1..], q, itemIndex);
    } else {
      assert p + q == q;
    }
  }

  // ------------------------------------------------------------- time

  const TwoTo31: int := 0x8000_0000
  const TwoTo32: int := 0x1_0000_0000

  /** `~~x` on an integral number: the value wrapped into the signed 32-bit range. */
  function ToInt32(n: int): (r: int)
    ensures -TwoTo31 <= r < TwoTo31
    ensures (r - n) % TwoTo32 == 0
    ensures -TwoTo31 <= n < TwoTo31 ==> r == n
  {
    var m := n % TwoTo32;
    if m >= TwoTo31 then m - TwoTo32 else m
  }

  /** JavaScript's `%`: the remainder takes the sign of the dividend. */
  function TruncRem(x: int, y: int): (r: int)
    requires y != 0
    ensures x >= 0 ==> 0 <= r < LN.Abs(y)
    ensures x < 0 ==> -LN.Abs(y) < r <= 0
  {
    x - LN.TruncDiv(x, y) * y
  }

  /** How a JavaScript number prints when it is an integer. */
  function NumText(n: int): string
  {
    LN.DecimalString(n)
  }

  /** The three fields `formatTime` computes from a non-negative millisecond count. */
  datatype Clock = Clock(hrs: int, mins: int, secs: int)

  function ClockOf(ms: nat): (c: Clock)
    ensures 0 <= c.mins < 60 && -60 < c.secs < 60
    ensures ms / 1000 < TwoTo31 ==> c.hrs == ms / 3600000 && c.secs == (ms / 1000) % 60 && 0 <= c.secs
  {
    var c := Clock(ToInt32(ms / 3600000), (ms % 3600000) / 60000, TruncRem(ToInt32(ms / 1000), 60));
    assert ms / 1000 < TwoTo31 ==> ms / 3600000 <= ms / 1000 by {
      assert ms / 3600000 == (ms / 1000) / 3600;
    }
    c
  }

  function ZeroIf(b: bool): string { if b then "0" else "" }

  /** A field padded to two characters with a leading zero below ten. */
  function Pad2(n: int): string
  {
    ZeroIf(n < 10) + NumText(n)
  }

  /**
   * The clock text as the source builds it: when hours are shown, the
   * minutes receive their leading zero twice, once after the hour field and
   * once before the minutes.
   */
  function ClockTextAsWritten(c: Clock): string
  {
    (if c.hrs > 0 then NumText(c.hrs) + ":" + ZeroIf(c.mins < 10) else "") + Pad2(c.mins) + ":" + Pad2(c.secs)
  }

  /** The clock text with the minutes padded once: `[H:]MM:SS`. */
  function ClockText(c: Clock): string
  {
    (if c.hrs > 0 then NumText(c.hrs) + ":" else "") + Pad2(c.mins) + ":" + Pad2(c.secs)
  }

  /** `formatTime` as written, a minus sign before the text of the magnitude for negative input. */
  function FormatTimeAsWritten(ms: int): (r: string)
    ensures ms < 0 ==> r == "-" + FormatTimeAsWritten(-ms)
    decreases if ms < 0 then 1 else 0
  {
    if ms < 0 then "-" + FormatTimeAsWritten(-ms) else ClockTextAsWritten(ClockOf(ms))
  }

  /** `formatTime` corrected to pad the minutes once. */
  function FormatTime(ms: int): (r: string)
    ensures ms < 0 ==> r == "-" + FormatTime(-ms)
    decreases if ms < 0 then 1 else 0
  {
    if ms < 0 then "-" + FormatTime(-ms) else ClockText(ClockOf(ms))
  }

  /** Reads a `[H:]MM:SS` clock back to whole seconds; anything else is none. */
  function ReadClock(r: string): Option<int>
  {
    if |r| < 5 || r[|r| - 3] != ':' then None
    else
      var mm := LN.ParseDecimal(r[|r| - 5..|r| - 3]);
      var ss := LN.ParseDecimal(r[|r| - 2..]);
      if mm.None? || ss.None? then None
      else if |r| == 5 then Some(mm.value * 60 + ss.value)
      else if r[|r| - 6] != ':' then None
      else
        var hh := LN.ParseDecimal(r[..|r| - 6]);
        if hh.None? then None else Some(hh.value * 3600 + mm.value * 60 + ss.value)
  }

  lemma Pad2Reads(n: int)
    requires 0 <= n < 100
    ensures |Pad2(n)| == 2
    ensures LN.ParseDecimal(Pad2(n)) == Some(n)
  {
    var s := Pad2(n);
    if n < 10 {
      assert LN.NatDigits(n) == [LN.DigitChar(n)];
      assert s == ['0', LN.DigitChar(n)];
      assert s[..1] == "0";
      assert LN.DigitsValue(s[..1]) == 0 by {
        assert s[..1][..0] == [];
      }
      assert LN.AllDigits(s);
    } else {
      var t := LN.NatDigits(n);
      assert t == LN.NatDigits(n / 10) + [LN.DigitChar(n % 10)];
      assert LN.NatDigits(n / 10) == [LN.DigitChar(n / 10)];
      assert s == t;
      LN.DecimalRoundTrip(n);
    }
  }

  /** Below 2^31 seconds the three fields are the hours/minutes/seconds split of the whole seconds. */
  lemma ClockSplit(ms: nat)
    requires ms / 1000 < TwoTo31
    ensures var c := ClockOf(ms);
            && c.hrs >= 0 && 0 <= c.mins < 60 && 0 <= c.secs < 60
            && ms / 1000 == c.hrs * 3600 + c.mins * 60 + c.secs
  {
    var c := ClockOf(ms);
    var total := ms / 1000;
    MinutesOfHour(ms);
    assert c.hrs == total / 3600 && c.mins == (total % 3600) / 60 && c.secs == total % 60;
    SecondsSplit(total);
  }

  lemma MinutesOfHour(ms: nat)
    ensures ms / 3600000 == (ms / 1000) / 3600
    ensures (ms % 3600000) / 60000 == ((ms / 1000) % 3600) / 60
  {
    var total := ms / 1000;
    LN.DivDiv(ms, 1000, 3600);
    var h := ms / 3600000;
    var rest := ms % 3600000;
    var t := total % 3600;
    assert total == 3600 * h + t;
    assert ms == 3600000 * h + rest;
    assert 1000 * total <= ms < 1000 * total + 1000;
    assert t * 1000 <= rest < t * 1000 + 1000;
    LN.DivBracket(rest, 1000, t);
    LN.DivDiv(rest, 1000, 60);
  }

  lemma SecondsSplit(total: nat)
    ensures total == (total / 3600) * 3600 + ((total % 3600) / 60) * 60 + total % 60
    ensures (total % 3600) / 60 < 60
  {
    var h := total / 3600;
    var t := total % 3600;
    assert total == 3600 * h + t && 0 <= t < 3600;
    var m := t / 60;
    var sec := t % 60;
    assert t == 60 * m + sec && 0 <= sec < 60;
    LN.DivBracket(total, 60, 60 * h + m);
    assert total % 60 == sec;
  }

  lemma ReadShort(x: string, y: string, m: int, sec: int)
    requires |x| == 2 && |y| == 2
    requires LN.ParseDecimal(x) == Some(m) && LN.ParseDecimal(y) == Some(sec)
    ensures ReadClock(x + ":" + y) == Some(m * 60 + sec)
  {
    var r := x + ":" + y;
    assert |r| == 5 && r[2] == ':';
    assert r[0..2] == x && r[3..] == y;
  }

  lemma ReadLong(h: string, x: string, y: string, hv: int, m: int, sec: int)
    requires |h| >= 1 && |x| == 2 && |y| == 2
    requires LN.ParseDecimal(h) == Some(hv)
    requires LN.ParseDecimal(x) == Some(m) && LN.ParseDecimal(y) == Some(sec)
    ensures ReadClock(h + ":" + x + ":" + y) == Some(hv * 3600 + m * 60 + sec)
  {
    var r := h + ":" + x + ":" + y;
    var n := |r|;
    assert n == |h| + 6;
    assert r[n - 3] == ':' && r[n - 6] == ':';
    assert r[n - 5..n - 3] == x && r[n - 2..] == y;
    assert r[..n - 6] == h;
  }

  /** A clock whose fields are a split reads back to the seconds it stands for. */
  lemma ReadsBack(c: Clock)
    requires c.hrs >= 0 && 0 <= c.mins < 60 && 0 <= c.secs < 60
    ensures ReadClock(ClockText(c)) == Some(c.hrs * 3600 + c.mins * 60 + c.secs)
  {
    Pad2Reads(c.mins);
    Pad2Reads(c.secs);
    if c.hrs > 0 {
      ReadsBackWithHours(c);
    } else {
      assert ClockText(c) == Pad2(c.mins) + ":" + Pad2(c.secs);
      ReadShort(Pad2(c.mins), Pad2(c.secs), c.mins, c.secs);
    }
  }

  lemma ReadsBackWithHours(c: Clock)
    requires c.hrs > 0 && 0 <= c.mins < 60 && 0 <= c.secs < 60
    requires |Pad2(c.mins)| == 2 && LN.ParseDecimal(Pad2(c.mins)) == Some(c.mins)
    requires |Pad2(c.secs)| == 2 && LN.ParseDecimal(Pad2(c.secs)) == Some(c.secs)
    ensures ReadClock(ClockText(c)) == Some(c.hrs * 3600 + c.mins * 60 + c.secs)
  {
    var h, x, y := NumText(c.hrs), Pad2(c.mins), Pad2(c.secs);
    LN.DecimalRoundTrip(c.hrs);
    assert ClockText(c) == h + ":" + x + ":" + y;
    ReadLong(h, x, y, c.hrs, c.mins, c.secs);
  }

  lemma ReadsBackTotal(c: Clock, total: int)
    requires c.hrs >= 0 && 0 <= c.mins < 60 && 0 <= c.secs < 60
    requires total == c.hrs * 3600 + c.mins * 60 + c.secs
    ensures ReadClock(ClockText(c)) == Some(total)
  {
    ReadsBack(c);
  }

  /**
   * The corrected clock reads back to the whole seconds it was made from,
   * up to 2^31 seconds (past that, `~~` wraps the fields).
   */
  lemma FormatTimeRoundTrip(ms: int)
    requires 0 <= ms && ms / 1000 < TwoTo31
    ensures ReadClock(FormatTime(ms)) == Some(ms / 1000)
  {
    var c := ClockOf(ms);
    ClockSplit(ms);
    ReadsBackTotal(c, ms / 1000);
    assert FormatTime(ms) == ClockText(c);
  }

  /** 65 minutes: the source prints `1:005:00`, which no longer reads as a clock. */
  lemma FormatTimeDoublePads()
    ensures FormatTimeAsWritten(3900000) == "1:005:00"
    ensures ReadClock(FormatTimeAsWritten(3900000)) == None
    ensures FormatTime(3900000) == "1:05:00"
  {
    SixtyFiveMinutes();
    SixtyFiveMinutesText();
    DoublePaddedUnreadable();
  }

  lemma SixtyFiveMinutes()
    ensures ClockOf(3900000) == Clock(1, 5, 0)
  {
  }

  lemma SixtyFiveMinutesText()
    ensures ClockTextAsWritten(Clock(1, 5, 0)) == "1:005:00"
    ensures ClockText(Clock(1, 5, 0)) == "1:05:00"
  {
    assert NumText(1) == "1" && NumText(5) == "5" && NumText(0) == "0";
    assert Pad2(5) == "05" && Pad2(0) == "00";
  }

  lemma DoublePaddedUnreadable()
    ensures ReadClock("1:005:00") == None
  {
    var r := "1:005:00";
    assert r[|r| - 5..|r| - 3] == "05" && r[|r| - 2..] == "00";
    assert LN.ParseDecimal("05").Some? && LN.ParseDecimal("00").Some?;
    assert r[|r| - 6] == '0';
  }

  /** Without hours both versions agree. */
  lemma FormatTimeAgreesBelowAnHour(ms: nat)
    requires ms < 3600000
    ensures FormatTimeAsWritten(ms) == FormatTime(ms)
  {
    assert ClockOf(ms).hrs == 0;
  }

  /**
   * The hour field is printed exactly from one hour on: below an hour the
   * corrected text is the five characters `MM:SS`, and from an hour on it
   * is longer.
   */
  lemma FormatTimeShowsHoursFromAnHour(ms: int)
    requires 0 <= ms && ms / 1000 < TwoTo31
    ensures |FormatTime(ms)| == 5 <==> ms < 3600000
    ensures ms < 3600000 ==> FormatTime(ms) == Pad2(ClockOf(ms).mins) + ":" + Pad2(ClockOf(ms).secs)
  {
    var c := ClockOf(ms);
    ClockSplit(ms);
    Pad2Reads(c.mins);
    Pad2Reads(c.secs);
    assert FormatTime(ms) == ClockText(c);
    if c.hrs > 0 {
      assert |NumText(c.hrs)| >= 1 by {
        LN.DecimalRoundTrip(c.hrs);
      }
      assert |ClockText(c)| == |NumText(c.hrs)| + 6;
    } else {
      assert |ClockText(c)| == 5;
    }
  }

  /**
   * For every input, the source's text differs from the corrected one
   * exactly when hours are shown and the minutes are below ten: then one
   * extra `0` follows the hour separator, so the minutes are padded twice.
   */
  lemma FormatTimeAsWrittenPadsTwice(ms: nat)
    ensures var c := ClockOf(ms);
            FormatTimeAsWritten(ms)
            == if c.hrs > 0 && c.mins < 10 then NumText(c.hrs) + ":0" + Pad2(c.mins) + ":" + Pad2(c.secs)
               else FormatTime(ms)
    ensures var c := ClockOf(ms);
            FormatTimeAsWritten(ms) != FormatTime(ms) <==> c.hrs > 0 && c.mins < 10
  {
    var c := ClockOf(ms);
    assert FormatTime(ms) == ClockText(c) && FormatTimeAsWritten(ms) == ClockTextAsWritten(c);
    if c.hrs > 0 && c.mins < 10 {
      assert |ClockTextAsWritten(c)| == |ClockText(c)| + 1;
    }
  }

  // ------------------------------------------------------------- seconds to text

  /** A count with its unit, or nothing for a count that is not positive. */
  function Field(n: int, one: string, many: string): (r: string)
    ensures r == "" <==> n <= 0
  {
    if n > 0 then NumText(n) + (if n == 1 then one else many) else ""
  }

  /** The hours, minutes and seconds `secondsToHms` computes, with floor division and JavaScript's `%`. */
  function HmsOf(d: int): (c: Clock)
    ensures d >= 0 ==> d == c.hrs * 3600 + c.mins * 60 + c.secs && 0 <= c.mins < 60 && 0 <= c.secs < 60 && c.hrs >= 0
    ensures d <= 0 ==> c.hrs <= 0 && c.mins <= 0 && c.secs <= 0
  {
    var rest := TruncRem(d, 3600);
    Clock(d / 3600, rest / 60, TruncRem(rest, 60))
  }

  function SecondsToHms(d: int): (r: string)
    ensures r == "" <==> d <= 0
  {
    var c := HmsOf(d);
    Field(c.hrs, " hour, ", " hours, ") + Field(c.mins, " minute, ", " minutes, ") + Field(c.secs, " second", " seconds")
  }

  /** The text spells out the unique hours/minutes/seconds split of `d`. */
  lemma SecondsToHmsSpellsSplit(d: int, h: nat, m: nat, s: nat)
    requires m < 60 && s < 60 && d == h * 3600 + m * 60 + s
    ensures SecondsToHms(d) == Field(h, " hour, ", " hours, ") + Field(m, " minute, ", " minutes, ") + Field(s, " second", " seconds")
  {
    var c := HmsOf(d);
    assert c.hrs == h && c.mins == m && c.secs == s by {
      SplitUnique(d, c.hrs, c.mins * 60 + c.secs, h, m * 60 + s, 3600);
      SplitUnique(c.mins * 60 + c.secs, c.mins, c.secs, m, s, 60);
    }
  }

  lemma SplitUnique(d: nat, q1: nat, r1: int, q2: nat, r2: int, b: nat)
    requires b > 0 && 0 <= r1 < b && 0 <= r2 < b
    requires d == q1 * b + r1 && d == q2 * b + r2
    ensures q1 == q2 && r1 == r2
  {
    LN.DivBracket(d, b, q1);
    LN.DivBracket(d, b, q2);
  }

  /** Singular units for exactly one, plural otherwise, zero fields left out. */
  lemma OneSecond()
    ensures SecondsToHms(1) == "1 second"
  {
    OneAndTwo();
    SecondsToHmsSpellsSplit(1, 0, 0, 1);
  }

  lemma OneMinute()
    ensures SecondsToHms(60) == "1 minute, "
  {
    OneAndTwo();
    SecondsToHmsSpellsSplit(60, 0, 1, 0);
  }

  lemma OneOfEach()
    ensures SecondsToHms(3661) == "1 hour, 1 minute, 1 second"
  {
    OneAndTwo();
    SecondsToHmsSpellsSplit(3661, 1, 1, 1);
  }

  lemma TwoOfEach()
    ensures SecondsToHms(7322) == "2 hours, 2 minutes, 2 seconds"
  {
    OneAndTwo();
    SecondsToHmsSpellsSplit(7322, 2, 2, 2);
  }

  lemma OneAndTwo()
    ensures Field(1, " hour, ", " hours, ") == "1 hour, " && Field(2, " hour, ", " hours, ") == "2 hours, "
    ensures Field(1, " minute, ", " minutes, ") == "1 minute, " && Field(2, " minute, ", " minutes, ") == "2 minutes, "
    ensures Field(1, " second", " seconds") == "1 second" && Field(2, " second", " seconds") == "2 seconds"
  {
    assert NumText(1) == "1" && NumText(2) == "2";
  }
}

=== FILE: large_number.dfy ===
/**
 * The unbounded counter of the game: a wrapper around one BigInt with
 * increment, decrement, multiply and divide (each returning the new value),
 * exact get/set, and a truncated scientific-notation formatter.
 *
 * BigInt is unbounded, so Dafny's `int` models it without wrap-around. The
 * one place where the two differ is division: BigInt division truncates
 * toward zero (section 6.1.6.2.5 of ECMA-262), Dafny's `/` is Euclidean, so
 * `TruncDiv` spells the former out.
 */
module LargeNumber {
  import opened Wrappers

  datatype LargeNumber = LargeNumber(value: int)

  /** BigInt division by zero throws a RangeError. */
  datatype ArithError = DivisionByZero

  function Abs(x: int): int { if x < 0 then -x else x }

  function Min(a: int, b: int): int { if a <= b then a else b }

  // ---------------------------------------------------------------- arithmetic

  /** The constructor: the initial value defaults to zero. */
  function New(initial: int := 0): LargeNumber { LargeNumber(initial) }

  function Increment(n: LargeNumber, step: int := 1): (r: LargeNumber)
    ensures r.value > n.value <==> step > 0
  {
    LargeNumber(n.value + step)
  }

  function Decrement(n: LargeNumber, step: int := 1): (r: LargeNumber)
    ensures r.value < n.value <==> step > 0
  {
    LargeNumber(n.value - step)
  }

  function Multiply(n: LargeNumber, factor: int): (r: LargeNumber)
    ensures factor == 0 ==> r.value == 0
  {
    LargeNumber(n.value * factor)
  }

  /**
   * Division truncating toward zero: the remainder `x - q*y` carries the sign
   * of the dividend and is smaller than the divisor in magnitude. These two
   * facts determine `q` uniquely (see `TruncDivUnique`).
   */
  function TruncDiv(x: int, y: int): (q: int)
    requires y != 0
    ensures x >= 0 ==> 0 <= x - q * y < Abs(y)
    ensures x < 0 ==> -Abs(y) < x - q * y <= 0
  {
    TruncDivRemainder(x, y);
    if (x >= 0) == (y > 0) then Abs(x) / Abs(y) else -(Abs(x) / Abs(y))
  }

  /** The sign analysis behind `TruncDiv`'s contract. */
  lemma TruncDivRemainder(x: int, y: int)
    requires y != 0
    ensures var q := if (x >= 0) == (y > 0) then Abs(x) / Abs(y) else -(Abs(x) / Abs(y));
            (x >= 0 ==> 0 <= x - q * y < Abs(y)) && (x < 0 ==> -Abs(y) < x - q * y <= 0)
  {
    var a, b := Abs(x), Abs(y);
    var m := a / b;
    var r0 := a - m * b;
    assert 0 <= r0 < b;
    var q := if (x >= 0) == (y > 0) then m else -m;
    if y > 0 {
      assert b == y;
      if x >= 0 { assert q * y == m * b; } else { assert q * y == -(m * b); }
    } else {
      assert b == -y;
      if x >= 0 { assert q * y == (-m) * (-b) == m * b; } else { assert q * y == m * (-b) == -(m * b); }
    }
  }

  function Divide(n: LargeNumber, divisor: int): (r: Result<LargeNumber, ArithError>)
    ensures divisor == 0 <==> r == Failure(DivisionByZero)
    ensures r.Success? && n.value >= 0 && divisor > 0 ==> r.value.value == n.value / divisor
  {
    if divisor == 0 then Failure(DivisionByZero)
    else Success(LargeNumber(TruncDiv(n.value, divisor)))
  }

  function GetValue(n: LargeNumber): int { n.value }

  function SetValue(n: LargeNumber, v: int): LargeNumber { LargeNumber(v) }

  // ------------------------------------------------------------ division facts

  lemma MulAbsBound(k: int, y: int)
    requires k != 0 && y != 0
    ensures Abs(k * y) >= Abs(y)
  {
    if k > 0 {
      if y > 0 { assert k * y >= y; } else { assert k * y <= y; }
    } else {
      if y > 0 { assert k * y <= -y; } else { assert k * y >= -y; }
    }
  }

  /** Any quotient whose remainder obeys the truncation rule is `TruncDiv`'s. */
  lemma TruncDivUnique(x: int, y: int, q: int)
    requires y != 0
    requires x >= 0 ==> 0 <= x - q * y < Abs(y)
    requires x < 0 ==> -Abs(y) < x - q * y <= 0
    ensures q == TruncDiv(x, y)
  {
    var q' := TruncDiv(x, y);
    var r, r' := x - q * y, x - q' * y;
    assert -Abs(y) < r' - r < Abs(y);
    if q != q' {
      MulAbsBound(q - q', y);
      MulSub(q, q', y);
      assert false;
    }
  }

  lemma MulSub(a: int, b: int, y: int)
    ensures (a - b) * y == a * y - b * y
  {
  }

  /** BigInt division differs from Dafny's Euclidean `/` on negative operands. */
  lemma TruncDivTowardZero()
    ensures TruncDiv(-7, 2) == -3 && -7 / 2 == -4
    ensures TruncDiv(7, -2) == -3 && TruncDiv(-7, -2) == 3
  {
    TruncDivUnique(-7, 2, -3);
    TruncDivUnique(7, -2, -3);
    TruncDivUnique(-7, -2, 3);
  }

  /** Adding then subtracting the same step restores the counter. */
  lemma IncrementThenDecrement(n: LargeNumber, step: int)
    ensures Decrement(Increment(n, step), step) == n
    ensures Increment(n).value == n.value + 1 && Decrement(n).value == n.value - 1
  {
  }

  /** A product is exactly divisible by its factor, so dividing undoes multiplying. */
  lemma MultiplyThenDivide(n: LargeNumber, factor: int)
    requires factor != 0
    ensures Divide(Multiply(n, factor), factor) == Success(n)
  {
    TruncDivUnique(n.value * factor, factor, n.value);
  }

  /** `setValue` discards the previous value entirely. */
  lemma SetThenGet(n: LargeNumber, m: LargeNumber, v: int)
    ensures GetValue(SetValue(n, v)) == v
    ensures SetValue(n, v) == SetValue(m, v)
  {
  }

  // ---------------------------------------------------------- decimal strings

  function Pow10(k: nat): (r: nat)
    ensures r >= 1
  {
    if k == 0 then 1 else 10 * Pow10(k - 1)
  }

  predicate IsDigit(c: char) { '0' <= c <= '9' }

  predicate AllDigits(s: string) { forall i :: 0 <= i < |s| ==> IsDigit(s[i]) }

  function DigitChar(d: int): (c: char)
    requires 0 <= d < 10
    ensures IsDigit(c)
  {
    "0123456789"[d]
  }

  function DigitValue(c: char): (d: int)
    requires IsDigit(c)
    ensures 0 <= d < 10 && DigitChar(d) == c
  {
    (c as int) - ('0' as int)
  }

  /** The digits of a non-negative integer, most significant first, as BigInt's `toString()`. */
  function NatDigits(n: nat): (s: string)
    ensures |s| >= 1 && AllDigits(s)
    ensures n > 0 ==> s[0] != '0'
  {
    if n < 10 then [DigitChar(n)] else NatDigits(n / 10) + [DigitChar(n % 10)]
  }

  /** BigInt's `toString()`: a minus sign before the digits of a negative value. */
  function DecimalString(v: int): string
  {
    if v < 0 then "-" + NatDigits(-v) else NatDigits(v)
  }

  /** The number a string of decimal digits denotes (leading zeros allowed). */
  function DigitsValue(s: string): nat
    requires AllDigits(s)
  {
    if |s| == 0 then 0 else 10 * DigitsValue(s[..|s| - 1]) + DigitValue(s[|s| - 1])
  }

  /**
   * `BigInt(s)` restricted to decimal text: the empty string is zero, an
   * optional sign may precede one or more digits, anything else throws
   * (modelled as `None`).
   */
  function ParseDecimal(s: string): Option<int>
  {
    if s == "" then Some(0)
    else if (s[0] == '-' || s[0] == '+') && |s| > 1 && AllDigits(s[1..]) then
      var d: int := DigitsValue(s[1..]);
      Some(if s[0] == '-' then -d else d)
    else if AllDigits(s) then Some(DigitsValue(s))
    else None
  }

  lemma {:induction false} NatDigitsValue(n: nat)
    ensures DigitsValue(NatDigits(n)) == n
  {
    if n >= 10 {
      var s := NatDigits(n);
      assert s[..|s| - 1] == NatDigits(n / 10);
      NatDigitsValue(n / 10);
    }
  }

  /** Printing then parsing a value gives it back: the save format loses nothing. */
  lemma DecimalRoundTrip(v: int)
    ensures ParseDecimal(DecimalString(v)) == Some(v)
  {
    var s := DecimalString(v);
    if v < 0 {
      var t := NatDigits(-v);
      assert s == "-" + t;
      assert s[1..] == t;
      NatDigitsValue(-v);
      assert s[0] == '-' && |s| > 1 && AllDigits(s[1..]);
    } else {
      assert s == NatDigits(v);
      assert IsDigit(s[0]);
      NatDigitsValue(v);
    }
  }

  lemma DecimalStringInjective(v: int, w: int)
    requires DecimalString(v) == DecimalString(w)
    ensures v == w
  {
    DecimalRoundTrip(v);
    DecimalRoundTrip(w);
  }

  /** A number with k digits lies in [10^(k-1), 10^k). */
  lemma {:induction false} NatDigitsLength(n: nat)
    ensures n >= 1 ==> Pow10(|NatDigits(n)| - 1) <= n < Pow10(|NatDigits(n)|)
    ensures n < Pow10(|NatDigits(n)|)
  {
    if n >= 10 {
      NatDigitsLength(n / 10);
    }
  }

  /** Integer division is characterised by its bracketing multiples. */
  lemma DivBracket(n: nat, m: nat, c: nat)
    requires m > 0
    requires c * m <= n < c * m + m
    ensures n / m == c
  {
    var q, r := n / m, n % m;
    assert n == q * m + r && 0 <= r < m;
    MulCancelLess(c, q + 1, m);
    MulCancelLess(q, c + 1, m);
  }

  /** A positive factor can be cancelled from a strict inequality. */
  lemma MulCancelLess(a: int, b: int, m: int)
    requires m > 0 && a * m < b * m
    ensures a < b
  {
    assert (b - a) * m == b * m - a * m;
  }

  lemma DivDiv(n: nat, a: nat, b: nat)
    requires a > 0 && b > 0
    ensures n / a / b == n / (a * b)
  {
    var q, r := n / a, n % a;
    var q2, r2 := q / b, q % b;
    DivMod(n, a);
    DivMod(q, b);
    NestedSplit(n, a, b, q, r, q2, r2);
    DivBracket(n, a * b, q2);
  }

  lemma DivMod(n: int, a: int)
    requires a > 0
    ensures n == (n / a) * a + n % a && 0 <= n % a < a
  {
  }

  /** Two nested divisions with remainder give one division by the product. */
  lemma NestedSplit(n: int, a: int, b: int, q: int, r: int, q2: int, r2: int)
    requires a > 0 && b > 0
    requires n == q * a + r && 0 <= r < a
    requires q == q2 * b + r2 && 0 <= r2 < b
    ensures q2 * (a * b) <= n < q2 * (a * b) + a * b
  {
    MulDistrib(q2 * b, r2, a);
    MulAssoc(q2, b, a);
    assert n == q2 * (a * b) + (r2 * a + r);
    RemainderBound(a, b, r, r2);
  }

  lemma RemainderBound(a: int, b: int, r: int, r2: int)
    requires 0 <= r < a && 0 <= r2 < b
    ensures 0 <= r2 * a + r < a * b
  {
    assert r2 * a <= (b - 1) * a;
    MulDistrib(b - 1, 1, a);
  }

  lemma MulDistrib(x: int, y: int, a: int)
    ensures (x + y) * a == x * a + y * a
  {
  }

  lemma MulAssoc(x: int, y: int, a: int)
    ensures x * y * a == x * (a * y)
  {
  }

  /** The first k digits of n denote n with its last |digits|-k digits cut off. */
  lemma {:induction false} PrefixValue(n: nat, k: nat)
    requires 1 <= k <= |NatDigits(n)|
    ensures DigitsValue(NatDigits(n)[..k]) == n / Pow10(|NatDigits(n)| - k)
  {
    var s := NatDigits(n);
    if k == |s| {
      assert s[..k] == s;
      NatDigitsValue(n);
    } else {
      var t := NatDigits(n / 10);
      assert s == t + [DigitChar(n % 10)];
      assert s[..k] == t[..k];
      PrefixValue(n / 10, k);
      DivDiv(n, 10, Pow10(|t| - k));
    }
  }

  // ---------------------------------------------------------- e-notation

  /** The digits after the point: the second to fifth character of the decimal text. */
  function Fraction(s: string): string
    requires |s| >= 1
  {
    s[1..Min(5, |s|)]
  }

  /**
   * `getValueInENotation()`: the first character of the decimal text, a
   * point, up to four further characters, then `e+` and the text length
   * minus one. Nothing is rounded; a single-digit value prints as `5.e+0`.
   */
  function ENotation(n: LargeNumber): string
  {
    ENotationOf(DecimalString(n.value))
  }

  /** E-notation assembled from the decimal text `s` of the value. */
  function ENotationOf(s: string): string
    requires |s| >= 1
  {
    [s[0]] + "." + Fraction(s) + "e+" + DecimalString(|s| - 1)
  }

  /**
   * For a non-negative value the exponent is the number of digits minus one
   * (so 10^e <= v < 10^(e+1) when v > 0) and the mantissa is the value's
   * leading min(e,4)+1 digits, truncated rather than rounded.
   */
  lemma ENotationMeaning(v: nat)
    ensures var e := |NatDigits(v)| - 1;
            var frac := Fraction(NatDigits(v));
            && ENotation(LargeNumber(v)) == [NatDigits(v)[0]] + "." + frac + "e+" + DecimalString(e)
            && (v > 0 ==> Pow10(e) <= v < Pow10(e + 1))
            && |frac| == Min(4, e)
            && AllDigits([NatDigits(v)[0]] + frac)
            && DigitsValue([NatDigits(v)[0]] + frac) == v / Pow10(e - |frac|)
  {
    ENotationShape(v);
    ENotationOfParts(NatDigits(v));
    ExponentBounds(v);
    MantissaValue(v);
  }

  lemma ENotationShape(v: nat)
    ensures ENotation(LargeNumber(v)) == ENotationOf(NatDigits(v))
  {
    NonNegativeText(v);
  }

  lemma ENotationOfParts(s: string)
    requires |s| >= 1
    ensures ENotationOf(s) == [s[0]] + "." + Fraction(s) + "e+" + DecimalString(|s| - 1)
  {
  }

  lemma NonNegativeText(v: nat)
    ensures DecimalString(v) == NatDigits(v)
  {
  }

  lemma ExponentBounds(v: nat)
    ensures var e := |NatDigits(v)| - 1; v > 0 ==> Pow10(e) <= v < Pow10(e + 1)
  {
    NatDigitsLength(v);
  }

  lemma MantissaValue(v: nat)
    ensures var s := NatDigits(v);
            && |Fraction(s)| == Min(4, |s| - 1)
            && AllDigits([s[0]] + Fraction(s))
            && DigitsValue([s[0]] + Fraction(s)) == v / Pow10(|s| - 1 - |Fraction(s)|)
  {
    var s := NatDigits(v);
    MantissaPrefix(s);
    PrefixValue(v, Min(5, |s|));
  }

  lemma MantissaPrefix(s: string)
    requires |s| >= 1 && AllDigits(s)
    ensures [s[0]] + Fraction(s) == s[..Min(5, |s|)]
    ensures AllDigits([s[0]] + Fraction(s))
  {
  }

  lemma ENotationSingleDigit()
    ensures ENotation(LargeNumber(5)) == "5.e+0"
  {
    assert DecimalString(5) == "5";
    assert DecimalString(0) == "0";
  }

  lemma ENotationTruncates()
    ensures ENotation(LargeNumber(123456)) == "1.2345e+5"
  {
    SixDigits();
    SixDigitText();
    assert ENotation(LargeNumber(123456)) == ENotationOf(DecimalString(123456));
  }

  lemma SixDigits()
    ensures DecimalString(123456) == "123456"
  {
    assert NatDigits(12) == "12";
    assert NatDigits(123) == "123";
    assert NatDigits(1234) == "1234";
    assert NatDigits(12345) == "12345";
  }

  lemma SixDigitText()
    ensures ENotationOf("123456") == "1.2345e+5"
  {
    var s := "123456";
    assert [s[0]] == "1" && Fraction(s) == "2345";
    assert DecimalString(|s| - 1) == "5";
  }
}

=== FILE: particle.dfy ===
/**
 * One pooled particle: a small state machine with two mutually exclusive
 * ways to die. Silent expiry (lifetime exceeded or off screen) fires
 * nothing; consumption by a black hole fires the callback bound at spawn,
 * once, because dying clears it.
 *
 * The sprite and its physics body are reduced to the fields the logic reads
 * and writes: position, velocity and the force accumulated for the physics
 * engine's next step. The legacy particle is the same machine whose spawn
 * never binds a callback.
 */
module Particle {
  import opened Wrappers

  /** The identity of a consumption callback; its effect lies outside the model. */
  type Token = nat

  datatype Vec = Vec(x: real, y: real)

  /** The game canvas size read by the off-screen test. */
  datatype Screen = Screen(width: real, height: real)

  const Sentinel: Vec := Vec(-10000.0, -10000.0)
  const Zero: Vec := Vec(0.0, 0.0)
  const DefaultMaxLifetime: real := 30000.0
  const OffScreenMargin: real := 100.0

  datatype Particle = Particle(
    active: bool,
    pos: Vec,
    vel: Vec,
    force: Vec,
    lifetime: real,
    maxLifetime: real,
    onConsumed: Option<Token>)

  /** What every dead or never-spawned particle looks like. */
  predicate Dormant(p: Particle)
  {
    !p.active && p.onConsumed.None? && p.pos == Sentinel && p.vel == Zero
  }

  /** The constructor: a hidden, inactive particle at (x, y), at rest. */
  function New(x: real, y: real): (p: Particle)
    ensures !p.active && p.lifetime == 0.0 && p.maxLifetime == 30000.0 && p.onConsumed.None?
    ensures x == -10000.0 && y == -10000.0 ==> Dormant(p)
  {
    Particle(false, Vec(x, y), Zero, Zero, 0.0, DefaultMaxLifetime, None)
  }

  /** Reactivates a particle, replacing whatever callback it had with `onConsumed`. */
  function Spawn(p: Particle, x: real, y: real, vx: real, vy: real, onConsumed: Option<Token> := None): (r: Particle)
    ensures r.active && r.pos == Vec(x, y) && r.vel == Vec(vx, vy)
    ensures r.lifetime == 0.0 && r.onConsumed == onConsumed
    ensures r.maxLifetime == p.maxLifetime && r.force == p.force
  {
    p.(active := true, pos := Vec(x, y), vel := Vec(vx, vy), lifetime := 0.0, onConsumed := onConsumed)
  }

  predicate IsOffScreen(p: Particle, screen: Screen)
  {
    || p.pos.x < -OffScreenMargin
    || p.pos.x > screen.width + OffScreenMargin
    || p.pos.y < -OffScreenMargin
    || p.pos.y > screen.height + OffScreenMargin
  }

  /** Shared cleanup of both deaths: inactive, no callback, parked at the sentinel, at rest. */
  function Deactivate(p: Particle): (r: Particle)
    ensures Dormant(r)
    ensures r.lifetime == p.lifetime && r.maxLifetime == p.maxLifetime && r.force == p.force
  {
    p.(active := false, onConsumed := None, pos := Sentinel, vel := Zero)
  }

  /** Standard death: no callback is fired (the result carries no token). */
  function Kill(p: Particle): (r: Particle)
    ensures Dormant(r)
  {
    Deactivate(p)
  }

  /** A black-hole death and the callback token it fired, if any. */
  datatype Consumption = Consumption(particle: Particle, fired: Option<Token>)

  function KillByBlackHole(p: Particle): (r: Consumption)
    ensures r.fired == p.onConsumed
    ensures Dormant(r.particle)
  {
    var fired := if p.onConsumed.Some? then p.onConsumed else None;
    Consumption(Deactivate(p), fired)
  }

  /**
   * One frame: an inactive particle is left alone; an active one ages by
   * `delta` and dies silently when strictly past its maximum lifetime or
   * outside the screen plus margin.
   */
  function Update(p: Particle, delta: real, screen: Screen): (r: Particle)
    ensures !p.active ==> r == p
    ensures p.active ==> r.lifetime == p.lifetime + delta
    ensures p.active ==> (r.active <==> !(p.lifetime + delta > p.maxLifetime || IsOffScreen(p, screen)))
    ensures p.active && r.active ==> r == p.(lifetime := p.lifetime + delta)
    ensures p.active && !r.active ==> Dormant(r)
  {
    if !p.active then p
    else
      var aged := p.(lifetime := p.lifetime + delta);
      if aged.lifetime > aged.maxLifetime || IsOffScreen(aged, screen) then Kill(aged) else aged
  }

  /**
   * The callback fires at most once per spawn: after any death, silent or
   * not, a further consumption fires nothing.
   */
  lemma ConsumptionFiresOnce(p: Particle, delta: real, screen: Screen)
    ensures KillByBlackHole(KillByBlackHole(p).particle).fired.None?
    ensures KillByBlackHole(Kill(p)).fired.None?
    ensures p.active && !Update(p, delta, screen).active ==> KillByBlackHole(Update(p, delta, screen)).fired.None?
  {
  }

  /** Only a spawn binds a callback: no other transition makes one appear. */
  lemma OnlySpawnBindsCallback(p: Particle, delta: real, screen: Screen)
    requires p.onConsumed.None?
    ensures Update(p, delta, screen).onConsumed.None?
    ensures Kill(p).onConsumed.None? && KillByBlackHole(p).particle.onConsumed.None?
    ensures KillByBlackHole(p).fired.None?
  {
  }

  /** The parking spot is off every screen, whatever its size. */
  lemma SentinelIsOffScreen(p: Particle, screen: Screen)
    requires p.pos == Sentinel
    ensures IsOffScreen(p, screen)
  {
  }

  /** The off-screen test is exactly "outside the screen grown by 100 px on each side". */
  lemma OffScreenIsOutsideMarginBox(p: Particle, screen: Screen)
    ensures !IsOffScreen(p, screen) <==>
              (-100.0 <= p.pos.x <= screen.width + 100.0 && -100.0 <= p.pos.y <= screen.height + 100.0)
  {
  }
}

=== FILE: particle_system.dfy ===
/**
 * The particle system that the game scene drives: a pool created on
 * initialisation, coin explosions that spawn a capped number of particles,
 * and the per-frame pass in which every black hole acts on every listed
 * particle.
 *
 * Before initialisation there is no pool and every operation is a no-op.
 * The random offsets and speeds of an explosion arrive through `jitter`;
 * the square roots of the gravity pass arrive through `measure`.
 */
module ParticleSystem {
  import opened Wrappers
  import P = Particle
  import Pool
  import BH = BlackHole

  const DefaultMaxParticles: int := 5000
  const DefaultExplosion: int := 50
  const ExplosionCap: int := 100

  datatype System = System(manager: Option<Pool.Pool>, maxParticles: int)

  /** The two coin animations, alternated along an explosion. */
  datatype Anim = FlipDa | FlipDb

  /** The random part of the i-th spawn: position offset and velocity. */
  datatype Kick = Kick(dx: real, dy: real, vx: real, vy: real)

  datatype SpawnRequest = SpawnRequest(x: real, y: real, vx: real, vy: real, anim: Anim)

  function New(maxParticles: int := DefaultMaxParticles): (sys: System)
    ensures sys.manager.None? && sys.maxParticles == maxParticles
  {
    System(None, maxParticles)
  }

  /** Creates the pool with the system's cap. */
  function Initialize(sys: System): (r: System)
    ensures r.maxParticles == sys.maxParticles && r.manager.Some?
    ensures Pool.Clean(r.manager.value) && Pool.ActiveCount(r.manager.value) == 0
    ensures r.manager.value.maxParticles == sys.maxParticles
  {
    Pool.NewSatisfiesInv(sys.maxParticles);
    sys.(manager := Some(Pool.New(sys.maxParticles)))
  }

  function GetActiveCount(sys: System): (n: nat)
    ensures sys.manager.None? ==> n == 0
    ensures sys.manager.Some? ==> n == |sys.manager.value.active|
  {
    match sys.manager
    case None => 0
    case Some(pool) => Pool.ActiveCount(pool)
  }

  function Update(sys: System, delta: real, screen: P.Screen): (r: System)
    requires sys.manager.Some? ==> Pool.ValidIndices(sys.manager.value)
    ensures sys.manager.None? ==> r == sys
    ensures sys.manager.Some? ==> r.manager == Some(Pool.Update(sys.manager.value, delta, screen))
    ensures r.maxParticles == sys.maxParticles
  {
    match sys.manager
    case None => sys
    case Some(pool) => sys.(manager := Some(Pool.Update(pool, delta, screen)))
  }

  // ------------------------------------------------------------- explosions

  /** How many particles one explosion asks for: the amount, capped at 100, none if not positive. */
  function SpawnCount(amount: int): (n: nat)
    ensures n <= ExplosionCap
    ensures 0 <= amount <= ExplosionCap ==> n == amount
    ensures amount > ExplosionCap ==> n == ExplosionCap
    ensures amount <= 0 ==> n == 0
  {
    if amount <= 0 then 0 else if amount < ExplosionCap then amount else ExplosionCap
  }

  function AnimFor(i: nat): (a: Anim)
  {
    if i % 2 == 0 then FlipDa else FlipDb
  }

  /** The spawns one explosion issues, in order. */
  function Requests(x: real, y: real, count: nat, jitter: nat -> Kick): (r: seq<SpawnRequest>)
    ensures |r| == count
    ensures forall i :: 0 <= i < count ==>
              r[i] == SpawnRequest(x + jitter(i).dx, y + jitter(i).dy, jitter(i).vx, jitter(i).vy, AnimFor(i))
  {
    seq(count, (i: int) requires 0 <= i =>
      SpawnRequest(x + jitter(i).dx, y + jitter(i).dy, jitter(i).vx, jitter(i).vy, AnimFor(i)))
  }

  /** Spawns the requests in order, none with a callback. */
  function SpawnAll(pool: Pool.Pool, reqs: seq<SpawnRequest>): (r: Pool.Pool)
    requires Pool.ValidIndices(pool)
    ensures Pool.ValidIndices(r) && r.maxParticles == pool.maxParticles
    decreases |reqs|
  {
    if reqs == [] then pool
    else
      var q := reqs[0];
      SpawnAll(Pool.Spawn(pool, q.x, q.y, q.vx, q.vy, None).pool, reqs[1..])
  }

  datatype Explosion = Explosion(system: System, requests: seq<SpawnRequest>)

  /**
   * `explodeParticles`: min(amount, 100) spawns at (x, y) plus a small
   * random offset, alternating the two animations, with no callback.
   */
  function ExplodeParticles(sys: System, x: real, y: real, jitter: nat -> Kick, amount: int := DefaultExplosion): (r: Explosion)
    requires sys.manager.Some? ==> Pool.ValidIndices(sys.manager.value)
    ensures sys.manager.None? ==> r == Explosion(sys, [])
    ensures sys.manager.Some? ==>
              && |r.requests| == SpawnCount(amount)
              && (forall i :: 0 <= i < |r.requests| ==> r.requests[i].anim == (if i % 2 == 0 then FlipDa else FlipDb))
              && (forall i :: 0 <= i < |r.requests| ==> r.requests[i].x == x + jitter(i).dx && r.requests[i].y == y + jitter(i).dy)
              && r.system.manager == Some(SpawnAll(sys.manager.value, r.requests))
    ensures r.system.maxParticles == sys.maxParticles
  {
    match sys.manager
    case None => Explosion(sys, [])
    case Some(pool) =>
      var reqs := Requests(x, y, SpawnCount(amount), jitter);
      Explosion(sys.(manager := Some(SpawnAll(pool, reqs))), reqs)
  }

  /**
   * An explosion binds no callback: every slot afterwards either kept the
   * callback it had or has none. It keeps the pool's invariant, and each
   * request adds one to the active count unless it had to evict.
   */
  lemma {:induction false} SpawnAllBindsNothing(pool: Pool.Pool, reqs: seq<SpawnRequest>)
    requires Pool.Inv(pool)
    ensures var r := SpawnAll(pool, reqs);
            && Pool.Inv(r)
            && |r.slots| >= |pool.slots|
            && (forall s :: 0 <= s < |r.slots| ==>
                  r.slots[s].onConsumed.None? || (s < |pool.slots| && r.slots[s].onConsumed == pool.slots[s].onConsumed))
            && Pool.ActiveCount(pool) <= Pool.ActiveCount(r) <= Pool.ActiveCount(pool) + |reqs|
    decreases |reqs|
  {
    if reqs != [] {
      var q := reqs[0];
      var next := Pool.Spawn(pool, q.x, q.y, q.vx, q.vy, None).pool;
      Pool.SpawnCases(pool, q.x, q.y, q.vx, q.vy, None);
      Pool.SpawnKeepsInv(pool, q.x, q.y, q.vx, q.vy, None);
      SpawnAllBindsNothing(next, reqs[1..]);
    }
  }

  lemma ExplosionBindsNothing(sys: System, x: real, y: real, jitter: nat -> Kick, amount: int)
    requires sys.manager.Some? && Pool.Inv(sys.manager.value)
    ensures var r := ExplodeParticles(sys, x, y, jitter, amount).system.manager.value;
            var pool := sys.manager.value;
            && Pool.Inv(r)
            && (forall s :: 0 <= s < |r.slots| ==>
                  r.slots[s].onConsumed.None? || (s < |pool.slots| && r.slots[s].onConsumed == pool.slots[s].onConsumed))
            && Pool.ActiveCount(pool) <= Pool.ActiveCount(r) <= Pool.ActiveCount(pool) + SpawnCount(amount)
  {
    var reqs := ExplodeParticles(sys, x, y, jitter, amount).requests;
    SpawnAllBindsNothing(sys.manager.value, reqs);
  }

  // ------------------------------------------------------------- gravity pass

  /** The callbacks of the consumed slots, in consumption order, skipping slots with none. */
  function Callbacks(slots: seq<P.Particle>, consumed: seq<nat>): (r: seq<P.Token>)
    requires forall i :: 0 <= i < |consumed| ==> consumed[i] < |slots|
    ensures |r| <= |consumed|
    decreases |consumed|
  {
    if consumed == [] then []
    else
      var first := slots[consumed[0]].onConsumed;
      (if first.Some? then [first.value] else []) + Callbacks(slots, consumed[1..])
  }

  lemma {:induction false} CallbacksAppend(slots: seq<P.Particle>, a: seq<nat>, b: seq<nat>)
    requires forall i :: 0 <= i < |a| ==> a[i] < |slots|
    requires forall i :: 0 <= i < |b| ==> b[i] < |slots|
    ensures Callbacks(slots, a + b) == Callbacks(slots, a) + Callbacks(slots, b)
    decreases |a|
  {
    if a != [] {
      assert (a + b)[0] == a[0];
      assert (a + b)[1..] == a[1..] + b;
      var first := slots[a[0]].onConsumed;
      var head := if first.Some? then [first.value] else [];
      var ra, rb := Callbacks(slots, a[1..]), Callbacks(slots, b);
      CallbacksAppend(slots, a[1..], b);
      assert Callbacks(slots, a + b) == head + (ra + rb);
      assert Callbacks(slots, a) == head + ra;
      assert head + (ra + rb) == (head + ra) + rb;
    } else {
      assert a + b == b;
    }
  }

  lemma {:induction false} CallbacksFrame(slots: seq<P.Particle>, other: seq<P.Particle>, consumed: seq<nat>)
    requires forall i :: 0 <= i < |consumed| ==> consumed[i] < |slots| && consumed[i] < |other|
    requires forall i :: 0 <= i < |consumed| ==> slots[consumed[i]].onConsumed == other[consumed[i]].onConsumed
    ensures Callbacks(slots, consumed) == Callbacks(other, consumed)
    decreases |consumed|
  {
    if consumed != [] {
      CallbacksFrame(slots, other, consumed[1..]);
    }
  }

  /**
   * What a stretch of the gravity pass did to the arena: the consumed slots
   * are distinct, were active before and are dormant after; every other
   * slot kept its activity, callback, position and age; inactive particles
   * were not touched; and the fired tokens are exactly the consumed slots'
   * callbacks, in order.
   */
  predicate Swallowed(before: seq<P.Particle>, after: seq<P.Particle>, consumed: seq<nat>, fired: seq<P.Token>)
  {
    && |after| == |before|
    && Pool.Distinct(consumed)
    && (forall i :: 0 <= i < |consumed| ==> consumed[i] < |before|)
    && (forall i :: 0 <= i < |consumed| ==> before[consumed[i]].active && P.Dormant(after[consumed[i]]))
    && (forall s :: 0 <= s < |before| && s !in consumed ==>
          && after[s].active == before[s].active
          && after[s].onConsumed == before[s].onConsumed
          && after[s].pos == before[s].pos
          && after[s].lifetime == before[s].lifetime)
    && (forall s :: 0 <= s < |before| && !before[s].active ==> after[s] == before[s])
    && fired == Callbacks(before, consumed)
  }

  lemma SwallowedNothing(slots: seq<P.Particle>)
    ensures Swallowed(slots, slots, [], [])
  {
  }

  /** Two stretches of the pass compose: nothing is swallowed twice. */
  lemma SwallowedTwice(a: seq<P.Particle>, b: seq<P.Particle>, c: seq<P.Particle>,
                       c1: seq<nat>, f1: seq<P.Token>, c2: seq<nat>, f2: seq<P.Token>)
    requires Swallowed(a, b, c1, f1) && Swallowed(b, c, c2, f2)
    ensures Swallowed(a, c, c1 + c2, f1 + f2)
  {
    var cs := c1 + c2;
    forall x | x in c1
      ensures x !in c2
    {
      var i :| 0 <= i < |c1| && c1[i] == x;
      assert !b[x].active;
    }
    forall i, j | 0 <= i < j < |cs|
      ensures cs[i] != cs[j]
    {
      if i < |c1| && j >= |c1| {
        assert cs[i] in c1 && cs[j] == c2[j - |c1|];
      }
    }
    forall i | 0 <= i < |cs|
      ensures a[cs[i]].active && P.Dormant(c[cs[i]])
    {
      if i < |c1| {
        var x := c1[i];
        assert x !in c2;
        assert c[x] == b[x];
      } else {
        var x := c2[i - |c1|];
        assert x !in c1;
      }
    }
    forall s | 0 <= s < |a| && s !in cs
      ensures c[s].active == a[s].active && c[s].onConsumed == a[s].onConsumed
      ensures c[s].pos == a[s].pos && c[s].lifetime == a[s].lifetime
    {
      assert s !in c1 && s !in c2;
    }
    forall s | 0 <= s < |a| && !a[s].active
      ensures c[s] == a[s]
    {
      assert b[s] == a[s];
    }
    forall i | 0 <= i < |c2|
      ensures b[c2[i]].onConsumed == a[c2[i]].onConsumed
    {
      assert c2[i] !in c1;
    }
    CallbacksFrame(b, a, c2);
    CallbacksAppend(a, c1, c2);
  }

  /** The holes the pass may use: each kill radius is positive. */
  predicate HolesReady(holes: seq<Option<BH.BlackHole>>)
  {
    forall i :: 0 <= i < |holes| && holes[i].Some? ==> holes[i].value.well.killRadius > 0.0
  }

  /** `measure` is the true distance and direction for every offset. */
  ghost predicate Measuring(measure: (real, real) -> BH.Geometry)
  {
    forall dx: real, dy: real :: BH.Measures(measure(dx, dy), dx, dy)
  }

  /** One hole acting on one particle, at the measured distance and direction to it. */
  function Effect(hole: BH.BlackHole, p: P.Particle, measure: (real, real) -> BH.Geometry): P.Consumption
    requires hole.well.killRadius > 0.0 && Measuring(measure)
  {
    BH.ApplyGravityToParticle(hole, p, measure(hole.x - p.pos.x, hole.y - p.pos.y))
  }

  /** The hole swallows `p`: it is in flight, within the hole's reach and inside its kill radius. */
  predicate Kills(hole: BH.BlackHole, p: P.Particle, measure: (real, real) -> BH.Geometry)
  {
    var d := measure(hole.x - p.pos.x, hole.y - p.pos.y).dist;
    p.active && d <= hole.well.maxInfluenceRadius && d < hole.well.killRadius
  }

  /** A hole parks exactly the particles it kills, and fires a callback only for those. */
  lemma EffectKillsExactly(hole: BH.BlackHole, p: P.Particle, measure: (real, real) -> BH.Geometry)
    requires hole.well.killRadius > 0.0 && Measuring(measure)
    ensures p.active && !Effect(hole, p, measure).particle.active <==> Kills(hole, p, measure)
    ensures Kills(hole, p, measure) ==> Effect(hole, p, measure).fired == p.onConsumed
    ensures !Kills(hole, p, measure) ==> Effect(hole, p, measure).fired.None?
  {
    var geo := measure(hole.x - p.pos.x, hole.y - p.pos.y);
    assert BH.Measures(geo, hole.x - p.pos.x, hole.y - p.pos.y);
  }

  datatype Pass = Pass(slots: seq<P.Particle>, consumed: seq<nat>, fired: seq<P.Token>)

  /** One hole acting on one slot. */
  function Visit(hole: BH.BlackHole, slots: seq<P.Particle>, s: nat, measure: (real, real) -> BH.Geometry): (r: Pass)
    requires s < |slots| && hole.well.killRadius > 0.0 && Measuring(measure)
    ensures Swallowed(slots, r.slots, r.consumed, r.fired)
    ensures forall t :: 0 <= t < |slots| && t != s ==> r.slots[t] == slots[t]
    ensures !slots[s].active ==> r == Pass(slots, [], [])
    ensures r.slots[s] == Effect(hole, slots[s], measure).particle
    ensures r.consumed == if Kills(hole, slots[s], measure) then [s] else []
  {
    var p := slots[s];
    var e := Effect(hole, p, measure);
    EffectKillsExactly(hole, p, measure);
    if p.active && !e.particle.active then
      VisitConsumes(slots, s, e.particle);
      Pass(slots[s := e.particle], [s], if e.fired.Some? then [e.fired.value] else [])
    else
      VisitKeeps(slots, s, e.particle);
      Pass(slots[s := e.particle], [], [])
  }

  /** A visit that swallowed the slot's particle consumed exactly that slot. */
  lemma VisitConsumes(slots: seq<P.Particle>, s: nat, q: P.Particle)
    requires s < |slots| && slots[s].active && P.Dormant(q)
    ensures Swallowed(slots, slots[s := q], [s], Callbacks(slots, [s]))
  {
  }

  /** A visit that left the particle in flight (or never touched it) consumed nothing. */
  lemma VisitKeeps(slots: seq<P.Particle>, s: nat, q: P.Particle)
    requires s < |slots|
    requires !slots[s].active ==> q == slots[s]
    requires q.active == slots[s].active && q.onConsumed == slots[s].onConsumed
    requires q.pos == slots[s].pos && q.lifetime == slots[s].lifetime
    ensures Swallowed(slots, slots[s := q], [], [])
  {
  }

  /** One hole visiting the listed entries j, j+1, ... in list order. */
  function HolePass(hole: BH.BlackHole, slots: seq<P.Particle>, entries: seq<nat>, j: nat,
                    measure: (real, real) -> BH.Geometry): (r: Pass)
    requires j <= |entries|
    requires forall i :: 0 <= i < |entries| ==> entries[i] < |slots|
    requires hole.well.killRadius > 0.0 && Measuring(measure)
    ensures Swallowed(slots, r.slots, r.consumed, r.fired)
    ensures forall t :: 0 <= t < |slots| && t !in entries ==> r.slots[t] == slots[t]
    decreases |entries| - j
  {
    if j == |entries| then
      SwallowedNothing(slots);
      Pass(slots, [], [])
    else
      var v := Visit(hole, slots, entries[j], measure);
      var rest := HolePass(hole, v.slots, entries, j + 1, measure);
      SwallowedTwice(slots, v.slots, rest.slots, v.consumed, v.fired, rest.consumed, rest.fired);
      Pass(rest.slots, v.consumed + rest.consumed, v.fired + rest.fired)
  }

  /** Holes i, i+1, ... in array order, each over the whole list; empty entries are skipped. */
  function HolesPass(holes: seq<Option<BH.BlackHole>>, i: nat, slots: seq<P.Particle>, entries: seq<nat>,
                     measure: (real, real) -> BH.Geometry): (r: Pass)
    requires i <= |holes| && HolesReady(holes) && Measuring(measure)
    requires forall k :: 0 <= k < |entries| ==> entries[k] < |slots|
    ensures Swallowed(slots, r.slots, r.consumed, r.fired)
    ensures forall t :: 0 <= t < |slots| && t !in entries ==> r.slots[t] == slots[t]
    decreases |holes| - i
  {
    if i == |holes| then
      SwallowedNothing(slots);
      Pass(slots, [], [])
    else if holes[i].None? then HolesPass(holes, i + 1, slots, entries, measure)
    else
      var h := HolePass(holes[i].value, slots, entries, 0, measure);
      var rest := HolesPass(holes, i + 1, h.slots, entries, measure);
      SwallowedTwice(slots, h.slots, rest.slots, h.consumed, h.fired, rest.consumed, rest.fired);
      Pass(rest.slots, h.consumed + rest.consumed, h.fired + rest.fired)
  }

  // ------------------------------------------------------------- what the pass does, slot by slot

  /** The arena after one hole has acted once on each listed slot; unlisted slots stay as they were. */
  function Moved(hole: BH.BlackHole, slots: seq<P.Particle>, es: seq<nat>, measure: (real, real) -> BH.Geometry): (r: seq<P.Particle>)
    requires hole.well.killRadius > 0.0 && Measuring(measure)
    ensures |r| == |slots|
  {
    seq(|slots|, t requires 0 <= t < |slots| => if t in es then Effect(hole, slots[t], measure).particle else slots[t])
  }

  /** The listed slots one hole kills, in list order, each judged on the arena as given. */
  function Killed(hole: BH.BlackHole, slots: seq<P.Particle>, es: seq<nat>, measure: (real, real) -> BH.Geometry): (r: seq<nat>)
    requires forall k :: 0 <= k < |es| ==> es[k] < |slots|
    decreases |es|
  {
    if es == [] then []
    else (if Kills(hole, slots[es[0]], measure) then [es[0]] else []) + Killed(hole, slots, es[1..], measure)
  }

  /** One particle carried through the present holes i, i+1, ... in array order. */
  function ThroughHoles(holes: seq<Option<BH.BlackHole>>, i: nat, p: P.Particle, measure: (real, real) -> BH.Geometry): P.Particle
    requires i <= |holes| && HolesReady(holes) && Measuring(measure)
    decreases |holes| - i
  {
    if i == |holes| then p
    else if holes[i].None? then ThroughHoles(holes, i + 1, p, measure)
    else ThroughHoles(holes, i + 1, Effect(holes[i].value, p, measure).particle, measure)
  }

  /** Each present hole's kills over the list, hole by hole, on the arena as the earlier holes left it. */
  function HolesKilled(holes: seq<Option<BH.BlackHole>>, i: nat, slots: seq<P.Particle>, es: seq<nat>,
                       measure: (real, real) -> BH.Geometry): seq<nat>
    requires i <= |holes| && HolesReady(holes) && Measuring(measure)
    requires forall k :: 0 <= k < |es| ==> es[k] < |slots|
    decreases |holes| - i
  {
    if i == |holes| then []
    else if holes[i].None? then HolesKilled(holes, i + 1, slots, es, measure)
    else
      var hole := holes[i].value;
      Killed(hole, slots, es, measure) + HolesKilled(holes, i + 1, Moved(hole, slots, es, measure), es, measure)
  }

  /** Kills judged on two arenas that agree on the listed slots are the same. */
  lemma {:induction false} KilledFrame(hole: BH.BlackHole, slots: seq<P.Particle>, other: seq<P.Particle>, es: seq<nat>,
                                       measure: (real, real) -> BH.Geometry)
    requires forall k :: 0 <= k < |es| ==> es[k] < |slots| && es[k] < |other| && slots[es[k]] == other[es[k]]
    ensures Killed(hole, slots, es, measure) == Killed(hole, other, es, measure)
    decreases |es|
  {
    if es != [] {
      KilledFrame(hole, slots, other, es[1..], measure);
    }
  }

  /**
   * Over a list without repeats, one hole's sweep leaves each listed slot
   * as the hole leaves that particle alone, and consumes exactly the listed
   * slots it kills, in list order.
   */
  lemma {:induction false} HolePassActs(hole: BH.BlackHole, slots: seq<P.Particle>, entries: seq<nat>, j: nat,
                                        measure: (real, real) -> BH.Geometry)
    requires j <= |entries|
    requires forall i :: 0 <= i < |entries| ==> entries[i] < |slots|
    requires hole.well.killRadius > 0.0 && Measuring(measure)
    requires Pool.Distinct(entries)
    ensures HolePass(hole, slots, entries, j, measure).slots == Moved(hole, slots, entries[j..], measure)
    ensures HolePass(hole, slots, entries, j, measure).consumed == Killed(hole, slots, entries[j..], measure)
    decreases |entries| - j
  {
    var es := entries[j..];
    if j == |entries| {
      assert Moved(hole, slots, es, measure) == slots;
    } else {
      var e := entries[j];
      var v := Visit(hole, slots, e, measure);
      HolePassActs(hole, v.slots, entries, j + 1, measure);
      var rest := entries[j + 1..];
      assert es[1..] == rest && es[0] == e;
      assert e !in rest by {
        forall k | j + 1 <= k < |entries|
          ensures entries[k] != e
        {
        }
      }
      KilledFrame(hole, v.slots, slots, rest, measure);
      assert Moved(hole, v.slots, rest, measure) == Moved(hole, slots, es, measure);
    }
  }

  /**
   * Over a list without repeats, the pass of every present hole leaves
   * each listed slot as the holes, one after another, leave that particle,
   * touches no unlisted slot, and consumes exactly each hole's kills in
   * turn.
   */
  lemma {:induction false} HolesPassActs(holes: seq<Option<BH.BlackHole>>, i: nat, slots: seq<P.Particle>, entries: seq<nat>,
                                         measure: (real, real) -> BH.Geometry)
    requires i <= |holes| && HolesReady(holes) && Measuring(measure)
    requires forall k :: 0 <= k < |entries| ==> entries[k] < |slots|
    requires Pool.Distinct(entries)
    ensures var r := HolesPass(holes, i, slots, entries, measure);
            && r.consumed == HolesKilled(holes, i, slots, entries, measure)
            && forall t :: 0 <= t < |slots| ==>
                 r.slots[t] == if t in entries then ThroughHoles(holes, i, slots[t], measure) else slots[t]
    decreases |holes| - i
  {
    if i == |holes| {
    } else if holes[i].None? {
      HolesPassActs(holes, i + 1, slots, entries, measure);
    } else {
      var hole := holes[i].value;
      var h := HolePass(hole, slots, entries, 0, measure);
      HolePassActs(hole, slots, entries, 0, measure);
      assert entries[0..] == entries;
      HolesPassActs(holes, i + 1, h.slots, entries, measure);
    }
  }

  datatype GravityPass = GravityPass(system: System, consumed: seq<nat>, fired: seq<P.Token>)

  /**
   * `applyGravityFromBlackHoles`: every present hole, in order, acts on
   * every entry of the active list, in order. The list itself is not
   * touched; consumed particles stay listed until the next update.
   */
  function ApplyGravityFromBlackHoles(sys: System, holes: seq<Option<BH.BlackHole>>,
                                      measure: (real, real) -> BH.Geometry): (r: GravityPass)
    requires sys.manager.Some? ==> Pool.ValidIndices(sys.manager.value)
    requires HolesReady(holes) && Measuring(measure)
    ensures sys.manager.None? ==> r == GravityPass(sys, [], [])
    ensures sys.manager.Some? ==>
              var pool := sys.manager.value;
              && r.system.manager.Some?
              && r.system.manager.value.active == pool.active
              && r.system.manager.value.maxParticles == pool.maxParticles
              && Swallowed(pool.slots, r.system.manager.value.slots, r.consumed, r.fired)
              && (forall t :: 0 <= t < |pool.slots| && t !in pool.active ==> r.system.manager.value.slots[t] == pool.slots[t])
    ensures sys.manager.Some? && Pool.Distinct(sys.manager.value.active) ==>
              var pool := sys.manager.value;
              && r.consumed == HolesKilled(holes, 0, pool.slots, pool.active, measure)
              && forall t :: 0 <= t < |pool.slots| && t in pool.active ==>
                   r.system.manager.value.slots[t] == ThroughHoles(holes, 0, pool.slots[t], measure)
    ensures r.system.maxParticles == sys.maxParticles
  {
    match sys.manager
    case None => GravityPass(sys, [], [])
    case Some(pool) =>
      var pass := HolesPass(holes, 0, pool.slots, pool.active, measure);
      if Pool.Distinct(pool.active) then
        HolesPassActs(holes, 0, pool.slots, pool.active, measure);
        GravityPass(sys.(manager := Some(pool.(slots := pass.slots))), pass.consumed, pass.fired)
      else
        GravityPass(sys.(manager := Some(pool.(slots := pass.slots))), pass.consumed, pass.fired)
  }

  /**
   * The pass keeps the pool's invariant; every consumed particle is a
   * listed one; and it fires one token per consumed particle that had a
   * callback, so never more tokens than particles consumed.
   */
  lemma GravityKeepsInv(sys: System, holes: seq<Option<BH.BlackHole>>, measure: (real, real) -> BH.Geometry)
    requires sys.manager.Some? && Pool.Inv(sys.manager.value)
    requires HolesReady(holes) && Measuring(measure)
    ensures var r := ApplyGravityFromBlackHoles(sys, holes, measure);
            var pool := sys.manager.value;
            && Pool.Inv(r.system.manager.value)
            && (forall c :: c in r.consumed ==> c in pool.active)
            && |r.fired| <= |r.consumed|
  {
    var r := ApplyGravityFromBlackHoles(sys, holes, measure);
    var pool := sys.manager.value;
    var after := r.system.manager.value;
    forall s | 0 <= s < |after.slots| && after.slots[s].active
      ensures s in after.active
    {
      ActiveNotConsumed(pool.slots, after.slots, r.consumed, r.fired, s);
    }
    forall s | 0 <= s < |after.slots| && !after.slots[s].active
      ensures P.Dormant(after.slots[s])
    {
      if s in r.consumed {
        ConsumedFacts(pool.slots, after.slots, r.consumed, r.fired, s);
      }
    }
    forall c | c in r.consumed
      ensures c in pool.active
    {
      ConsumedFacts(pool.slots, after.slots, r.consumed, r.fired, c);
    }
  }

  /**
   * Over a list without repeats, a slot is consumed exactly when it is
   * listed, was in flight, and comes out of the holes' sweep parked.
   */
  lemma GravityConsumesExactly(sys: System, holes: seq<Option<BH.BlackHole>>, measure: (real, real) -> BH.Geometry, t: nat)
    requires sys.manager.Some? && Pool.ValidIndices(sys.manager.value) && Pool.Distinct(sys.manager.value.active)
    requires HolesReady(holes) && Measuring(measure)
    requires t < |sys.manager.value.slots|
    ensures var pool := sys.manager.value;
            t in ApplyGravityFromBlackHoles(sys, holes, measure).consumed <==>
              t in pool.active && pool.slots[t].active && !ThroughHoles(holes, 0, pool.slots[t], measure).active
  {
    var r := ApplyGravityFromBlackHoles(sys, holes, measure);
    var pool := sys.manager.value;
    var after := r.system.manager.value.slots;
    if t in r.consumed {
      ConsumedFacts(pool.slots, after, r.consumed, r.fired, t);
    }
  }

  /** A swallowed slot was in flight before and is parked after. */
  lemma ConsumedFacts(before: seq<P.Particle>, after: seq<P.Particle>, consumed: seq<nat>, fired: seq<P.Token>, s: nat)
    requires Swallowed(before, after, consumed, fired) && s in consumed
    ensures s < |before| && before[s].active && P.Dormant(after[s])
  {
    var i :| 0 <= i < |consumed| && consumed[i] == s;
  }

  /** A slot still in flight after the pass was not swallowed by it. */
  lemma ActiveNotConsumed(before: seq<P.Particle>, after: seq<P.Particle>, consumed: seq<nat>, fired: seq<P.Token>, s: nat)
    requires Swallowed(before, after, consumed, fired) && s < |after| && after[s].active
    ensures s !in consumed
  {
    forall i | 0 <= i < |consumed|
      ensures consumed[i] != s
    {
      assert P.Dormant(after[consumed[i]]);
    }
  }

  /** With no hole present the pass changes nothing. */
  lemma NoHolesNoChange(sys: System, holes: seq<Option<BH.BlackHole>>, measure: (real, real) -> BH.Geometry)
    requires sys.manager.Some? ==> Pool.ValidIndices(sys.manager.value)
    requires Measuring(measure)
    requires forall i :: 0 <= i < |holes| ==> holes[i].None?
    ensures ApplyGravityFromBlackHoles(sys, holes, measure) == GravityPass(sys, [], [])
  {
    if sys.manager.Some? {
      var pool := sys.manager.value;
      NoHolesFrom(holes, 0, pool.slots, pool.active, measure);
    }
  }

  lemma {:induction false} NoHolesFrom(holes: seq<Option<BH.BlackHole>>, i: nat, slots: seq<P.Particle>, entries: seq<nat>,
                                       measure: (real, real) -> BH.Geometry)
    requires i <= |holes| && Measuring(measure)
    requires forall k :: 0 <= k < |holes| ==> holes[k].None?
    requires forall k :: 0 <= k < |entries| ==> entries[k] < |slots|
    ensures HolesPass(holes, i, slots, entries, measure) == Pass(slots, [], [])
    decreases |holes| - i
  {
    if i < |holes| {
      NoHolesFrom(holes, i + 1, slots, entries, measure);
    }
  }

  /**
   * Consumed particles leave the list at the next update: over a list
   * without repeats, the update after a pass yields a clean pool that no
   * longer names any of them.
   */
  lemma ConsumedLeaveAtUpdate(sys: System, holes: seq<Option<BH.BlackHole>>, measure: (real, real) -> BH.Geometry,
                              delta: real, screen: P.Screen)
    requires sys.manager.Some? && Pool.Inv(sys.manager.value) && Pool.Distinct(sys.manager.value.active)
    requires HolesReady(holes) && Measuring(measure)
    ensures var g := ApplyGravityFromBlackHoles(sys, holes, measure);
            var u := Update(g.system, delta, screen).manager.value;
            && Pool.Clean(u)
            && (forall c :: c in g.consumed ==> c !in u.active)
  {
    var g := ApplyGravityFromBlackHoles(sys, holes, measure);
    var after := g.system.manager.value;
    GravityKeepsInv(sys, holes, measure);
    Pool.UpdateCleans(after, delta, screen);
    forall c | c in g.consumed
      ensures c !in Pool.Update(after, delta, screen).active
    {
      var i :| 0 <= i < |g.consumed| && g.consumed[i] == c;
      assert !after.slots[c].active;
    }
  }
}

=== FILE: pool.dfy ===
/**
 * The particle pool: an arena of particles (`slots`, stable indices) and the
 * list of slot indices handed out by `Spawn`, in spawn order (`active`).
 *
 * A spawn reuses the lowest-index inactive slot; failing that it grows the
 * arena by one while below the cap; failing that it evicts the front of the
 * active list, the earliest spawned. `Update` ages every listed particle
 * from the back of the list to the front and drops the entries that are
 * inactive after their own update.
 *
 * The manager pool and the legacy pool run this same algorithm; they differ
 * in the default cap and in the legacy one never binding a callback.
 */
module Pool {
  import opened Wrappers
  import P = Particle

  const InitialSize: nat := 50
  const DefaultCap: int := 500
  const LegacyDefaultCap: int := 5000

  datatype Pool = Pool(slots: seq<P.Particle>, active: seq<nat>, maxParticles: int)

  function Max(a: int, b: int): int { if a >= b then a else b }

  /** Every entry of the active list names a slot of the arena. */
  predicate ValidIndices(pool: Pool)
  {
    forall i :: 0 <= i < |pool.active| ==> pool.active[i] < |pool.slots|
  }

  predicate Distinct(s: seq<nat>)
  {
    forall i, j :: 0 <= i < j < |s| ==> s[i] != s[j]
  }

  /** A fresh pool: 50 parked, inactive particles and nothing handed out. */
  function New(maxParticles: int := DefaultCap): (r: Pool)
    ensures |r.slots| == 50 && r.active == [] && r.maxParticles == maxParticles
    ensures forall s :: 0 <= s < |r.slots| ==> P.Dormant(r.slots[s]) && r.slots[s].lifetime == 0.0
  {
    Pool(seq(InitialSize, _ => P.New(-10000.0, -10000.0)), [], maxParticles)
  }

  /** The legacy pool: the same start, with a default cap of 5000. */
  function NewLegacy(maxParticles: int := LegacyDefaultCap): (r: Pool)
    ensures r == New(maxParticles)
  {
    New(maxParticles)
  }

  /** The first inactive slot at or after `from`. */
  function FirstInactive(slots: seq<P.Particle>, from: nat := 0): (r: Option<nat>)
    requires from <= |slots|
    ensures r.Some? ==> from <= r.value < |slots| && !slots[r.value].active
    ensures r.Some? ==> forall j :: from <= j < r.value ==> slots[j].active
    ensures r.None? ==> forall j :: from <= j < |slots| ==> slots[j].active
    decreases |slots| - from
  {
    if from == |slots| then None
    else if !slots[from].active then Some(from)
    else FirstInactive(slots, from + 1)
  }

  /** The particle `getFromPool` hands out and the pool left behind. */
  datatype Taken = Taken(pool: Pool, slot: nat)

  /**
   * `getFromPool`: the lowest inactive slot; else a new slot while below
   * the cap; else the front of the active list, removed from it. An empty
   * active list at that point yields nothing (the source's `shift()` of an
   * empty array), which `Inv` rules out.
   */
  function GetFromPool(pool: Pool): (r: Option<Taken>)
    requires ValidIndices(pool)
    ensures r.Some? ==> r.value.slot < |r.value.pool.slots| && ValidIndices(r.value.pool)
    ensures r.Some? ==> r.value.pool.maxParticles == pool.maxParticles
    ensures r.None? <==> FirstInactive(pool.slots).None? && |pool.slots| >= pool.maxParticles && pool.active == []
  {
    match FirstInactive(pool.slots)
    case Some(s) => Some(Taken(pool, s))
    case None =>
      if |pool.slots| < pool.maxParticles then
        var grown := pool.(slots := pool.slots + [P.New(-10000.0, -10000.0)]);
        Some(Taken(grown, |pool.slots|))
      else if |pool.active| > 0 then
        Some(Taken(pool.(active := pool.active[1..]), pool.active[0]))
      else None
  }

  /** A spawn: the pool afterwards and the slot handed out (none when the source returns null). */
  datatype Spawned = Spawned(pool: Pool, slot: Option<nat>)

  function Spawn(pool: Pool, x: real, y: real, vx: real, vy: real, onConsumed: Option<P.Token> := None): (r: Spawned)
    requires ValidIndices(pool)
    ensures ValidIndices(r.pool) && r.pool.maxParticles == pool.maxParticles
    ensures r.slot.None? ==> r.pool == pool
    ensures r.slot.Some? <==> GetFromPool(pool).Some?
    ensures r.slot.Some? ==>
              var t := GetFromPool(pool).value;
              && r.slot.value == t.slot
              && r.pool.slots == t.pool.slots[t.slot := P.Spawn(t.pool.slots[t.slot], x, y, vx, vy, onConsumed)]
              && r.pool.active == t.pool.active + [t.slot]
  {
    match GetFromPool(pool)
    case None => Spawned(pool, None)
    case Some(t) =>
      var s := t.slot;
      var spawned := P.Spawn(t.pool.slots[s], x, y, vx, vy, onConsumed);
      Spawned(t.pool.(slots := t.pool.slots[s := spawned], active := t.pool.active + [s]), Some(s))
  }

  /** The legacy spawn: identical, never binding a callback. */
  function SpawnLegacy(pool: Pool, x: real, y: real, vx: real, vy: real): (r: Spawned)
    requires ValidIndices(pool)
    ensures r == Spawn(pool, x, y, vx, vy, None)
  {
    Spawn(pool, x, y, vx, vy)
  }

  function ActiveCount(pool: Pool): nat
  {
    |pool.active|
  }

  // ------------------------------------------------------------- update

  /** The arena and the surviving entries after sweeping the first k entries. */
  datatype Swept = Swept(slots: seq<P.Particle>, kept: seq<nat>)

  /** A particle that was dropped from the list is parked again and stopped. */
  function Park(p: P.Particle): (r: P.Particle)
    ensures r.active == p.active && r.onConsumed == p.onConsumed && r.lifetime == p.lifetime
    ensures r.pos == P.Sentinel && r.vel == P.Zero
  {
    p.(pos := P.Sentinel, vel := P.Zero)
  }

  /**
   * Visits entries k-1 down to 0 of the active list (the source's backwards
   * loop), updating each listed particle and keeping the entry only when
   * the particle is still active after that update.
   */
  function Sweep(slots: seq<P.Particle>, active: seq<nat>, k: nat, delta: real, screen: P.Screen): (r: Swept)
    requires k <= |active|
    requires forall i :: 0 <= i < |active| ==> active[i] < |slots|
    ensures |r.slots| == |slots|
    ensures forall i :: 0 <= i < |r.kept| ==> r.kept[i] < |slots|
    ensures |r.kept| <= k
    decreases k
  {
    if k == 0 then Swept(slots, [])
    else
      var s := active[k - 1];
      var p := P.Update(slots[s], delta, screen);
      if p.active then
        var rest := Sweep(slots[s := p], active, k - 1, delta, screen);
        Swept(rest.slots, rest.kept + [s])
      else
        Sweep(slots[s := Park(p)], active, k - 1, delta, screen)
  }

  /**
   * One frame of the pool: every listed particle is updated, and over a list
   * without repeats the list afterwards is exactly the entries whose
   * particle is still active, in their old order.
   */
  function Update(pool: Pool, delta: real, screen: P.Screen): (r: Pool)
    requires ValidIndices(pool)
    ensures ValidIndices(r) && |r.slots| == |pool.slots| && r.maxParticles == pool.maxParticles
    ensures |r.active| <= |pool.active|
    ensures Distinct(pool.active) ==> r.active == Survivors(pool.slots, pool.active, delta, screen)
  {
    var sw := Sweep(pool.slots, pool.active, |pool.active|, delta, screen);
    if Distinct(pool.active) then
      SweepIsFilter(pool.slots, pool.active, |pool.active|, delta, screen);
      assert pool.active[..|pool.active|] == pool.active;
      pool.(slots := sw.slots, active := sw.kept)
    else
      pool.(slots := sw.slots, active := sw.kept)
  }

  // ------------------------------------------------------------- invariants

  /**
   * What every reachable pool satisfies: list entries name arena slots, the
   * arena holds between 50 and max(50, cap) particles, every active particle
   * is listed, and every inactive one is dormant (parked, at rest, with no
   * callback). A particle consumed by a black hole stays listed until the
   * next update, so the list may name inactive particles and, after a spawn
   * reuses such a slot, name one slot twice.
   */
  predicate Inv(pool: Pool)
  {
    && ValidIndices(pool)
    && InitialSize <= |pool.slots| <= Max(InitialSize, pool.maxParticles)
    && (forall s :: 0 <= s < |pool.slots| && pool.slots[s].active ==> s in pool.active)
    && (forall s :: 0 <= s < |pool.slots| && !pool.slots[s].active ==> P.Dormant(pool.slots[s]))
  }

  lemma NewSatisfiesInv(maxParticles: int)
    ensures Inv(New(maxParticles)) && Inv(NewLegacy(maxParticles))
  {
  }

  /** With no inactive slot, the active list cannot be empty. */
  lemma ExhaustedMeansListed(pool: Pool)
    requires Inv(pool)
    requires FirstInactive(pool.slots).None?
    ensures |pool.active| > 0
  {
    assert pool.slots[0].active;
    assert 0 in pool.active;
  }

  /**
   * The three ways a spawn finds its particle, and what each does to the
   * active count: +1 when a slot is reused or added, unchanged when the
   * earliest-spawned entry is evicted. The spawned particle carries the new
   * callback; an evicted particle's old one is dropped without firing.
   */
  lemma SpawnCases(pool: Pool, x: real, y: real, vx: real, vy: real, onConsumed: Option<P.Token>)
    requires Inv(pool)
    ensures var r := Spawn(pool, x, y, vx, vy, onConsumed);
            var first := FirstInactive(pool.slots);
            && r.slot.Some?
            && r.pool.slots[r.slot.value].active
            && r.pool.slots[r.slot.value].onConsumed == onConsumed
            && r.pool.slots[r.slot.value].lifetime == 0.0
            && (first.Some? ==>
                  && r.slot.value == first.value
                  && |r.pool.slots| == |pool.slots|
                  && r.pool.active == pool.active + [first.value])
            && (first.None? && |pool.slots| < pool.maxParticles ==>
                  && r.slot.value == |pool.slots|
                  && |r.pool.slots| == |pool.slots| + 1
                  && r.pool.active == pool.active + [|pool.slots|])
            && (first.None? && |pool.slots| >= pool.maxParticles ==>
                  && r.slot.value == pool.active[0]
                  && |r.pool.slots| == |pool.slots|
                  && r.pool.active == pool.active[1..] + [pool.active[0]])
            && ActiveCount(r.pool)
               == ActiveCount(pool) + (if first.None? && |pool.slots| >= pool.maxParticles then 0 else 1)
            && (forall t :: 0 <= t < |pool.slots| && t != r.slot.value ==> r.pool.slots[t] == pool.slots[t])
  {
    if FirstInactive(pool.slots).None? {
      ExhaustedMeansListed(pool);
    }
  }

  lemma SpawnKeepsInv(pool: Pool, x: real, y: real, vx: real, vy: real, onConsumed: Option<P.Token>)
    requires Inv(pool)
    ensures Inv(Spawn(pool, x, y, vx, vy, onConsumed).pool)
  {
    SpawnCases(pool, x, y, vx, vy, onConsumed);
    var r := Spawn(pool, x, y, vx, vy, onConsumed);
    var slot := r.slot.value;
    if FirstInactive(pool.slots).None? && |pool.slots| >= pool.maxParticles {
      forall t | 0 <= t < |r.pool.slots| && r.pool.slots[t].active
        ensures t in r.pool.active
      {
        if t != slot {
          var i :| 0 <= i < |pool.active| && pool.active[i] == t;
          assert i > 0;
          assert r.pool.active[i - 1] == t;
        }
      }
    }
  }

  /** The arena never outgrows max(50, cap), however many spawns are asked for. */
  lemma ArenaBounded(pool: Pool)
    requires Inv(pool)
    ensures |pool.slots| <= Max(50, pool.maxParticles)
  {
  }

  // ------------------------------------------------------------- sweeping

  /** What one sweep step leaves in a slot: the updated particle, parked again if it died. */
  function Settle(p: P.Particle, delta: real, screen: P.Screen): (r: P.Particle)
    ensures r.active <==> P.Update(p, delta, screen).active
    ensures p.active ==> r.lifetime == p.lifetime + delta
    ensures !p.active ==> r.lifetime == p.lifetime
    ensures P.Dormant(p) ==> r == p
  {
    var u := P.Update(p, delta, screen);
    if u.active then u else Park(u)
  }

  /**
   * The reference filter: the entries (in list order) whose particle is
   * still active after one update.
   */
  function Survivors(slots: seq<P.Particle>, entries: seq<nat>, delta: real, screen: P.Screen): (r: seq<nat>)
    requires forall i :: 0 <= i < |entries| ==> entries[i] < |slots|
    ensures |r| <= |entries|
    ensures forall i :: 0 <= i < |r| ==> r[i] < |slots|
    decreases |entries|
  {
    if entries == [] then []
    else
      var last := entries[|entries| - 1];
      Survivors(slots, entries[..|entries| - 1], delta, screen)
        + (if P.Update(slots[last], delta, screen).active then [last] else [])
  }

  lemma {:induction false} SurvivorsMembers(slots: seq<P.Particle>, entries: seq<nat>, delta: real, screen: P.Screen)
    requires forall i :: 0 <= i < |entries| ==> entries[i] < |slots|
    ensures forall e :: e in Survivors(slots, entries, delta, screen)
              <==> e in entries && P.Update(slots[e], delta, screen).active
    decreases |entries|
  {
    if entries != [] {
      var front := entries[..|entries| - 1];
      SurvivorsMembers(slots, front, delta, screen);
      assert entries == front + [entries[|entries| - 1]];
    }
  }

  lemma {:induction false} SurvivorsDistinct(slots: seq<P.Particle>, entries: seq<nat>, delta: real, screen: P.Screen)
    requires forall i :: 0 <= i < |entries| ==> entries[i] < |slots|
    requires Distinct(entries)
    ensures Distinct(Survivors(slots, entries, delta, screen))
    decreases |entries|
  {
    if entries != [] {
      var front := entries[..|entries| - 1];
      var last := entries[|entries| - 1];
      SurvivorsDistinct(slots, front, delta, screen);
      SurvivorsMembers(slots, front, delta, screen);
      assert last !in front;
    }
  }

  /** The entries are listed oldest first: ages never increase along the list. */
  predicate OldestFirstIn(slots: seq<P.Particle>, entries: seq<nat>)
    requires forall i :: 0 <= i < |entries| ==> entries[i] < |slots|
  {
    forall i, j :: 0 <= i < j < |entries| ==> slots[entries[i]].lifetime >= slots[entries[j]].lifetime
  }

  /** Filtering keeps the order: a list sorted oldest first stays so. */
  lemma {:induction false} SurvivorsKeepOrder(slots: seq<P.Particle>, entries: seq<nat>, delta: real, screen: P.Screen)
    requires forall i :: 0 <= i < |entries| ==> entries[i] < |slots|
    requires OldestFirstIn(slots, entries)
    ensures OldestFirstIn(slots, Survivors(slots, entries, delta, screen))
    decreases |entries|
  {
    if entries != [] {
      var front := entries[..|entries| - 1];
      var last := entries[|entries| - 1];
      SurvivorsKeepOrder(slots, front, delta, screen);
      SurvivorsMembers(slots, front, delta, screen);
      var head := Survivors(slots, front, delta, screen);
      forall e | e in head
        ensures slots[e].lifetime >= slots[last].lifetime
      {
        var i :| 0 <= i < |front| && front[i] == e;
      }
      var r := Survivors(slots, entries, delta, screen);
      assert r == head + (if P.Update(slots[last], delta, screen).active then [last] else []);
      forall i, j | 0 <= i < j < |r|
        ensures slots[r[i]].lifetime >= slots[r[j]].lifetime
      {
        if j == |head| {
          assert r[i] == head[i] && head[i] in head;
        } else {
          assert r[i] == head[i] && r[j] == head[j];
        }
      }
    }
  }

  /** Survivors reads only the slots its entries name. */
  lemma {:induction false} SurvivorsFrame(slots: seq<P.Particle>, other: seq<P.Particle>, entries: seq<nat>, delta: real, screen: P.Screen)
    requires forall i :: 0 <= i < |entries| ==> entries[i] < |slots| && entries[i] < |other|
    requires forall i :: 0 <= i < |entries| ==> slots[entries[i]] == other[entries[i]]
    ensures Survivors(slots, entries, delta, screen) == Survivors(other, entries, delta, screen)
    decreases |entries|
  {
    if entries != [] {
      SurvivorsFrame(slots, other, entries[..|entries| - 1], delta, screen);
    }
  }

  /** The sweep touches only the slots named by the entries it visits. */
  lemma {:induction false} SweepFrame(slots: seq<P.Particle>, active: seq<nat>, k: nat, delta: real, screen: P.Screen)
    requires k <= |active|
    requires forall i :: 0 <= i < |active| ==> active[i] < |slots|
    ensures forall s :: 0 <= s < |slots| && s !in active[..k]
              ==> Sweep(slots, active, k, delta, screen).slots[s] == slots[s]
    decreases k
  {
    if k > 0 {
      var s := active[k - 1];
      var p := P.Update(slots[s], delta, screen);
      var next := if p.active then slots[s := p] else slots[s := Park(p)];
      SweepFrame(next, active, k - 1, delta, screen);
      assert forall t :: t in active[..k - 1] ==> t in active[..k];
    }
  }

  /** Dead particles end up dormant again. */
  lemma SweepKeepsDormancy(slots: seq<P.Particle>, active: seq<nat>, k: nat, delta: real, screen: P.Screen)
    requires k <= |active|
    requires forall i :: 0 <= i < |active| ==> active[i] < |slots|
    requires forall t :: 0 <= t < |slots| && !slots[t].active ==> P.Dormant(slots[t])
    ensures var r := Sweep(slots, active, k, delta, screen);
            forall t :: 0 <= t < |r.slots| && !r.slots[t].active ==> P.Dormant(r.slots[t])
  {
    var r := Sweep(slots, active, k, delta, screen);
    forall t | 0 <= t < |r.slots| && !r.slots[t].active
      ensures P.Dormant(r.slots[t])
    {
      SweepDormantAt(slots, active, k, delta, screen, t);
    }
  }

  /** One slot at a time: a slot the sweep leaves inactive is dormant. */
  lemma {:induction false} SweepDormantAt(slots: seq<P.Particle>, active: seq<nat>, k: nat, delta: real, screen: P.Screen, t: nat)
    requires k <= |active|
    requires forall i :: 0 <= i < |active| ==> active[i] < |slots|
    requires forall u :: 0 <= u < |slots| && !slots[u].active ==> P.Dormant(slots[u])
    requires t < |slots| && !Sweep(slots, active, k, delta, screen).slots[t].active
    ensures P.Dormant(Sweep(slots, active, k, delta, screen).slots[t])
    decreases k
  {
    if k > 0 {
      var e := active[k - 1];
      var p := P.Update(slots[e], delta, screen);
      var next := if p.active then slots[e := p] else slots[e := Park(p)];
      if !p.active {
        if !slots[e].active {
          assert P.Dormant(slots[e]);
        }
        assert P.Dormant(Park(p));
      }
      assert Sweep(slots, active, k, delta, screen).slots == Sweep(next, active, k - 1, delta, screen).slots;
      SweepDormantAt(next, active, k - 1, delta, screen, t);
    }
  }

  /** A visited slot whose particle is still active afterwards is kept in the list. */
  lemma {:induction false} SweepKeepsLiving(slots: seq<P.Particle>, active: seq<nat>, k: nat, delta: real, screen: P.Screen)
    requires k <= |active|
    requires forall i :: 0 <= i < |active| ==> active[i] < |slots|
    ensures var r := Sweep(slots, active, k, delta, screen);
            forall s :: 0 <= s < |slots| && s in active[..k] && r.slots[s].active ==> s in r.kept
    decreases k
  {
    if k > 0 {
      var s := active[k - 1];
      var p := P.Update(slots[s], delta, screen);
      var next := if p.active then slots[s := p] else slots[s := Park(p)];
      SweepKeepsLiving(next, active, k - 1, delta, screen);
      SweepFrame(next, active, k - 1, delta, screen);
      assert active[..k] == active[..k - 1] + [s];
    }
  }

  /**
   * Over a list without repeats the sweep is the reference filter: the kept
   * entries are exactly the survivors in list order.
   */
  lemma {:induction false} SweepIsFilter(slots: seq<P.Particle>, active: seq<nat>, k: nat, delta: real, screen: P.Screen)
    requires k <= |active|
    requires forall i :: 0 <= i < |active| ==> active[i] < |slots|
    requires Distinct(active)
    ensures Sweep(slots, active, k, delta, screen).kept == Survivors(slots, active[..k], delta, screen)
    decreases k
  {
    if k > 0 {
      var s := active[k - 1];
      var p := P.Update(slots[s], delta, screen);
      var next := if p.active then slots[s := p] else slots[s := Park(p)];
      var rest := Sweep(next, active, k - 1, delta, screen);
      var tail := if p.active then [s] else [];
      assert Sweep(slots, active, k, delta, screen).kept == rest.kept + tail;
      SweepIsFilter(next, active, k - 1, delta, screen);
      var front := active[..k - 1];
      LaterNotInFront(active, k);
      assert forall i :: 0 <= i < |front| ==> next[front[i]] == slots[front[i]];
      SurvivorsFrame(next, slots, front, delta, screen);
      SurvivorsSnoc(slots, active, k, delta, screen);
    }
  }

  lemma LaterNotInFront(active: seq<nat>, k: nat)
    requires 0 < k <= |active| && Distinct(active)
    ensures forall i :: 0 <= i < k - 1 ==> active[i] != active[k - 1]
  {
  }

  /** The survivors of a prefix one longer: those of the shorter prefix, then the new entry if it lives. */
  lemma SurvivorsSnoc(slots: seq<P.Particle>, active: seq<nat>, k: nat, delta: real, screen: P.Screen)
    requires 0 < k <= |active|
    requires forall i :: 0 <= i < |active| ==> active[i] < |slots|
    ensures Survivors(slots, active[..k], delta, screen)
            == Survivors(slots, active[..k - 1], delta, screen)
               + (if P.Update(slots[active[k - 1]], delta, screen).active then [active[k - 1]] else [])
  {
    var entries := active[..k];
    assert entries[..|entries| - 1] == active[..k - 1];
    assert entries[|entries| - 1] == active[k - 1];
  }

  /** Over a list without repeats every visited slot is settled exactly once. */
  lemma {:induction false} SweepSettlesEach(slots: seq<P.Particle>, active: seq<nat>, k: nat, delta: real, screen: P.Screen)
    requires k <= |active|
    requires forall i :: 0 <= i < |active| ==> active[i] < |slots|
    requires Distinct(active)
    ensures forall i :: 0 <= i < k ==>
              Sweep(slots, active, k, delta, screen).slots[active[i]] == Settle(slots[active[i]], delta, screen)
    decreases k
  {
    if k > 0 {
      var s := active[k - 1];
      var p := P.Update(slots[s], delta, screen);
      var next := slots[s := Settle(slots[s], delta, screen)];
      assert next == if p.active then slots[s := p] else slots[s := Park(p)];
      var rest := Sweep(next, active, k - 1, delta, screen);
      assert Sweep(slots, active, k, delta, screen).slots == rest.slots;
      SweepSettlesEach(next, active, k - 1, delta, screen);
      SweepFrame(next, active, k - 1, delta, screen);
      assert s !in active[..k - 1];
      forall i | 0 <= i < k
        ensures rest.slots[active[i]] == Settle(slots[active[i]], delta, screen)
      {
        if i < k - 1 {
          assert active[i] != s;
        }
      }
    }
  }

  // ------------------------------------------------------------- update lemmas

  lemma UpdateKeepsInv(pool: Pool, delta: real, screen: P.Screen)
    requires Inv(pool)
    ensures Inv(Update(pool, delta, screen))
  {
    var k := |pool.active|;
    assert pool.active[..k] == pool.active;
    SweepFrame(pool.slots, pool.active, k, delta, screen);
    SweepKeepsDormancy(pool.slots, pool.active, k, delta, screen);
    SweepKeepsLiving(pool.slots, pool.active, k, delta, screen);
  }

  /**
   * A pool whose list names each active particle exactly once and nothing
   * else: what every update leaves behind.
   */
  predicate Clean(pool: Pool)
  {
    && Inv(pool)
    && Distinct(pool.active)
    && forall i :: 0 <= i < |pool.active| ==> pool.slots[pool.active[i]].active
  }

  /**
   * An update over a list without repeats keeps exactly the entries whose
   * particle survived, in order, and leaves a clean pool.
   */
  lemma UpdateCleans(pool: Pool, delta: real, screen: P.Screen)
    requires Inv(pool) && Distinct(pool.active)
    ensures var r := Update(pool, delta, screen);
            && Clean(r)
            && r.active == Survivors(pool.slots, pool.active, delta, screen)
            && (forall s :: s in r.active <==> s in pool.active && P.Update(pool.slots[s], delta, screen).active)
  {
    var k := |pool.active|;
    var r := Update(pool, delta, screen);
    assert pool.active[..k] == pool.active;
    UpdateKeepsInv(pool, delta, screen);
    SweepIsFilter(pool.slots, pool.active, k, delta, screen);
    SweepSettlesEach(pool.slots, pool.active, k, delta, screen);
    SurvivorsDistinct(pool.slots, pool.active, delta, screen);
    SurvivorsMembers(pool.slots, pool.active, delta, screen);
    forall i | 0 <= i < |r.active|
      ensures r.slots[r.active[i]].active
    {
      var e := r.active[i];
      assert e in pool.active;
      var j :| 0 <= j < |pool.active| && pool.active[j] == e;
    }
  }

  lemma SpawnKeepsClean(pool: Pool, x: real, y: real, vx: real, vy: real, onConsumed: Option<P.Token>)
    requires Clean(pool)
    ensures Clean(Spawn(pool, x, y, vx, vy, onConsumed).pool)
  {
    SpawnCases(pool, x, y, vx, vy, onConsumed);
    SpawnKeepsInv(pool, x, y, vx, vy, onConsumed);
    var r := Spawn(pool, x, y, vx, vy, onConsumed);
    var slot := r.slot.value;
    if FirstInactive(pool.slots).Some? {
      assert slot !in pool.active;
    }
  }

  /** In a clean pool the list is never longer than the arena. */
  lemma CleanBound(pool: Pool)
    requires Clean(pool)
    ensures ActiveCount(pool) <= |pool.slots| <= Max(50, pool.maxParticles)
  {
    DistinctBelow(pool.active, |pool.slots|);
  }

  lemma {:induction false} DistinctBelow(s: seq<nat>, n: nat)
    requires Distinct(s)
    requires forall i :: 0 <= i < |s| ==> s[i] < n
    ensures |s| <= n
  {
    var elems := set i | 0 <= i < |s| :: s[i];
    var upTo := Iota(n);
    var below := set i | 0 <= i < |upTo| :: upTo[i];
    DistinctCard(s);
    DistinctCard(upTo);
    forall x | x in elems
      ensures x in below
    {
      assert upTo[x] == x;
    }
    SubsetCard(elems, below);
  }

  /** The indices 0 .. n-1 in order. */
  function Iota(n: nat): (r: seq<nat>)
    ensures |r| == n && forall i :: 0 <= i < n ==> r[i] == i
    ensures Distinct(r)
  {
    if n == 0 then [] else Iota(n - 1) + [n - 1]
  }

  lemma {:induction false} DistinctCard(s: seq<nat>)
    requires Distinct(s)
    ensures |set i | 0 <= i < |s| :: s[i]| == |s|
  {
    if s != [] {
      var front := s[..|s| - 1];
      DistinctCard(front);
      var a := set i | 0 <= i < |front| :: front[i];
      var b := set i | 0 <= i < |s| :: s[i];
      assert b == a + {s[|s| - 1]};
      assert s[|s| - 1] !in a;
    }
  }

  lemma {:induction false} SubsetCard(a: set<nat>, b: set<nat>)
    requires a <= b
    ensures |a| <= |b|
    decreases |b|
  {
    if a != {} {
      var x :| x in a;
      SubsetCard(a - {x}, b - {x});
    }
  }

  // ------------------------------------------------------------- eviction order

  /** The active list is in spawn order, so ages never increase along it. */
  predicate OldestFirst(pool: Pool)
    requires ValidIndices(pool)
  {
    OldestFirstIn(pool.slots, pool.active)
  }

  predicate AgesNonNegative(pool: Pool)
  {
    forall s :: 0 <= s < |pool.slots| ==> pool.slots[s].lifetime >= 0.0
  }

  lemma NewIsOldestFirst(maxParticles: int)
    ensures OldestFirst(New(maxParticles)) && AgesNonNegative(New(maxParticles))
  {
  }

  /** Every update ages all survivors alike and keeps them in list order. */
  lemma UpdateKeepsOldestFirst(pool: Pool, delta: real, screen: P.Screen)
    requires Inv(pool) && Distinct(pool.active) && OldestFirst(pool) && AgesNonNegative(pool)
    requires delta >= 0.0
    ensures var r := Update(pool, delta, screen);
            OldestFirst(r) && AgesNonNegative(r)
  {
    var k := |pool.active|;
    var r := Update(pool, delta, screen);
    assert pool.active[..k] == pool.active;
    UpdateCleans(pool, delta, screen);
    SweepSettlesEach(pool.slots, pool.active, k, delta, screen);
    SweepFrame(pool.slots, pool.active, k, delta, screen);
    SurvivorsKeepOrder(pool.slots, pool.active, delta, screen);
    SurvivorsMembers(pool.slots, pool.active, delta, screen);
    forall e | e in r.active
      ensures r.slots[e].lifetime == pool.slots[e].lifetime + delta
    {
      var j :| 0 <= j < |pool.active| && pool.active[j] == e;
    }
    forall t | 0 <= t < |r.slots|
      ensures r.slots[t].lifetime >= 0.0
    {
      if t in pool.active {
        var j :| 0 <= j < |pool.active| && pool.active[j] == t;
      }
    }
    forall i, j | 0 <= i < j < |r.active|
      ensures r.slots[r.active[i]].lifetime >= r.slots[r.active[j]].lifetime
    {
      assert r.active[i] in r.active && r.active[j] in r.active;
    }
  }

  /** A spawned particle has age 0, the youngest there is, and joins the end of the list. */
  lemma SpawnKeepsOldestFirst(pool: Pool, x: real, y: real, vx: real, vy: real, onConsumed: Option<P.Token>)
    requires Clean(pool) && OldestFirst(pool) && AgesNonNegative(pool)
    ensures var r := Spawn(pool, x, y, vx, vy, onConsumed).pool;
            ValidIndices(r) && OldestFirst(r) && AgesNonNegative(r)
  {
    SpawnKeepsAges(pool, x, y, vx, vy, onConsumed);
    SpawnKeepsOrder(pool, x, y, vx, vy, onConsumed);
  }

  lemma SpawnKeepsAges(pool: Pool, x: real, y: real, vx: real, vy: real, onConsumed: Option<P.Token>)
    requires Clean(pool) && AgesNonNegative(pool)
    ensures AgesNonNegative(Spawn(pool, x, y, vx, vy, onConsumed).pool)
  {
    SpawnCases(pool, x, y, vx, vy, onConsumed);
  }

  lemma SpawnKeepsOrder(pool: Pool, x: real, y: real, vx: real, vy: real, onConsumed: Option<P.Token>)
    requires Clean(pool) && OldestFirst(pool) && AgesNonNegative(pool)
    ensures OldestFirst(Spawn(pool, x, y, vx, vy, onConsumed).pool)
  {
    SpawnCases(pool, x, y, vx, vy, onConsumed);
    var sp := Spawn(pool, x, y, vx, vy, onConsumed);
    var r := sp.pool;
    var slot := sp.slot.value;
    var listed := if FirstInactive(pool.slots).None? && |pool.slots| >= pool.maxParticles
                  then pool.active[1..] else pool.active;
    assert r.active == listed + [slot];
    assert slot !in listed by {
      if FirstInactive(pool.slots).Some? {
        assert slot !in pool.active;
      }
    }
    assert OldestFirstIn(pool.slots, listed) by {
      if listed != pool.active {
        DropFrontKeepsOrder(pool.slots, pool.active);
      }
    }
    assert forall i :: 0 <= i < |listed| ==> r.slots[listed[i]] == pool.slots[listed[i]];
    AppendYoungest(pool.slots, r.slots, listed, slot);
  }

  lemma DropFrontKeepsOrder(slots: seq<P.Particle>, entries: seq<nat>)
    requires forall i :: 0 <= i < |entries| ==> entries[i] < |slots|
    requires entries != [] && OldestFirstIn(slots, entries)
    ensures OldestFirstIn(slots, entries[1..])
  {
    forall i, j | 0 <= i < j < |entries| - 1
      ensures slots[entries[1..][i]].lifetime >= slots[entries[1..][j]].lifetime
    {
      assert entries[1..][i] == entries[i + 1] && entries[1..][j] == entries[j + 1];
    }
  }

  /** Appending a particle of age 0 to a list sorted oldest first, whose particles are untouched, keeps it sorted. */
  lemma AppendYoungest(before: seq<P.Particle>, after: seq<P.Particle>, listed: seq<nat>, slot: nat)
    requires forall i :: 0 <= i < |listed| ==> listed[i] < |before| && listed[i] < |after|
    requires forall i :: 0 <= i < |listed| ==> after[listed[i]] == before[listed[i]]
    requires forall i :: 0 <= i < |listed| ==> before[listed[i]].lifetime >= 0.0
    requires OldestFirstIn(before, listed)
    requires slot < |after| && after[slot].lifetime == 0.0
    ensures OldestFirstIn(after, listed + [slot])
  {
    var all := listed + [slot];
    forall i, j | 0 <= i < j < |all|
      ensures after[all[i]].lifetime >= after[all[j]].lifetime
    {
      assert all[i] == listed[i];
      if j < |listed| {
        assert all[j] == listed[j];
      }
    }
  }

  /**
   * When the arena is full and every particle is in flight, the particle
   * recycled is the oldest one: nothing active has lived longer.
   */
  lemma EvictsOldest(pool: Pool, x: real, y: real, vx: real, vy: real, onConsumed: Option<P.Token>)
    requires Clean(pool) && OldestFirst(pool)
    requires FirstInactive(pool.slots).None? && |pool.slots| >= pool.maxParticles
    ensures var slot := Spawn(pool, x, y, vx, vy, onConsumed).slot;
            && slot == Some(pool.active[0])
            && forall t :: 0 <= t < |pool.slots| ==> pool.slots[t].lifetime <= pool.slots[pool.active[0]].lifetime
  {
    SpawnCases(pool, x, y, vx, vy, onConsumed);
    forall t | 0 <= t < |pool.slots|
      ensures pool.slots[t].lifetime <= pool.slots[pool.active[0]].lifetime
    {
      assert pool.slots[t].active;
      var j :| 0 <= j < |pool.active| && pool.active[j] == t;
    }
  }

  /**
   * Outside a clean pool the front of the list need not be the oldest. A
   * hole parks a particle without unlisting it, and the next spawn reuses
   * that slot and lists it again. Here slot 0 is listed first and last and
   * is younger than every other particle. The pool invariant holds, and an
   * exhausted spawn still recycles slot 0.
   */
  lemma RepeatEvictsYoungest(young: P.Particle, elder: P.Particle, x: real, y: real, vx: real, vy: real)
    requires young.active && elder.active && young.lifetime < elder.lifetime
    ensures var pool := Pool(seq(InitialSize, i => if i == 0 then young else elder), seq(InitialSize, i => i) + [0], InitialSize);
            && Inv(pool) && !Distinct(pool.active)
            && Spawn(pool, x, y, vx, vy).slot == Some(0)
            && forall t :: 0 < t < |pool.slots| ==> pool.slots[0].lifetime < pool.slots[t].lifetime
  {
    var pool := Pool(seq(InitialSize, i => if i == 0 then young else elder), seq(InitialSize, i => i) + [0], InitialSize);
    forall s | 0 <= s < |pool.slots|
      ensures s in pool.active
    {
      assert pool.active[s] == s;
    }
    assert pool.active[0] == pool.active[InitialSize] == 0;
  }
}

=== FILE: tech_tree.dfy ===
/**
 * The upgrade tech tree as constant data: layout constants, three branch
 * columns, nine upgrade nodes and three system actions, together with the
 * well-formedness the interface relies on (unique ids, declared branches,
 * parents earlier in the same branch, one root per branch, price keys that
 * name real price fields).
 */
module TechTree {
  import opened Wrappers
  import E = Economy

  datatype Layout = Layout(
    nodeStartY: int,
    nodeSpacingY: int,
    nodeWidth: int,
    nodeHeight: int,
    connectorWidth: int,
    rootY: int)

  datatype Branch = Branch(id: string, caption: string, color: int, x: int)

  /** An upgrade node; `parent` is the id of its prerequisite, none for a branch root. */
  datatype Node = Node(
    id: string,
    caption: string,
    description: string,
    branch: string,
    parent: Option<string>,
    priceKey: string,
    callbackKey: string,
    icon: string)

  datatype SystemAction = SystemAction(id: string, caption: string, callbackKey: string, color: string)

  datatype Config = Config(layout: Layout, branches: seq<Branch>, nodes: seq<Node>, systemActions: seq<SystemAction>)

  const Production: Branch := Branch("production", "PRODUCTION", 0x00ccff, 100)
  const Automation: Branch := Branch("automation", "AUTOMATION", 0x00ff88, 260)
  const Gravity: Branch := Branch("gravity", "GRAVITY", 0xff6600, 420)

  const Nodes: seq<Node> := [
    Node("multi_1", "Add PPC", "Double your\nper-click value", "production", None, "multiPrice", "onMulti", "✦"),
    Node("multi_2", "Add PPC II", "Double again", "production", Some("multi_1"), "multiPrice", "onMulti", "✦"),
    Node("multi_3", "Add PPC III", "Keep doubling", "production", Some("multi_2"), "multiPrice", "onMulti", "✦"),
    Node("auto_1", "Auto Click", "Start auto-\nclicking", "automation", None, "autoPrice", "onAuto", "⟳"),
    Node("auto_2", "Turbo Click", "Speed up\nauto-click 1%", "automation", Some("auto_1"), "autoPrice", "onAuto", "⟳"),
    Node("automulti_1", "Auto Multi", "Auto-apply\nthe multiplier", "automation", Some("auto_2"), "autoMultiPrice", "onAutoMulti", "⊕"),
    Node("blackhole_1", "Buy Object", "Spawn a new\nblack hole", "gravity", None, "playerPrice", "onBuyObj", "◉"),
    Node("gravity_1", "Gravity+", "+100 gravity\nto all holes", "gravity", Some("blackhole_1"), "gravityPrice", "onBuyGravity", "◉"),
    Node("gravity_2", "Gravity++", "Even more\npull", "gravity", Some("gravity_1"), "gravityPrice", "onBuyGravity", "◉")
  ]

  const SystemActions: seq<SystemAction> := [
    SystemAction("save", "SAVE", "onSave", "#00ff88"),
    SystemAction("export", "EXPORT", "onExport", "#00ccff"),
    SystemAction("delete", "DELETE SAVE", "onDelete", "#ff4444")
  ]

  const TechTreeConfig: Config := Config(
    Layout(200, 140, 130, 60, 2, 120),
    [Production, Automation, Gravity],
    Nodes,
    SystemActions)

  // ------------------------------------------------------------- lookups

  /** The first node with the given id. */
  function FindNode(nodes: seq<Node>, id: string): (r: Option<nat>)
    ensures r.Some? ==> r.value < |nodes| && nodes[r.value].id == id
    ensures r.Some? ==> forall j :: 0 <= j < r.value ==> nodes[j].id != id
    ensures r.None? ==> forall j :: 0 <= j < |nodes| ==> nodes[j].id != id
  {
    if nodes == [] then None
    else if nodes[0].id == id then Some(0)
    else match FindNode(nodes[1..], id)
      case None => None
      case Some(k) => Some(k + 1)
  }

  /** The first branch with the given id. */
  function FindBranch(branches: seq<Branch>, id: string): (r: Option<nat>)
    ensures r.Some? ==> r.value < |branches| && branches[r.value].id == id
    ensures r.None? ==> forall j :: 0 <= j < |branches| ==> branches[j].id != id
  {
    if branches == [] then None
    else if branches[0].id == id then Some(0)
    else match FindBranch(branches[1..], id)
      case None => None
      case Some(k) => Some(k + 1)
  }

  /** How many nodes of `branch` have no parent. */
  function RootCount(nodes: seq<Node>, branch: string): (n: nat)
    ensures n <= |nodes|
  {
    if nodes == [] then 0
    else (if nodes[0].branch == branch && nodes[0].parent.None? then 1 else 0) + RootCount(nodes[1..], branch)
  }

  // ------------------------------------------------------------- well-formedness

  predicate UniqueNodeIds(nodes: seq<Node>)
  {
    forall i, j :: 0 <= i < j < |nodes| ==> nodes[i].id != nodes[j].id
  }

  predicate UniqueBranchIds(branches: seq<Branch>)
  {
    forall i, j :: 0 <= i < j < |branches| ==> branches[i].id != branches[j].id
  }

  predicate BranchesDeclared(c: Config)
  {
    forall i :: 0 <= i < |c.nodes| ==> FindBranch(c.branches, c.nodes[i].branch).Some?
  }

  /** Every parent names a node of the same branch that comes earlier in the list. */
  predicate ParentsEarlier(nodes: seq<Node>)
  {
    forall i :: 0 <= i < |nodes| && nodes[i].parent.Some? ==>
      var k := FindNode(nodes, nodes[i].parent.value);
      k.Some? && k.value < i && nodes[k.value].branch == nodes[i].branch
  }

  predicate OneRootPerBranch(c: Config)
  {
    forall b :: 0 <= b < |c.branches| ==> RootCount(c.nodes, c.branches[b].id) == 1
  }

  /** Every price key names one of the economy's price fields. */
  predicate PriceKeysKnown(nodes: seq<Node>)
  {
    forall i :: 0 <= i < |nodes| ==> E.UpgradeForKey(nodes[i].priceKey).Some?
  }

  predicate UniqueActions(actions: seq<SystemAction>)
  {
    && (forall i, j :: 0 <= i < j < |actions| ==> actions[i].id != actions[j].id)
    && (forall i, j :: 0 <= i < j < |actions| ==> actions[i].callbackKey != actions[j].callbackKey)
  }

  predicate WellFormed(c: Config)
  {
    && UniqueNodeIds(c.nodes)
    && UniqueBranchIds(c.branches)
    && BranchesDeclared(c)
    && ParentsEarlier(c.nodes)
    && OneRootPerBranch(c)
    && PriceKeysKnown(c.nodes)
    && UniqueActions(c.systemActions)
  }

  lemma ConfigIsWellFormed()
    ensures WellFormed(TechTreeConfig)
  {
    NodeIdsAreUnique();
    BranchesAreDeclared();
    ParentsComeEarlier();
    OneRootEach();
    PriceKeysAreKnown();
    ActionsAreUnique();
  }

  lemma NodeIdsAreUnique()
    ensures UniqueNodeIds(Nodes)
  {
  }

  lemma BranchesAreDeclared()
    ensures UniqueBranchIds(TechTreeConfig.branches) && BranchesDeclared(TechTreeConfig)
  {
    var bs := TechTreeConfig.branches;
    assert FindBranch(bs, "production") == Some(0);
    assert FindBranch(bs[1..], "automation") == Some(0);
    assert FindBranch(bs, "automation") == Some(1);
    assert FindBranch(bs[2..], "gravity") == Some(0);
    assert FindBranch(bs[1..], "gravity") == Some(1);
    assert FindBranch(bs, "gravity") == Some(2);
  }

  lemma ParentsComeEarlier()
    ensures ParentsEarlier(Nodes)
  {
    FindsEveryNode();
    forall i | 0 <= i < |Nodes| && Nodes[i].parent.Some?
      ensures var k := FindNode(Nodes, Nodes[i].parent.value);
              k.Some? && k.value < i && Nodes[k.value].branch == Nodes[i].branch
    {
      var k := ParentIndex(i);
      assert Nodes[i].parent.value == Nodes[k].id;
    }
  }

  /** Where each node's parent sits in the list, written out from the data. */
  function ParentIndex(i: nat): (k: nat)
    requires i < |Nodes| && Nodes[i].parent.Some?
    ensures k < i && Nodes[i].parent.value == Nodes[k].id && Nodes[k].branch == Nodes[i].branch
  {
    i - 1
  }

  lemma FindsEveryNode()
    ensures forall k :: 0 <= k < |Nodes| ==> FindNode(Nodes, Nodes[k].id) == Some(k)
  {
    NodeIdsAreUnique();
    forall k | 0 <= k < |Nodes|
      ensures FindNode(Nodes, Nodes[k].id) == Some(k)
    {
      FindsUniqueId(Nodes, k);
    }
  }

  lemma OneRootEach()
    ensures OneRootPerBranch(TechTreeConfig)
  {
    ProductionRoot();
    AutomationRoot();
    GravityRoot();
    assert TechTreeConfig.branches == [Production, Automation, Gravity] && TechTreeConfig.nodes == Nodes;
    RootsOfThree(TechTreeConfig);
  }

  lemma RootsOfThree(c: Config)
    requires |c.branches| == 3
    requires RootCount(c.nodes, c.branches[0].id) == 1
    requires RootCount(c.nodes, c.branches[1].id) == 1
    requires RootCount(c.nodes, c.branches[2].id) == 1
    ensures OneRootPerBranch(c)
  {
  }

  lemma ProductionRoot()
    ensures RootCount(Nodes, Production.id) == 1
  {
    SingleRoot(Nodes, Production.id, 0);
  }

  lemma AutomationRoot()
    ensures RootCount(Nodes, Automation.id) == 1
  {
    SingleRoot(Nodes, Automation.id, 3);
  }

  lemma GravityRoot()
    ensures RootCount(Nodes, Gravity.id) == 1
  {
    SingleRoot(Nodes, Gravity.id, 6);
  }

  /** In a list with unique ids, looking a node's id up finds that node. */
  lemma {:induction false} FindsUniqueId(nodes: seq<Node>, k: nat)
    requires UniqueNodeIds(nodes) && k < |nodes|
    ensures FindNode(nodes, nodes[k].id) == Some(k)
  {
    if k > 0 {
      assert nodes[0].id != nodes[k].id;
      FindsUniqueId(nodes[1..], k - 1);
    }
  }

  /** A branch with exactly one parentless node has root count one. */
  lemma {:induction false} SingleRoot(nodes: seq<Node>, branch: string, k: nat)
    requires k < |nodes| && nodes[k].branch == branch && nodes[k].parent.None?
    requires forall j :: 0 <= j < |nodes| && j != k ==> !(nodes[j].branch == branch && nodes[j].parent.None?)
    ensures RootCount(nodes, branch) == 1
  {
    if k > 0 {
      SingleRoot(nodes[1..], branch, k - 1);
    } else {
      NoRoot(nodes[1..], branch);
    }
  }

  lemma {:induction false} NoRoot(nodes: seq<Node>, branch: string)
    requires forall j :: 0 <= j < |nodes| ==> !(nodes[j].branch == branch && nodes[j].parent.None?)
    ensures RootCount(nodes, branch) == 0
  {
    if nodes != [] {
      NoRoot(nodes[1..], branch);
    }
  }

  lemma PriceKeysAreKnown()
    ensures PriceKeysKnown(Nodes)
  {
  }

  lemma ActionsAreUnique()
    ensures UniqueActions(SystemActions)
  {
  }

  // ------------------------------------------------------------- consequences

  /**
   * Following parents from any node ends at a root of the same branch,
   * never later in the list; the walk terminates because each parent comes
   * earlier.
   */
  function RootOf(nodes: seq<Node>, i: nat): (r: nat)
    requires ParentsEarlier(nodes) && i < |nodes|
    ensures r <= i && nodes[r].parent.None? && nodes[r].branch == nodes[i].branch
    decreases i
  {
    match nodes[i].parent
    case None => i
    case Some(p) => RootOf(nodes, FindNode(nodes, p).value)
  }

  lemma {:induction false} RootCountCounts(nodes: seq<Node>, branch: string, a: nat, b: nat)
    requires a < b < |nodes|
    requires nodes[a].branch == branch && nodes[a].parent.None?
    requires nodes[b].branch == branch && nodes[b].parent.None?
    ensures RootCount(nodes, branch) >= 2
    decreases a
  {
    if a > 0 {
      RootCountCounts(nodes[1..], branch, a - 1, b - 1);
    } else {
      RootCountAtLeastOne(nodes[1..], branch, b - 1);
    }
  }

  lemma {:induction false} RootCountAtLeastOne(nodes: seq<Node>, branch: string, b: nat)
    requires b < |nodes| && nodes[b].branch == branch && nodes[b].parent.None?
    ensures RootCount(nodes, branch) >= 1
    decreases b
  {
    if b > 0 {
      RootCountAtLeastOne(nodes[1..], branch, b - 1);
    }
  }

  /**
   * In a well-formed tree all nodes of a branch hang below one and the same
   * root, so the branch is a single tree.
   */
  lemma OneTreePerBranch(c: Config, i: nat, j: nat)
    requires WellFormed(c)
    requires i < |c.nodes| && j < |c.nodes| && c.nodes[i].branch == c.nodes[j].branch
    ensures RootOf(c.nodes, i) == RootOf(c.nodes, j)
  {
    var ri, rj := RootOf(c.nodes, i), RootOf(c.nodes, j);
    var b := FindBranch(c.branches, c.nodes[i].branch).value;
    assert RootCount(c.nodes, c.branches[b].id) == 1;
    if ri < rj {
      RootCountCounts(c.nodes, c.nodes[i].branch, ri, rj);
    } else if rj < ri {
      RootCountCounts(c.nodes, c.nodes[i].branch, rj, ri);
    }
  }

  /** Every node's price key resolves to the upgrade paid from that field. */
  lemma PriceKeysResolve(c: Config, i: nat)
    requires WellFormed(c) && i < |c.nodes|
    ensures E.UpgradeForKey(c.nodes[i].priceKey).Some?
    ensures E.PriceKey(E.UpgradeForKey(c.nodes[i].priceKey).value) == c.nodes[i].priceKey
  {
  }
}

=== FILE: ui_layout.dfy ===
/**
 * The arithmetic and the gating flag of the tech-tree modal: where each node
 * button goes, how large the modal is, where the tree is shifted to, and
 * which clicks and per-frame refreshes have an effect while the modal is
 * open or closed. Drawing, tweens and tooltips are not modelled; a callback
 * that fires is reported by its key.
 */
module UiLayout {
  import opened Wrappers
  import T = TechTree

  // ------------------------------------------------------------- node positions

  datatype Pos = Pos(x: real, y: real)

  /** The first declared branch a node belongs to, none when its branch is undeclared. */
  function BranchOf(c: T.Config, j: nat): (r: Option<T.Branch>)
    requires j < |c.nodes|
    ensures r.Some? <==> T.FindBranch(c.branches, c.nodes[j].branch).Some?
    ensures r.Some? ==> r.value.id == c.nodes[j].branch
  {
    match T.FindBranch(c.branches, c.nodes[j].branch)
    case None => None
    case Some(b) => Some(c.branches[b])
  }

  /** How many of the first `n` nodes sit in branch `b`. */
  function CountIn(nodes: seq<T.Node>, n: nat, b: string): (k: nat)
    requires n <= |nodes|
    ensures k <= n
  {
    if n == 0 then 0
    else CountIn(nodes, n - 1, b) + (if nodes[n - 1].branch == b then 1 else 0)
  }

  /** A node's row: the number of nodes of its branch listed before it. */
  function Row(nodes: seq<T.Node>, j: nat): nat
    requires j < |nodes|
  {
    CountIn(nodes, j, nodes[j].branch)
  }

  /** Where a node with a declared branch is drawn, given the tree offsets. */
  function Place(c: T.Config, j: nat, offX: real, offY: real): Pos
    requires j < |c.nodes| && BranchOf(c, j).Some?
  {
    PlaceAt(c.layout, BranchOf(c, j).value, Row(c.nodes, j), offX, offY)
  }

  /** The spot of row `row` in the column of branch `b`. */
  function PlaceAt(layout: T.Layout, b: T.Branch, row: nat, offX: real, offY: real): Pos
  {
    Pos(b.x as real + offX, offY + (layout.nodeStartY + row * layout.nodeSpacingY) as real)
  }

  /** No node with a declared branch among those before `n` and after `j` reuses node `j`'s id. */
  predicate LastBefore(c: T.Config, j: nat, n: nat)
    requires j < |c.nodes| && n <= |c.nodes|
  {
    forall k :: j < k < n && BranchOf(c, k).Some? ==> c.nodes[k].id != c.nodes[j].id
  }

  /** No later node with a declared branch reuses node `j`'s id, so its entry is not overwritten. */
  predicate LastPlaced(c: T.Config, j: nat)
    requires j < |c.nodes|
  {
    LastBefore(c, j, |c.nodes|)
  }

  /** The ids of the first `n` nodes whose branch is declared. */
  function PlacedIds(c: T.Config, n: nat): set<string>
    requires n <= |c.nodes|
  {
    if n == 0 then {}
    else PlacedIds(c, n - 1) + (if BranchOf(c, n - 1).Some? then {c.nodes[n - 1].id} else {})
  }

  lemma {:induction false} PlacedIdsMembers(c: T.Config, n: nat)
    requires n <= |c.nodes|
    ensures forall id :: id in PlacedIds(c, n) <==> exists j :: 0 <= j < n && BranchOf(c, j).Some? && c.nodes[j].id == id
  {
    if n > 0 {
      PlacedIdsMembers(c, n - 1);
      forall id | id in PlacedIds(c, n)
        ensures exists j :: 0 <= j < n && BranchOf(c, j).Some? && c.nodes[j].id == id
      {
        if id !in PlacedIds(c, n - 1) {
          assert c.nodes[n - 1].id == id;
        }
      }
    }
  }

  function Get(counters: map<string, nat>, b: string): nat
  {
    if b in counters then counters[b] else 0
  }

  /** The counters after the first `n` nodes: each declared branch's count so far. */
  predicate CountersAfter(c: T.Config, n: nat, counters: map<string, nat>)
    requires n <= |c.nodes|
  {
    forall j :: 0 <= j < |c.nodes| && BranchOf(c, j).Some? ==>
      Get(counters, c.nodes[j].branch) == CountIn(c.nodes, n, c.nodes[j].branch)
  }

  /** The positions after the first `n` nodes: each entry not yet overwritten is its node's place. */
  predicate PositionsAfter(c: T.Config, n: nat, positions: map<string, Pos>, offX: real, offY: real)
    requires n <= |c.nodes|
  {
    && positions.Keys == PlacedIds(c, n)
    && forall j :: 0 <= j < n && BranchOf(c, j).Some? && LastBefore(c, j, n) ==>
      c.nodes[j].id in positions && positions[c.nodes[j].id] == Place(c, j, offX, offY)
  }

  lemma CountStep(c: T.Config, i: nat, counters: map<string, nat>)
    requires i < |c.nodes| && BranchOf(c, i).Some? && CountersAfter(c, i, counters)
    ensures Get(counters, c.nodes[i].branch) == Row(c.nodes, i)
    ensures CountersAfter(c, i + 1, counters[c.nodes[i].branch := Get(counters, c.nodes[i].branch) + 1])
  {
  }

  lemma PlaceStep(c: T.Config, i: nat, positions: map<string, Pos>, offX: real, offY: real, place: Pos)
    requires i < |c.nodes| && BranchOf(c, i).Some? && PositionsAfter(c, i, positions, offX, offY)
    requires place == PlaceAt(c.layout, BranchOf(c, i).value, Row(c.nodes, i), offX, offY)
    ensures PositionsAfter(c, i + 1, positions[c.nodes[i].id := place], offX, offY)
  {
    var node := c.nodes[i];
    var next := positions[node.id := place];
    assert next.Keys == PlacedIds(c, i + 1);
    forall j | 0 <= j < i + 1 && BranchOf(c, j).Some? && LastBefore(c, j, i + 1)
      ensures c.nodes[j].id in next && next[c.nodes[j].id] == Place(c, j, offX, offY)
    {
      if j < i {
        assert LastBefore(c, j, i);
        assert c.nodes[j].id != node.id;
      }
    }
  }

  lemma SkipCount(c: T.Config, i: nat, counters: map<string, nat>)
    requires i < |c.nodes| && BranchOf(c, i).None? && CountersAfter(c, i, counters)
    ensures CountersAfter(c, i + 1, counters)
  {
    forall j | 0 <= j < |c.nodes| && BranchOf(c, j).Some?
      ensures c.nodes[j].branch != c.nodes[i].branch
    {
    }
  }

  lemma SkipPlace(c: T.Config, i: nat, positions: map<string, Pos>, offX: real, offY: real)
    requires i < |c.nodes| && BranchOf(c, i).None? && PositionsAfter(c, i, positions, offX, offY)
    ensures PositionsAfter(c, i + 1, positions, offX, offY)
  {
    forall j | 0 <= j < i + 1 && BranchOf(c, j).Some? && LastBefore(c, j, i + 1)
      ensures LastBefore(c, j, i)
    {
    }
  }

  /**
   * Lays the nodes out column by column: a node of an undeclared branch is
   * skipped and advances no counter; any other node takes its branch's
   * current counter as its row and moves the counter on.
   */
  method BuildBranchMap(c: T.Config, offX: real, offY: real) returns (positions: map<string, Pos>)
    ensures forall id :: id in positions <==>
      exists j :: 0 <= j < |c.nodes| && BranchOf(c, j).Some? && c.nodes[j].id == id
    ensures forall j :: 0 <= j < |c.nodes| && BranchOf(c, j).Some? && LastPlaced(c, j) ==>
      positions[c.nodes[j].id] == Place(c, j, offX, offY)
  {
    var counters: map<string, nat> := map[];
    positions := map[];
    var i := 0;
    while i < |c.nodes|
      invariant i <= |c.nodes|
      invariant counters == CountersOf(c, i) && positions == PositionsOf(c, i, offX, offY)
    {
      var node := c.nodes[i];
      var branch := BranchOf(c, i);
      if branch.Some? {
        var row := Get(counters, node.branch);
        counters := counters[node.branch := row + 1];
        positions := positions[node.id := PlaceAt(c.layout, branch.value, row, offX, offY)];
      }
      i := i + 1;
    }
    PositionsOfPlaces(c, |c.nodes|, offX, offY);
    FinishBranchMap(c, positions, offX, offY);
  }

  /** The counters after the first `n` turns of the layout loop. */
  function CountersOf(c: T.Config, n: nat): map<string, nat>
    requires n <= |c.nodes|
  {
    if n == 0 then map[]
    else
      var prev := CountersOf(c, n - 1);
      var node := c.nodes[n - 1];
      if BranchOf(c, n - 1).Some? then prev[node.branch := Get(prev, node.branch) + 1] else prev
  }

  /** The positions after the first `n` turns of the layout loop. */
  function PositionsOf(c: T.Config, n: nat, offX: real, offY: real): map<string, Pos>
    requires n <= |c.nodes|
  {
    if n == 0 then map[]
    else
      var prev := PositionsOf(c, n - 1, offX, offY);
      var node := c.nodes[n - 1];
      var branch := BranchOf(c, n - 1);
      if branch.Some? then
        prev[node.id := PlaceAt(c.layout, branch.value, Get(CountersOf(c, n - 1), node.branch), offX, offY)]
      else prev
  }

  /** The loop's counters hold, for every declared branch, how many of its nodes have gone by. */
  lemma {:induction false} CountersOfCounts(c: T.Config, n: nat)
    requires n <= |c.nodes|
    ensures CountersAfter(c, n, CountersOf(c, n))
  {
    if n > 0 {
      CountersOfCounts(c, n - 1);
      if BranchOf(c, n - 1).Some? {
        CountStep(c, n - 1, CountersOf(c, n - 1));
      } else {
        SkipCount(c, n - 1, CountersOf(c, n - 1));
      }
    }
  }

  /** The loop's positions put every node not yet overwritten at its place. */
  lemma {:induction false} PositionsOfPlaces(c: T.Config, n: nat, offX: real, offY: real)
    requires n <= |c.nodes|
    ensures PositionsAfter(c, n, PositionsOf(c, n, offX, offY), offX, offY)
  {
    if n > 0 {
      PositionsOfPlaces(c, n - 1, offX, offY);
      PositionsOfStep(c, n - 1, offX, offY);
    }
  }

  lemma PositionsOfStep(c: T.Config, i: nat, offX: real, offY: real)
    requires i < |c.nodes| && PositionsAfter(c, i, PositionsOf(c, i, offX, offY), offX, offY)
    ensures PositionsAfter(c, i + 1, PositionsOf(c, i + 1, offX, offY), offX, offY)
  {
    var prev := PositionsOf(c, i, offX, offY);
    if BranchOf(c, i).Some? {
      RowFromCounters(c, i);
      var place := PlaceAt(c.layout, BranchOf(c, i).value, Row(c.nodes, i), offX, offY);
      assert PositionsOf(c, i + 1, offX, offY) == prev[c.nodes[i].id := place];
      PlaceStep(c, i, prev, offX, offY, place);
    } else {
      assert PositionsOf(c, i + 1, offX, offY) == prev;
      SkipPlace(c, i, prev, offX, offY);
    }
  }

  /** The loop's counter for a declared node's branch is that node's row. */
  lemma RowFromCounters(c: T.Config, i: nat)
    requires i < |c.nodes| && BranchOf(c, i).Some?
    ensures Get(CountersOf(c, i), c.nodes[i].branch) == Row(c.nodes, i)
  {
    CountersOfCounts(c, i);
    CountStep(c, i, CountersOf(c, i));
  }

  /** Once every node is laid out, the entries are the declared nodes' ids, each at its last node's place. */
  lemma FinishBranchMap(c: T.Config, positions: map<string, Pos>, offX: real, offY: real)
    requires PositionsAfter(c, |c.nodes|, positions, offX, offY)
    ensures forall id :: id in positions <==>
      exists j :: 0 <= j < |c.nodes| && BranchOf(c, j).Some? && c.nodes[j].id == id
    ensures forall j :: 0 <= j < |c.nodes| && BranchOf(c, j).Some? && LastPlaced(c, j) ==>
      positions[c.nodes[j].id] == Place(c, j, offX, offY)
  {
    PlacedIdsMembers(c, |c.nodes|);
  }

  lemma {:induction false} CountInGrows(nodes: seq<T.Node>, m: nat, n: nat, b: string)
    requires m <= n <= |nodes|
    ensures CountIn(nodes, m, b) <= CountIn(nodes, n, b)
    decreases n
  {
    if m < n {
      CountInGrows(nodes, m, n - 1, b);
    }
  }

  /** Within one branch, a later node sits on a strictly later row. */
  lemma RowsIncrease(nodes: seq<T.Node>, i: nat, j: nat)
    requires i < j < |nodes| && nodes[i].branch == nodes[j].branch
    ensures Row(nodes, i) < Row(nodes, j)
  {
    CountInGrows(nodes, i + 1, j, nodes[i].branch);
  }

  /** Two nodes of one branch never share a y position when the spacing is positive. */
  lemma DistinctYInBranch(c: T.Config, i: nat, j: nat, offX: real, offY: real)
    requires i < j < |c.nodes| && c.nodes[i].branch == c.nodes[j].branch
    requires BranchOf(c, i).Some? && c.layout.nodeSpacingY > 0
    ensures Place(c, i, offX, offY).x == Place(c, j, offX, offY).x
    ensures Place(c, i, offX, offY).y < Place(c, j, offX, offY).y
  {
    RowsIncrease(c.nodes, i, j);
    var s := c.layout.nodeSpacingY;
    assert Row(c.nodes, i) * s < Row(c.nodes, j) * s by {
      StrictScale(Row(c.nodes, i), Row(c.nodes, j), s);
    }
  }

  lemma StrictScale(a: int, b: int, s: int)
    requires a < b && s > 0
    ensures a * s < b * s
  {
    assert b * s - a * s == (b - a) * s;
  }

  /** In the shipped tree every node is placed, at its branch's column and its row. */
  lemma ConfigPlacesEveryNode(j: nat, offX: real, offY: real)
    requires j < |T.Nodes|
    ensures BranchOf(T.TechTreeConfig, j).Some?
    ensures LastPlaced(T.TechTreeConfig, j)
  {
    T.ConfigIsWellFormed();
  }

  // ------------------------------------------------------------- modal size

  const Padding: int := 60

  datatype Size = Size(width: int, height: int)

  /** The most nodes any branch name has, counting undeclared branch names too. */
  function MaxRows(nodes: seq<T.Node>): (r: nat)
    ensures forall i :: 0 <= i < |nodes| ==> CountIn(nodes, |nodes|, nodes[i].branch) <= r
    ensures |nodes| > 0 ==> exists i :: 0 <= i < |nodes| && r == CountIn(nodes, |nodes|, nodes[i].branch)
  {
    MaxRowsOf(nodes, |nodes|)
  }

  function MaxRowsOf(nodes: seq<T.Node>, n: nat): (r: nat)
    requires n <= |nodes|
    ensures forall i :: 0 <= i < n ==> CountIn(nodes, |nodes|, nodes[i].branch) <= r
    ensures n > 0 ==> exists i :: 0 <= i < n && r == CountIn(nodes, |nodes|, nodes[i].branch)
  {
    if n == 0 then 0
    else
      var here := CountIn(nodes, |nodes|, nodes[n - 1].branch);
      var rest := MaxRowsOf(nodes, n - 1);
      if here > rest then here else rest
  }

  /**
   * The modal's width spans the first to the last branch column plus one node
   * and padding on both sides; its height fits the longest column plus
   * padding. With no branches the source throws on the undefined last
   * branch; with no nodes its maximum over no rows is negative infinity, so
   * the height is negative infinity for a positive spacing, NaN for a zero
   * spacing and positive infinity for a negative one, and the modal is
   * built anyway. Both cases are reported here as no size.
   */
  function ModalSize(c: T.Config): (r: Option<Size>)
    ensures r.None? <==> c.branches == [] || c.nodes == []
    ensures r.Some? ==> r.value.width == c.branches[|c.branches| - 1].x - c.branches[0].x + c.layout.nodeWidth + 2 * Padding
    ensures r.Some? ==>
      exists i :: 0 <= i < |c.nodes| &&
        r.value.height == c.layout.nodeStartY + CountIn(c.nodes, |c.nodes|, c.nodes[i].branch) * c.layout.nodeSpacingY + Padding
  {
    if c.branches == [] || c.nodes == [] then None
    else
      var first := c.branches[0];
      var last := c.branches[|c.branches| - 1];
      Some(Size(last.x - first.x + c.layout.nodeWidth + Padding * 2,
                c.layout.nodeStartY + MaxRows(c.nodes) * c.layout.nodeSpacingY + Padding))
  }

  /**
   * Every node's row fits: measured from the modal's top edge, a node's y is
   * at most the height less the bottom padding and one spacing.
   */
  lemma NodesFitModalHeight(c: T.Config, j: nat)
    requires j < |c.nodes| && c.layout.nodeSpacingY >= 0 && ModalSize(c).Some?
    ensures c.layout.nodeStartY + Row(c.nodes, j) * c.layout.nodeSpacingY
            <= ModalSize(c).value.height - Padding - c.layout.nodeSpacingY
  {
    var b := c.nodes[j].branch;
    CountInGrows(c.nodes, j + 1, |c.nodes|, b);
    var rows := MaxRows(c.nodes);
    assert Row(c.nodes, j) + 1 <= rows;
    var s := c.layout.nodeSpacingY;
    assert (Row(c.nodes, j) + 1) * s <= rows * s by {
      WeakScale(Row(c.nodes, j) + 1, rows, s);
    }
  }

  lemma WeakScale(a: int, b: int, s: int)
    requires a <= b && s >= 0
    ensures a * s <= b * s
  {
    assert b * s - a * s == (b - a) * s;
  }

  /** When branch `b` is exactly the block of positions `s` to `e`, the count is the part of the block already passed. */
  lemma {:induction false} CountBlock(nodes: seq<T.Node>, n: nat, b: string, s: nat, e: nat)
    requires n <= |nodes| && s <= e
    requires forall j :: 0 <= j < n ==> (nodes[j].branch == b <==> s <= j < e)
    ensures CountIn(nodes, n, b) == if n <= s then 0 else if n >= e then e - s else n - s
    decreases n
  {
    if n > 0 {
      CountBlock(nodes, n - 1, b, s, e);
    }
  }

  /** Every branch of the shipped tree holds three nodes. */
  lemma ConfigColumnsHoldThree(i: nat)
    requires i < |T.Nodes|
    ensures CountIn(T.Nodes, |T.Nodes|, T.Nodes[i].branch) == 3
  {
    var b := T.Nodes[i].branch;
    if b == T.Production.id {
      ProductionColumn();
    } else if b == T.Automation.id {
      AutomationColumn();
    } else {
      GravityColumn();
    }
  }

  lemma ProductionColumn()
    ensures CountIn(T.Nodes, |T.Nodes|, T.Production.id) == 3
  {
    ThreeInColumn(T.Production.id, 0);
  }

  lemma AutomationColumn()
    ensures CountIn(T.Nodes, |T.Nodes|, T.Automation.id) == 3
  {
    ThreeInColumn(T.Automation.id, 3);
  }

  lemma GravityColumn()
    ensures CountIn(T.Nodes, |T.Nodes|, T.Gravity.id) == 3
  {
    ThreeInColumn(T.Gravity.id, 6);
  }

  /** Branch `b` holds exactly the three nodes starting at `s`. */
  lemma ThreeInColumn(b: string, s: nat)
    requires s + 3 <= |T.Nodes|
    requires forall j :: 0 <= j < |T.Nodes| ==> (T.Nodes[j].branch == b <==> s <= j < s + 3)
    ensures CountIn(T.Nodes, |T.Nodes|, b) == 3
  {
    CountBlock(T.Nodes, |T.Nodes|, b, s, s + 3);
  }

  /** The shipped tree opens a 570 by 680 modal. */
  lemma ConfigModalSize()
    ensures ModalSize(T.TechTreeConfig) == Some(Size(570, 680))
  {
    var rows := MaxRows(T.Nodes);
    var i :| 0 <= i < |T.Nodes| && rows == CountIn(T.Nodes, |T.Nodes|, T.Nodes[i].branch);
    ConfigColumnsHoldThree(i);
  }

  // ------------------------------------------------------------- tree offsets

  /**
   * The shift applied to every branch column so that the tree sits centred
   * in a modal of the given size on a screen of the given size: the first
   * column lands one padding plus half a node inside the panel's left edge,
   * and the vertical shift is the panel's top edge, which leaves as much
   * screen below the panel as above it.
   */
  function TreeOffset(c: T.Config, screenW: real, screenH: real, size: Size): (r: Pos)
    requires c.branches != []
    ensures c.branches[0].x as real + r.x == (screenW - size.width as real) / 2.0 + Padding as real + c.layout.nodeWidth as real / 2.0
    ensures r.y == screenH - (r.y + size.height as real)
  {
    Pos(screenW / 2.0 - size.width as real / 2.0 + Padding as real - c.branches[0].x as real + c.layout.nodeWidth as real / 2.0,
        screenH / 2.0 - size.height as real / 2.0)
  }

  /**
   * The first and last columns sit one padding plus half a node in from the
   * modal's left and right edges, so the columns are centred on the screen.
   */
  lemma ColumnsCentred(c: T.Config, screenW: real, screenH: real)
    requires ModalSize(c).Some?
    ensures var size := ModalSize(c).value;
            var off := TreeOffset(c, screenW, screenH, size);
            var left := screenW / 2.0 - size.width as real / 2.0;
            var right := screenW / 2.0 + size.width as real / 2.0;
            && c.branches[0].x as real + off.x == left + Padding as real + c.layout.nodeWidth as real / 2.0
            && c.branches[|c.branches| - 1].x as real + off.x == right - Padding as real - c.layout.nodeWidth as real / 2.0
  {
  }

  /**
   * Every placed node lies inside the panel drawn from `cy - height / 2` to
   * `cy + height / 2`: its y is at or below the panel's top edge and leaves
   * the bottom padding and one spacing free above the bottom edge.
   */
  lemma NodesInsidePanel(c: T.Config, j: nat, screenW: real, screenH: real)
    requires j < |c.nodes| && BranchOf(c, j).Some? && ModalSize(c).Some?
    requires c.layout.nodeStartY >= 0 && c.layout.nodeSpacingY >= 0
    ensures var size := ModalSize(c).value;
            var off := TreeOffset(c, screenW, screenH, size);
            var y := Place(c, j, off.x, off.y).y;
            && screenH / 2.0 - size.height as real / 2.0 <= y
            && y <= screenH / 2.0 + size.height as real / 2.0 - (Padding + c.layout.nodeSpacingY) as real
  {
    var size := ModalSize(c).value;
    var s := c.layout.nodeSpacingY;
    var row := Row(c.nodes, j);
    NodesFitModalHeight(c, j);
    WeakScale(0, row, s);
    var drop := c.layout.nodeStartY + row * s;
    assert 0 <= drop <= size.height - Padding - s;
    assert Place(c, j, TreeOffset(c, screenW, screenH, size).x, TreeOffset(c, screenW, screenH, size).y).y
           == screenH / 2.0 - size.height as real / 2.0 + drop as real;
  }

  // ------------------------------------------------------------- modal gating

  datatype Ui = Ui(modalOpen: bool)

  const Closed: Ui := Ui(false)

  function OpenModal(ui: Ui): (r: Ui)
    ensures r.modalOpen
  {
    ui.(modalOpen := true)
  }

  function CloseModal(ui: Ui): (r: Ui)
    ensures !r.modalOpen
  {
    ui.(modalOpen := false)
  }

  function ToggleModal(ui: Ui): (r: Ui)
    ensures r.modalOpen == !ui.modalOpen
  {
    if ui.modalOpen then CloseModal(ui) else OpenModal(ui)
  }

  /** A click on the dim overlay behind the open modal closes it. */
  function DimOverlayClick(ui: Ui): (r: Ui)
    ensures !r.modalOpen
  {
    CloseModal(ui)
  }

  lemma ToggleTwiceRestores(ui: Ui)
    ensures ToggleModal(ToggleModal(ui)) == ui
    ensures OpenModal(OpenModal(ui)) == OpenModal(ui) && CloseModal(CloseModal(ui)) == CloseModal(ui)
  {
  }

  const IncrementKey: string := "onIncrement"

  /** The full-screen background click: the increment callback fires only while the modal is closed. */
  function BackgroundClick(ui: Ui, bound: set<string>): (fired: Option<string>)
    ensures fired.Some? <==> !ui.modalOpen && IncrementKey in bound
    ensures fired.Some? ==> fired.value == IncrementKey
  {
    if !ui.modalOpen && IncrementKey in bound then Some(IncrementKey) else None
  }

  /** A click on a node button: its callback fires only while the modal is open and the key is bound. */
  function NodeClick(ui: Ui, node: T.Node, bound: set<string>): (fired: Option<string>)
    ensures fired.Some? <==> ui.modalOpen && node.callbackKey in bound
    ensures fired.Some? ==> fired.value == node.callbackKey
  {
    if !ui.modalOpen then None
    else if node.callbackKey in bound then Some(node.callbackKey)
    else None
  }

  /** At no moment can both the background and a node button fire. */
  lemma ClicksAreExclusive(ui: Ui, node: T.Node, bound: set<string>)
    ensures BackgroundClick(ui, bound).None? || NodeClick(ui, node, bound).None?
    ensures BackgroundClick(Closed, bound) == (if IncrementKey in bound then Some(IncrementKey) else None)
    ensures NodeClick(Closed, node, bound).None?
  {
  }

  // ------------------------------------------------------------- per-frame refresh

  /**
   * Rewrites the entries of `shown` (one per node button that was built)
   * node by node; `next` gives a node's new value, none to leave it alone.
   * A later node with the same id overwrites an earlier one.
   */
  function Refresh<V>(nodes: seq<T.Node>, shown: map<string, V>, next: T.Node -> Option<V>): (r: map<string, V>)
    ensures r.Keys == shown.Keys
    decreases |nodes|
  {
    if nodes == [] then shown
    else
      var n := nodes[|nodes| - 1];
      var before := Refresh(nodes[..|nodes| - 1], shown, next);
      if n.id in before && next(n).Some? then before[n.id := next(n).value] else before
  }

  /** An entry no node has a new value for keeps its value. */
  lemma {:induction false} RefreshKeeps<V>(nodes: seq<T.Node>, shown: map<string, V>, next: T.Node -> Option<V>, k: string)
    requires k in shown
    requires forall j :: 0 <= j < |nodes| && nodes[j].id == k ==> next(nodes[j]).None?
    ensures Refresh(nodes, shown, next)[k] == shown[k]
    decreases |nodes|
  {
    if nodes != [] {
      RefreshKeeps(nodes[..|nodes| - 1], shown, next, k);
    }
  }

  /** An entry takes the value of the last node with its id that has a new value. */
  lemma {:induction false} RefreshLastWins<V>(nodes: seq<T.Node>, shown: map<string, V>, next: T.Node -> Option<V>, j: nat)
    requires j < |nodes| && nodes[j].id in shown && next(nodes[j]).Some?
    requires forall l :: j < l < |nodes| && nodes[l].id == nodes[j].id ==> next(nodes[l]).None?
    ensures Refresh(nodes, shown, next)[nodes[j].id] == next(nodes[j]).value
    decreases |nodes|
  {
    var last := |nodes| - 1;
    if j < last {
      var init := nodes[..last];
      assert init[j] == nodes[j];
      forall l | j < l < |init| && init[l].id == init[j].id
        ensures next(init[l]).None?
      {
        assert init[l] == nodes[l];
      }
      RefreshLastWins(init, shown, next, j);
    }
  }

  /** The price shown on a node: the entry of its price key, when there is one. */
  function PriceText(prices: map<string, string>): T.Node -> Option<string>
  {
    (n: T.Node) => if n.priceKey in prices then Some(prices[n.priceKey]) else None
  }

  /** A node is affordable unless its callback key's entry is exactly false. */
  predicate Affordable(affordability: map<string, bool>, key: string)
  {
    !(key in affordability && !affordability[key])
  }

  function Alpha(affordability: map<string, bool>): T.Node -> Option<real>
  {
    (n: T.Node) => Some(if Affordable(affordability, n.callbackKey) then 1.0 else 0.35)
  }

  function UpdateButtonTexts(ui: Ui, texts: map<string, string>, prices: map<string, string>): (r: map<string, string>)
    ensures !ui.modalOpen ==> r == texts
    ensures r.Keys == texts.Keys
  {
    if !ui.modalOpen then texts else Refresh(T.Nodes, texts, PriceText(prices))
  }

  function UpdateButtonStates(ui: Ui, alphas: map<string, real>, affordability: map<string, bool>): (r: map<string, real>)
    ensures !ui.modalOpen ==> r == alphas
    ensures r.Keys == alphas.Keys
  {
    if !ui.modalOpen then alphas else Refresh(T.Nodes, alphas, Alpha(affordability))
  }

  /**
   * While the modal is open, every built node button of the shipped tree shows
   * its price when its price key is present and keeps its text otherwise.
   */
  lemma OpenModalShowsPrices(texts: map<string, string>, prices: map<string, string>, j: nat)
    requires j < |T.Nodes| && T.Nodes[j].id in texts
    ensures var r := UpdateButtonTexts(Ui(true), texts, prices);
            r[T.Nodes[j].id] == if T.Nodes[j].priceKey in prices then prices[T.Nodes[j].priceKey] else texts[T.Nodes[j].id]
  {
    T.NodeIdsAreUnique();
    if T.Nodes[j].priceKey in prices {
      RefreshLastWins(T.Nodes, texts, PriceText(prices), j);
    } else {
      forall l | 0 <= l < |T.Nodes| && T.Nodes[l].id == T.Nodes[j].id
        ensures PriceText(prices)(T.Nodes[l]).None?
      {
        assert l == j;
      }
      RefreshKeeps(T.Nodes, texts, PriceText(prices), T.Nodes[j].id);
    }
  }

  /**
   * While the modal is open, a built node button of the shipped tree is dimmed
   * to 0.35 exactly when its callback's affordability entry is false, and is
   * fully opaque otherwise.
   */
  lemma OpenModalDimsUnaffordable(alphas: map<string, real>, affordability: map<string, bool>, j: nat)
    requires j < |T.Nodes| && T.Nodes[j].id in alphas
    ensures var r := UpdateButtonStates(Ui(true), alphas, affordability);
            && (r[T.Nodes[j].id] == 0.35 <==> T.Nodes[j].callbackKey in affordability && !affordability[T.Nodes[j].callbackKey])
            && (r[T.Nodes[j].id] == 1.0 <==> Affordable(affordability, T.Nodes[j].callbackKey))
  {
    T.NodeIdsAreUnique();
    RefreshLastWins(T.Nodes, alphas, Alpha(affordability), j);
  }
}

=== FILE: wrappers.dfy ===
/** Failure-compatible wrappers shared by every module of the model. */
module Wrappers {

  /** A value that may be absent: JavaScript's `null`/`undefined` on the way in. */
  datatype Option<+T> = None | Some(value: T)

  /** The outcome of an operation that can throw (a JavaScript exception). */
  datatype Result<+R, +E> = Success(value: R) | Failure(error: E)
}
